=== FILE: README.md ===
# dax_imgserv core in Dafny

This project models the decision logic of the LSST image server's
bookkeeping tools:

- **The catalog crawler** (`Crawler`, `Timestamp`). The crawler scan cycle is
  modelled as a trace of calls. One pass searches the datacat for unscanned
  datasets. For each dataset it then:
  - picks the SLAC location;
  - stats the file and checksums it;
  - builds the scan result, with its `strftime` timestamp;
  - writes back in two phases: a scan patch, `insertFile`, then a patch
    carrying the file id.

  The trace ends with a final status: completed, `sys.exit(1)`, or an
  uncaught exception.
- **The FITS metadata bookkeeping** (`FitsExt`, `FitsSchema`, `MetadataFitsDb`):
  - the file-name test and the magic-bytes test;
  - the `INSERT` builder;
  - header scanning with its line numbering and HDU count;
  - the key/value rows, including the expansion of tuple values;
  - the column rules of `MetadataPosition._insert`;
  - the insert-if-absent transaction over a database of file rows, where all
    the inserts of one file commit together or not at all.
- **The DataCat utility** (`DataCatUtil`):
  - the dataset-name rewrite;
  - registering and deleting one dataset;
  - the counting of the two directory crawls;
  - the option fold and command dispatch of `main`.
- **The REST validators** (`ImageRest`):
  - `checkRaDec` and `checkRaDecFilter`;
  - the order in which the full-image, cutout and sky-map handlers validate
    their arguments.
- **The cutout geometry** (`LocateImage`):
  - `_keepWithin180` and `_arcsecToDeg`;
  - the search box and SELECT list of the nearest-image query;
  - the first-row key selection of `_getImageButler`;
  - `_cutoutBoxPixels`.

External collaborators are parameters (oracles):

- the datacat client: a `Py` outcome per call;
- the SQL connection: a fault predicate over statement positions;
- the filesystem: `os.stat`, `cksum` output, file heads, the HDU reader and
  the walked file list;
- `float()`, `int()` and the `time.strptime` date check;
- the image butler.

Python exceptions are values of `Py.Exc`. A function that can raise returns
`Py<T>` = `Returns(value) | Raises(exc)`. Only the handlers the source
writes catch anything. Python floats are idealised as `real`, and `int()` of
a float is truncation toward zero (`Py.Trunc`).

Two runtime behaviours of Python 2 and `lsst.log` shape the error paths:

- Query arguments are unicode. `"...{}".format(x)` on a byte-string template
  raises UnicodeEncodeError, a ValueError, when `x` holds a non-ASCII
  character (`Py.FormatArg`). The REST messages are built this way.
- An `lsst.log` call with arguments renders `fmt % args`. That raises
  TypeError unless there is one argument per conversion (`Py.LogCall`).

## Model

| member | source | states |
|---|---|---|
| Crawler.ChooseLocation | python/lsst/dax/imgserv/crawler.py:110-116 | The chosen location has site SLAC and is the first one in list order with that site. The result is None exactly when no location has site SLAC. |
| Crawler.GetCksum | python/lsst/dax/imgserv/crawler.py:73-81 | The checksum is a prefix of the `cksum` output, holds no space, and is followed by a space when it is shorter than the output. This determines it as the first space-delimited token, whatever the exit code. |
| Crawler.ScanResult | python/lsst/dax/imgserv/crawler.py:124-133 | The scan result has exactly the keys size, checksum, locationScanned and scanStatus, plus versionMetadata only when the metadata is truthy. size and checksum hold the inputs, and scanStatus is "OK". locationScanned parses back to the scan time. |
| Crawler.RunCycle | python/lsst/dax/imgserv/crawler.py:92-108 | The first call of every cycle is the search of `/LSST`, version current, site `all`, query `scanStatus = 'UNSCANNED'`, at most 1000 results. If the search raises, nothing else is called. A DcException gives exit status 1 and any other exception crashes the cycle. |
| Crawler.Refusal | python/lsst/dax/imgserv/crawler.py:147-148 | As written: the handler's `warn` gets two arguments for one conversion and raises TypeError. So every exception of a write-back step, DcException included, aborts the loop. |
| Crawler.RefusalChecked | python/lsst/dax/imgserv/crawler.py:147-148 | Corrected: a DcException gives the step's refused fate, and any other exception aborts the loop with that exception. |
| Crawler.OnlyDcExceptionIsCaught | python/lsst/dax/imgserv/crawler.py:110-148 | With the corrected handler: a dataset's processing aborts the loop unless all of these hold: a SLAC location exists, stat returns, the location's path is ASCII, and each write-back step that runs returns or raises DcException. A non-ASCII path aborts with UnicodeEncodeError after stat and cksum and before any patch, because `str(file_path)` opens the `try` block. A refused scan patch ends the dataset after 3 calls. A recorded dataset takes 5 calls and ends with the id patch. |
| Crawler.DatasetRunOrdered | python/lsst/dax/imgserv/crawler.py:119-146 | Within a dataset, every insertFile call directly follows an accepted scan patch. Every id patch directly follows an insertFile and carries the id it returned. |
| Crawler.CaughtFailuresStayLocal | python/lsst/dax/imgserv/crawler.py:110-148 | With the corrected handler: when no dataset aborts, the loop visits every dataset. A DcException in one dataset's write-back only skips the rest of that dataset. |
| Crawler.AbortEndsLoop | python/lsst/dax/imgserv/crawler.py:110-148 | The first dataset whose processing raises an uncaught exception ends the loop. The trace holds the calls of the datasets up to and including it, and the loop reports that exception. |
| Crawler.CycleCompletes | python/lsst/dax/imgserv/crawler.py:108-148 | A cycle whose search returns completes exactly when no dataset aborts. Its trace is then the search followed by every dataset's calls in order. |
| Crawler.MissingSiteEndsCycle | python/lsst/dax/imgserv/crawler.py:110-148 | A dataset with no SLAC location crashes the cycle with AttributeError, provided no earlier dataset aborted. The trace stops after the datasets before it. |
| Crawler.NonAsciiPathEndsCycle | python/lsst/dax/imgserv/crawler.py:116-148 | A dataset whose SLAC path is not ASCII, whose stat returns, and which no earlier dataset's abort pre-empts, crashes the cycle with UnicodeEncodeError. The trace ends with that dataset's stat and cksum calls, and no patch is sent for it. |
| Crawler.CycleOrdered | python/lsst/dax/imgserv/crawler.py:92-148 | In every cycle's trace, the write-back calls are ordered: scan patch, then insertFile, then id patch. insertFile is called at most as often as a scan patch was accepted. |
| Crawler.InsertsFollowAcceptedPatches | python/lsst/dax/imgserv/crawler.py:135-146 | In an ordered trace, the insertFile calls number at most the accepted scan patches. |
| Crawler.CyclesStarted | python/lsst/dax/imgserv/crawler.py:69-71 | `_run` re-arms only after a cycle that returns. Every cycle started before the last one completed. The first non-completed cycle is the last one started. |
| Timestamp.Format | python/lsst/dax/imgserv/crawler.py:128 | `%Y-%m-%dT%H:%M:%SZ` gives 20 characters: `-` at indices 4 and 7, `T` at 10, `:` at 13 and 16, `Z` at 19, and digits everywhere else. |
| Timestamp.ParseFormat | python/lsst/dax/imgserv/crawler.py:128 | Parsing the formatted time gives back the time, so no field is lost or clipped by the zero padding. |
| Timestamp.FormatInjective | python/lsst/dax/imgserv/crawler.py:128 | Two different times format to different strings. |
| FitsExt.IsFitsExt | python/lsst/dax/imgserv/MetadataFitsDb.py:342-354 | A name passes exactly when it ends in `.fits`, or when a dot put in front of it makes it end in `.fits.gz`. Either way there are at least two dot-separated components. |
| FitsExt.LastPartIsSuffix | python/lsst/dax/imgserv/MetadataFitsDb.py:345-351 | The last of at least two `split` components is `w` exactly when the name ends with the separator followed by `w`. |
| FitsExt.LastTwoPartsAreSuffix | python/lsst/dax/imgserv/MetadataFitsDb.py:345-353 | The last two components are `w1` and `w2` exactly when the name, with a separator in front, ends in `c w1 c w2`. |
| FitsExt.FitsNamesPass | tests/metadataFitsTest.py:60-63 | For any stem, a name ending in `.fits` or `.fits.gz` passes the extension test. |
| FitsExt.OtherNamesFail | tests/metadataFitsTest.py:61-62 | For any stem, a name ending in `.txt` or `.tx.gz` fails the extension test. |
| MetadataFitsDb.IsFits | python/lsst/dax/imgserv/MetadataFitsDb.py:357-368 | The result is True exactly when the extension test passes and the first 9 bytes read are `SIMPLE  =`. It is False without reading when the extension fails. It raises exactly when the extension passes and reading raises. |
| MetadataFitsDb.ExecuteInsertList | python/lsst/dax/imgserv/MetadataFitsDb.py:53-80 | An empty column list gives None. Otherwise the statement is `INSERT INTO t (c1, c2, ...) Values (%s, %s, ...)`, with the column names joined in order and one placeholder per column. The values are bound in the same order. |
| MetadataFitsDb.Put | python/lsst/dax/imgserv/MetadataFitsDb.py:133 | After storing an entry, looking up its (name, hdu) key gives its value. A new key is appended at the end. |
| MetadataFitsDb.LineNumbersContiguous | python/lsst/dax/imgserv/MetadataFitsDb.py:129-139 | For one HDU with distinct names, the emitted values have line numbers exactly 0 .. n-1 in order, where n is the total width and a tuple of length k counts k. |
| MetadataFitsDb.NumberedLines | python/lsst/dax/imgserv/MetadataFitsDb.py:129-139 | From any starting line number, value k of the expanded entries gets that number plus k, and all values carry the HDU. |
| MetadataFitsDb.ScanFileAllHdus | python/lsst/dax/imgserv/MetadataFitsDb.py:101-111 | The scan reads HDUs 1, 2, ... until the first that cannot be read. `hdus` is the last HDU that was read, or 1 when none was. |
| MetadataFitsDb.KeyValueRow | python/lsst/dax/imgserv/MetadataFitsDb.py:234-256 | Every key/value row has the file id, key, HDU, string value, line number and comment. intValue is present exactly when the value is not a float and `int()` parses it. doubleValue is present exactly when `float()` parses it. |
| MetadataFitsDb.KeyValueRows | python/lsst/dax/imgserv/MetadataFitsDb.py:303-314 | There is one row per emitted value, in order, with each tuple item a value of its own. |
| MetadataFitsDb.PositionColumns | python/lsst/dax/imgserv/MetadataFitsDb.py:165-201 | A DATE that is not text raises AttributeError. A tuple EQUINOX or EPOC is the only source of TypeError. Otherwise the columns are computed. |
| MetadataFitsDb.PositionColumnsMeaning | python/lsst/dax/imgserv/MetadataFitsDb.py:165-201 | A position column is set exactly when its rule yields a value, and it holds that value. pdate is set when DATE with `T` replaced by a space passes the date check. equinox comes from EQUINOX if it parses, else from EPOC. pRa, pDec and rotAng come from PRA, PDEC and ROTANG, and pDate from DATE. |
| MetadataFitsDb.RowOfColumns | python/lsst/dax/imgserv/MetadataFitsDb.py:203-205 | A row is produced exactly when some column was set. It adds fitsFileId and hdu to the columns. |
| MetadataFitsDb.PositionRowMeaning | python/lsst/dax/imgserv/MetadataFitsDb.py:165-205 | An HDU gets a position row exactly when some position rule yields a value. The row starts with fitsFileId and hdu and holds exactly the columns whose rule yields a value. |
| MetadataFitsDb.IsFileInDb | python/lsst/dax/imgserv/MetadataFitsDb.py:271-279 | The result is true exactly when some file row has that file name. |
| MetadataFitsDb.RunStepsOutcome | python/lsst/dax/imgserv/MetadataFitsDb.py:291-319 | A transaction commits exactly when no step raises and no statement fails. A commit stores exactly the planned key/value and position rows. A raise comes from a planned step. |
| MetadataFitsDb.PlanRows | python/lsst/dax/imgserv/MetadataFitsDb.py:303-317 | The plan raises exactly when some HDU's `_insert` raises, and then only AttributeError or TypeError. Otherwise it inserts the key/value rows of all entries, then one position row per HDU that yields one. |
| MetadataFitsDb.TransactionOutcome | python/lsst/dax/imgserv/MetadataFitsDb.py:291-317 | A transaction only runs for a file that is not yet stored, and uses the next id. When it commits, it stores exactly the file's key/value and position rows. |
| MetadataFitsDb.InsertMetadataFits | python/lsst/dax/imgserv/MetadataFitsDb.py:281-320 | As written: a file already stored returns -1 and changes nothing. Otherwise the database ends either unchanged or with the file added. An id other than -1 is the next id, given to a file not stored before. A failed `begin` raises. Which of the two outcomes a failing statement gives is stated by `DbErrorLeavesDbUnaltered`. |
| MetadataFitsDb.InsertMetadataFitsChecked | python/lsst/dax/imgserv/MetadataFitsDb.py:281-320 | Corrected: -1 exactly when nothing changed, and any other id is the new file's, with all its rows added. A stored file gives -1. A database error is logged, not raised. |
| MetadataFitsDb.InsertOutcome | python/lsst/dax/imgserv/MetadataFitsDb.py:291-317 | For a new file and a working database, the insert raises exactly when some HDU's `_insert` raises. Otherwise it returns the next id with every row added. |
| MetadataFitsDb.InsertIdempotent | python/lsst/dax/imgserv/MetadataFitsDb.py:293-302 | Corrected: inserting a file a second time, after it was added, returns -1 and leaves the database as it was. |
| MetadataFitsDb.DbErrorLeavesDbUnaltered | python/lsst/dax/imgserv/MetadataFitsDb.py:291-320 | When `begin` succeeds and any later statement fails, the as-written insert leaves the database unaltered whenever it returns, and it does return unless a planned step raised. The corrected insert then returns -1 with the database unaltered. |
| MetadataFitsDb.RollbackReturnsId | python/lsst/dax/imgserv/MetadataFitsDb.py:291-320 | When the first key/value insert fails, the as-written version returns the new id although the file is not in the database. The corrected version returns -1. |
| MetadataFitsDb.BeginFailureRaises | python/lsst/dax/imgserv/MetadataFitsDb.py:291-319 | When `begin` fails, the as-written handler raises instead of returning -1. The corrected version returns -1 with the database unchanged. |
| MetadataFitsDb.InsertFile | python/lsst/dax/imgserv/MetadataFitsDb.py:258-269 | As written, over the as-written insert. A non-FITS name, or a file whose head is not the magic, returns -1 and changes nothing. A read error propagates. Any other id is the next id of a file that was not stored. The database is then either unchanged (a rollback) or has all HDUs' rows added. A failed `begin` raises. |
| MetadataFitsDb.InsertFileChecked | python/lsst/dax/imgserv/MetadataFitsDb.py:258-269 | Corrected: `insertFile` over the corrected insert. -1 changes nothing. Any other id is the next id, the file is then in the database, and all HDUs' rows are added. |
| DataCatUtil.DatasetNameIsRewrite | python/lsst/dax/imgserv/dataCatUtil.py:119-120 | The dataset name is the prefix followed by the path with every `/` replaced by `.`. It has the same length and no `/` after the prefix. |
| DataCatUtil.DatasetNameMerges | python/lsst/dax/imgserv/dataCatUtil.py:119-120 | The rewrite is not injective. Any two paths that agree once `/` is replaced by `.` get the same dataset name, as `a/b` and `a.b` do. |
| DataCatUtil.FullDatasetName | python/lsst/dax/imgserv/dataCatUtil.py:99 | The full name is `/LSST/` followed by the dataset name. |
| DataCatUtil.RegisterFile | python/lsst/dax/imgserv/dataCatUtil.py:81-96 | As written: it returns exactly when create_dataset of the given dataset name, for the file, raises DcException. After a successful create, the `info` call with three arguments and no conversion raises TypeError before the lookup is made. |
| DataCatUtil.RegisterFileChecked | python/lsst/dax/imgserv/dataCatUtil.py:81-96 | Corrected: it returns exactly when create_dataset and the later lookup of `/LSST/` plus the file name each return or raise DcException. The lookup runs only after a successful create. |
| DataCatUtil.DeleteDataset | python/lsst/dax/imgserv/dataCatUtil.py:98-104 | `deleteDataset` returns exactly when delete_dataset of `/LSST/<name>` returns or raises DcException. Anything else propagates. |
| DataCatUtil.RegisterStepCounts | python/lsst/dax/imgserv/dataCatUtil.py:118-135 | A file counts exactly when it is FITS and create_dataset returned, for the dataset named from the prefix and the path with the path as resource, even if the lookup then raises DcException. The step raises on an isFits error or on a non-DcException error. |
| DataCatUtil.CountWhereMeaning | python/lsst/dax/imgserv/dataCatUtil.py:106-161 | The crawls' counter: it is 0 exactly when no file satisfies the test, and equals the number of files exactly when every file does. |
| DataCatUtil.CountRegisteredMeaning | python/lsst/dax/imgserv/dataCatUtil.py:106-136 | The register count is 0 exactly when no file is registered, and equals the number of files exactly when every file is. |
| DataCatUtil.CrawlRegister | python/lsst/dax/imgserv/dataCatUtil.py:106-136 | The crawl returns exactly when no step raises. Its count is the number of registered files, and a raise is some step's exception. |
| DataCatUtil.DeleteStepCounts | python/lsst/dax/imgserv/dataCatUtil.py:150-160 | A file counts exactly when it is FITS and delete_dataset of its derived name returned. |
| DataCatUtil.CountDeletedMeaning | python/lsst/dax/imgserv/dataCatUtil.py:138-161 | The delete count is 0 exactly when no file's dataset is deleted, and equals the number of files exactly when every file's is. |
| DataCatUtil.CrawlDelete | python/lsst/dax/imgserv/dataCatUtil.py:138-161 | The crawl returns exactly when no step raises. Its count is the number of deleted files, and a raise is some step's exception. |
| DataCatUtil.RegisterThenDelete | python/lsst/dax/imgserv/dataCatUtil.py:106-161 | Against a catalog of dataset names, the delete crawl with a prefix removes the dataset the register crawl created for the same file and prefix. In a catalog without it, register counts the file and delete counts nothing. Once it is in the catalog, delete counts the file. The dataset both name is `/LSST/`, then the prefix, then the path with every `/` replaced by `.`. |
| DataCatUtil.NonFitsNeverCounted | python/lsst/dax/imgserv/dataCatUtil.py:118-150 | A file that isFits does not accept is counted by neither crawl. |
| DataCatUtil.BranchesAreExact | python/lsst/dax/imgserv/dataCatUtil.py:188-206 | The substring tests `opt in ("--regf")` and the others select the intended branch for every option getopt can return. |
| DataCatUtil.FoldField | python/lsst/dax/imgserv/dataCatUtil.py:188-206 | Each of fileName, dirName and datasetName ends as the argument of the last option that stores it, or "" if none does. |
| DataCatUtil.LastRegWins | python/lsst/dax/imgserv/dataCatUtil.py:192-197 | The command is that of the last `--regf` or `--regd`. |
| DataCatUtil.FirstDelWins | python/lsst/dax/imgserv/dataCatUtil.py:198-203 | With no register option, the command is that of the first `--DEL` or `--DEL_dir`. |
| DataCatUtil.CommandPersists | python/lsst/dax/imgserv/dataCatUtil.py:198-203 | Once a command is set, a later delete option does not change it. |
| DataCatUtil.NoCommandYet | python/lsst/dax/imgserv/dataCatUtil.py:182-206 | Options that set no command leave it empty. |
| DataCatUtil.Dispatch | python/lsst/dax/imgserv/dataCatUtil.py:207-232 | regf acts only with a file name and a dataset name. regd and DEL_dir act only with a directory. DEL acts only with a dataset name, and does nothing otherwise. Every other case prints help. |
| DataCatUtil.Main | python/lsst/dax/imgserv/dataCatUtil.py:179-233 | A getopt error exits with status 2. `-h` exits with status 0. Otherwise the folded options are dispatched. |
| ImageRest.FloatArg | python/lsst/dax/imgserv/imageREST_v0.py:82-83 | `float()` of an argument returns exactly when the argument is present and parses. A missing argument raises TypeError and an unparsable one raises ValueError. |
| ImageRest.CoordMessage | python/lsst/dax/imgserv/imageREST_v0.py:85 | The coordinate message is `NEED_HTTP INVALID_INPUT ra=.. dec=..`, with a missing argument shown as None. It raises UnicodeEncodeError exactly when an argument is not ASCII. |
| ImageRest.CheckRaDec | python/lsst/dax/imgserv/imageREST_v0.py:70-87 | A valid result has an empty message. An invalid one has the coordinate message, which begins with `NEED_HTTP INVALID_INPUT`, and both arguments are then ASCII. Only TypeError and UnicodeEncodeError escape. |
| ImageRest.CheckRaDecMeaning | python/lsst/dax/imgserv/imageREST_v0.py:77-87 | The result is valid exactly when both coordinates parse, and then holds the parsed values. When invalid, dec is 0.0, ra keeps its parsed value if only dec failed, and the message names both arguments. It raises exactly when a missing coordinate is reached (TypeError), or when a coordinate fails to parse and an argument is not ASCII (UnicodeEncodeError, raised inside the handler). |
| ImageRest.FilterMessage | python/lsst/dax/imgserv/imageREST_v0.py:65 | The filter message names the filter and the valid filters. It raises UnicodeEncodeError exactly when the filter is not ASCII. |
| ImageRest.CheckRaDecFilter | python/lsst/dax/imgserv/imageREST_v0.py:56-67 | As written: the result is valid exactly when the coordinates are valid and the filter is a substring of the valid filters. A rejected filter replaces the message with the filter message, and otherwise the coordinates' message is kept. It raises exactly when the coordinate check raises, the filter is missing, or a rejected filter is not ASCII. The filter and coordinates are passed through. |
| ImageRest.FilterSubstrings | python/lsst/dax/imgserv/imageREST_v0.py:64 | Against `'irg'`, the filters accepted are exactly "", "i", "r", "g", "ir", "rg" and "irg". |
| ImageRest.EmptyFilterAccepted | python/lsst/dax/imgserv/imageREST_v0.py:64-67 | With good coordinates, the empty filter passes the as-written check and fails the corrected one. |
| ImageRest.CheckRaDecFilterChecked | python/lsst/dax/imgserv/imageREST_v0.py:56-67 | Corrected: the result is valid exactly when the coordinates are valid and the filter is one character of the valid filters. The messages and the raise cases are as in the as-written version, with this test in place of the substring test. |
| ImageRest.CheckedFilters | python/lsst/dax/imgserv/imageREST_v0.py:56-67 | With good coordinates, the corrected check accepts exactly "i", "r" and "g". It raises exactly for a rejected filter that is not ASCII. |
| ImageRest.GetIFull | python/lsst/dax/imgserv/imageREST_v0.py:132-149 | With the as-written check: the full-image handler raises exactly when the check raises. It fetches exactly when both coordinates parse and the filter is a substring of `irg`, and then with the parsed coordinates. Otherwise it answers `INVALID_INPUT ` followed by the coordinate message, or by the filter message when the filter is rejected. |
| ImageRest.FullImageAcceptsFilterRuns | python/lsst/dax/imgserv/imageREST_v0.py:141-149 | With good coordinates, the full-image handler goes on to fetch for the filters "", "ir", "rg" and "irg". |
| ImageRest.SizeMessage | python/lsst/dax/imgserv/imageREST_v0.py:182 | The size message is `INVALID_INPUT width=.. height=..`. It raises UnicodeEncodeError exactly when the width or height is not ASCII. |
| ImageRest.GetICutout | python/lsst/dax/imgserv/imageREST_v0.py:164-183 | The cutout handler answers BAD_REQUEST or goes on to fetch a cutout. What escapes is TypeError, from a missing argument, or UnicodeEncodeError, from a message that cannot be formatted. |
| ImageRest.CutoutValidationOrder | python/lsst/dax/imgserv/imageREST_v0.py:164-183 | With the as-written check: a raising check propagates. A failed coordinate or filter check is BAD_REQUEST with its message, before width and height are parsed. An unparsable size is BAD_REQUEST with the size message, or raises UnicodeEncodeError when the size arguments are not ASCII. The handler fetches exactly when everything parses, with the parsed values. |
| ImageRest.EncodeAscii | python/lsst/dax/imgserv/imageREST_v0.py:265 | `filt.encode('ascii')` returns the filter unchanged exactly when it is present and ASCII. A non-ASCII filter raises UnicodeEncodeError and a missing one raises AttributeError. |
| ImageRest.GetISkyMapCutout | python/lsst/dax/imgserv/imageREST_v0.py:236-268 | The sky-map handler answers BAD_REQUEST or goes on to fetch from the sky map. What escapes is TypeError, UnicodeEncodeError, or AttributeError, and AttributeError only for a missing filter. |
| ImageRest.SkyMapValidationOrder | python/lsst/dax/imgserv/imageREST_v0.py:241-268 | The coordinates are checked first: a raise propagates, and an invalid result is BAD_REQUEST with `INVALID_INPUT ` and the coordinate message, before the sizes are read. Next, an unparsable width or height is BAD_REQUEST with the size message, or UnicodeEncodeError when the size arguments are not ASCII. A missing size raises TypeError. Last, a missing filter raises AttributeError, and a non-ASCII one is answered like an unparsable size. The handler fetches exactly when all of these pass. It then passes on the parsed coordinates, the filter, the sizes truncated by `int()`, and the given source unless it is missing or empty. |
| ImageRest.SkyMapFilterUnchecked | python/lsst/dax/imgserv/imageREST_v0.py:236-268 | The sky-map handler never checks the filter: two ASCII filters give the same outcome and differ only in the filter passed on. The default source is used exactly when the source is missing, empty or equal to the default. |
| LocateImage.KeepWithin180 | python/lsst/dax/imgserv/locateImage.py:331-339 | The result lies within 180 degrees of the target and differs from val by a whole number of turns. A val already within range is returned unchanged. |
| LocateImage.ArcsecToDeg | python/lsst/dax/imgserv/locateImage.py:327-328 | Degrees times 3600 give back the arcseconds. |
| LocateImage.SearchBox | python/lsst/dax/imgserv/locateImage.py:165-170 | The box is centred on (ra, dec). Its sides are width and height converted to degrees, so each half-side is width/7200 or height/7200. |
| LocateImage.SelectList | python/lsst/dax/imgserv/locateImage.py:171-181 | The select list is `ra`, `decl`, the configured columns in order, and the distance to (ra, dec) last. |
| LocateImage.GetImageButler | python/lsst/dax/imgserv/locateImage.py:210-265 | No rows gives None. Otherwise only the first row is used: key i is its item i + 2, read from the image kind's data root and dataset type. |
| LocateImage.ButlerKeysMatchColumns | python/lsst/dax/imgserv/locateImage.py:171-221 | Butler key i is the value of the select list's item i + 2, which is the i-th configured column. |
| LocateImage.LowTrimmed | python/lsst/dax/imgserv/locateImage.py:288-307 | The corner is the box's low edge `center - size/2` when that is not negative, and 0 otherwise. The size is at most the requested size and at most the image size. The far edge, corner plus size, never passes the box's own far edge `center + size/2`, and equals it whenever the image-size cap does not bind. |
| LocateImage.CutoutBoxPixels | python/lsst/dax/imgserv/locateImage.py:278-318 | As written: the corner is non-negative and the width and height never exceed the image's. The end is the corner plus the size, with all four values truncated. |
| LocateImage.RightEdgeOvershoot | python/lsst/dax/imgserv/locateImage.py:284-318 | A 40-pixel box centred at x = 90 of a 100-pixel image ends at 110, past the right edge. |
| LocateImage.CutoutBoxPixelsChecked | python/lsst/dax/imgserv/locateImage.py:278-318 | Corrected: as above, and in addition the end corner lies within the image. |
| LocateImage.CheckedAgreesInside | python/lsst/dax/imgserv/locateImage.py:301-318 | When the box does not reach past the right and bottom edges, the corrected version equals the as-written one. |

## Left out

- Network and config I/O are abstract outcomes per call. This covers the wire protocol of the datacat `Client`, `unpack`, and `DataCatCfg`/ConfigParser loading.
- The SQL engine and connection are reduced to a fault predicate over statement positions. The DB is a list of file, key/value and position rows. `dbDestroyCreate`, `showColumnsInTables` and the DDL of `fitsMetadataSchema.py` are not modelled.
- Filesystem and process I/O results are inputs: `os.stat`, the `cksum` subprocess, gzip and file reads, `afwImage.readMetadata`, `os.walk`, `os.path.join` and `os.path.abspath` (`expandDir`).
- The `sched` timing and `RERUN_SECONDS` of `Crawler.start` and `_run` are not modelled. Only the run-then-re-arm order is kept, as `Crawler.CyclesStarted`.
- Web plumbing is not modelled: Flask routing, `_error`, `make_response`, temp files, `responseFile`, and `bin/imageServer.py`.
- The WCS and pixel work of the image fetch is not modelled. This covers `skymapStitch.py`, `imageStitch.py`, and `W13Db.getImage` with its pixels-per-arcsec computation. The handlers end in a `Fetch...` reply that carries the validated arguments.
- `float()`, `int()` and `time.strptime` are partial parser oracles (`Py.Parsers`). NaN and infinities have no `real` counterpart.
- Python dict order is modelled as insertion order, both for `scanFile`'s entries and for the columns of `_insert`.
- In a case-insensitive MySQL, `_insert`'s `pdate` and `pDate` are one column. The model keeps them as two dict keys, as the Python dict does.
- The database's autoincrement counter is modelled as `nextId`. It advances only when a file row commits, so ids consumed by rolled-back inserts are not modelled.
- `helpMsg`'s text is left out. Dispatch reports `ShowHelp` instead.
- Logging is modelled only where it decides an outcome (`Py.LogCall`). That means the two calls whose argument count does not match their format: `warn` at crawler.py:148 and `info` at dataCatUtil.py:91. Each also appears in its corrected form. The other calls either format correctly or pass no arguments, and their output is not modelled. `lsst.log` is not part of this model. That it renders `fmt % args` and lets the TypeError escape is the assumption behind the two log-call Findings.
- Crawler.OnlyDcExceptionIsCaught: states the loop with the corrected handler `RefusalChecked`. As written, the handler's log call raises TypeError (`Crawler.Refusal`), so no DcException of the write-back is survived.
- Crawler.CaughtFailuresStayLocal: the same. Crawler.CycleCompletes and the other loop lemmas also describe the corrected handler.
- The image slicing `srcImage[...]` and its behaviour on an out-of-range box belong to afw and are not modelled. The model ends at the pixel box.
- `_getMetadata` of the two image databases is not modelled. It reads the same first row as `_getImageButler`.
- The crawler takes `insertFile`'s answer as an oracle outcome. `MetadataFitsDb.InsertFile` composes the as-written insert and `MetadataFitsDb.InsertFileChecked` the corrected one.
- MetadataFitsDb.InsertIdempotent: stated over the corrected insert. As written, a second insert whose `begin` fails raises instead of returning -1 (`BeginFailureRaises`).
- Crawler.GetCksum: the contract pins the checksum down from the output alone. There is no separate lemma for the ignored exit code.

## Findings

| source | as written | input that shows it | evidently intended | confidence | as-written member | corrected member |
|---|---|---|---|---|---|---|
| python/lsst/dax/imgserv/MetadataFitsDb.py:291-320 | After a failed statement and the rollback, `insertMetadataFits` still returns the new `fitsFileId` | A new file with at least one header value, where the first key/value INSERT fails | Return -1 when the transaction did not commit, so that the returned id names a stored file | high, not executed | MetadataFitsDb.InsertMetadataFits (shown by MetadataFitsDb.RollbackReturnsId) | MetadataFitsDb.InsertMetadataFitsChecked |
| python/lsst/dax/imgserv/MetadataFitsDb.py:291-319 | If `conn.begin()` itself fails, the handler's log call reads `sql`, which was never bound, so an UnboundLocalError escapes instead of the error being logged | A connection whose `begin` fails | Log the error and return -1 with nothing changed | medium, not executed | MetadataFitsDb.InsertMetadataFits (shown by MetadataFitsDb.BeginFailureRaises) | MetadataFitsDb.InsertMetadataFitsChecked |
| python/lsst/dax/imgserv/imageREST_v0.py:64 | `filt not in validFilters` is a substring test on the string `'irg'`. The full-image and cutout handlers are modelled with this check | filter `""`, `"ir"` or `"rg"` passes validation and reaches the fetch | Accept exactly one of the filters `i`, `r`, `g` | high, not executed | ImageRest.CheckRaDecFilter (shown by ImageRest.EmptyFilterAccepted, ImageRest.FilterSubstrings, ImageRest.FullImageAcceptsFilterRuns) | ImageRest.CheckRaDecFilterChecked (ImageRest.CheckedFilters) |
| python/lsst/dax/imgserv/locateImage.py:284-318 | Only the left and top edges are trimmed, although the documentation says the box is trimmed at the image's edge | A 40-pixel-wide box centred at x = 90 of a 100-pixel image: the end is 110 | Cap the size at what lies between the corner and the right or bottom edge | high, not executed | LocateImage.CutoutBoxPixels (shown by LocateImage.RightEdgeOvershoot) | LocateImage.CutoutBoxPixelsChecked (LocateImage.CheckedAgreesInside) |
| python/lsst/dax/imgserv/crawler.py:147-148 | The `except DcException` handler calls `warn` with one `%s` and two arguments, the path and the exception. With the level set to DEBUG at :152, `lsst.log` renders `fmt % args`, which raises TypeError from inside the handler | A first patch that raises DcException: the cycle crashes with TypeError instead of going on to the next dataset | Log the path, and the exception with a second conversion, and carry on | plausible, not executed; rests on the `lsst.log` rendering, which is not part of this model | Crawler.Refusal | Crawler.RefusalChecked (used by Crawler.WriteBack; Crawler.OnlyDcExceptionIsCaught) |
| python/lsst/dax/imgserv/dataCatUtil.py:90-92 | `info("Registering:", path, fileName, fullName)` passes three arguments to a format without conversions, so `lsst.log` raises TypeError. `except DcException` lets it escape, before the lookup | Any file whose `create_dataset` returns: `registerFile` registers it, then raises TypeError | Log the three values and look the dataset up | plausible, not executed; rests on the `lsst.log` rendering, which is not part of this model | DataCatUtil.RegisterFile | DataCatUtil.RegisterFileChecked |

=== FILE: crawler.dfy ===
/** One scan cycle of the crawler, as a trace of the calls it makes to the
    outside world. The datacat client, `os.stat`, the `cksum` process, the
    clock and the metadata database are oracles: the cycle receives their
    answers as parameters and records each call together with its answer.
    The model follows the code as written: only `DcException` is caught
    around the write-back, a dataset without a SLAC location dereferences
    `None`, a path that is not ASCII makes `str` raise inside the `try`, and
    the exit code of `cksum` is ignored. The one exception is the
    handler's log call, which as written raises (`Refusal`); the loop is
    modelled with a log call that formats (`RefusalChecked`). */
module Crawler {
  import opened Py
  import Timestamp

  const WatchFolder: string := "/LSST"
  const WatchSite: string := "SLAC"
  const SearchVersion: string := "current"
  const SearchSite: string := "all"
  const UnscannedQuery: string := "scanStatus = 'UNSCANNED'"
  const MaxResults: int := 1000

  /** Where a copy of a dataset lives: a site name and, at SLAC, a file path. */
  datatype Location = Location(site: string, resource: string)

  /** A catalog entry as `unpack` returns it. */
  datatype Dataset = Dataset(path: string, versionId: string, locations: seq<Location>)

  /** The JSON values that patch bodies are made of. */
  datatype Json = JInt(i: int) | JStr(s: string) | JObj(fields: map<string, Json>)

  type Body = map<string, Json>

  /** Everything the outside world answers while one dataset is processed. */
  datatype DatasetOracle = DatasetOracle(
    stat: Py<nat>,             // os.stat(path).st_size
    cksumExit: int,            // exit status of `cksum path`
    cksumOut: string,          // what `cksum path` printed
    now: Timestamp.UtcNow,     // datetime.utcnow()
    scanPatch: Py<()>,         // the first patch_dataset
    insert: Py<int>,           // metaDb.insertFile(path)
    idPatch: Py<()>)           // the second patch_dataset

  /** One call to the outside world, with the answer it got. */
  datatype Call =
    | Search(folder: string, version: string, site: string, query: string,
             maxNum: int, found: Py<seq<Dataset>>)
    | Stat(file: string, size: Py<nat>)
    | Cksum(file: string, exitCode: int, output: string)
    | Patch(dataset: string, body: Body, versionId: string, patchSite: Option<string>,
            answer: Py<()>)
    | InsertFile(file: string, fileId: Py<int>)

  /** How the handling of one dataset ended. */
  datatype Fate =
    | Recorded                 // both patches and the insert returned
    | ScanPatchRefused         // DcException from the first patch
    | InsertRefused            // DcException from insertFile
    | IdPatchRefused           // DcException from the second patch
    | Aborted(exc: Exc)        // an exception the loop does not catch

  datatype DatasetRun = DatasetRun(calls: seq<Call>, fate: Fate)

  datatype Status = Completed | Exited(code: int) | Crashed(exc: Exc)

  datatype Cycle = Cycle(trace: seq<Call>, status: Status)

  /** The location loop: the first location, in list order, at the watch site. */
  function ChooseLocation(locations: seq<Location>): (r: Option<Location>)
    ensures r.None? <==> forall k :: 0 <= k < |locations| ==> locations[k].site != WatchSite
    ensures r.Some? ==> r.value.site == WatchSite
    ensures r.Some? ==> exists k :: 0 <= k < |locations| && locations[k] == r.value
                                    && NoneAtWatchSite(locations[..k])
  {
    if |locations| == 0 then None
    else if locations[0].site == WatchSite then
      assert NoneAtWatchSite(locations[..0]);
      Some(locations[0])
    else
      var r := ChooseLocation(locations[1..]);
      if r.Some? then
        var k :| 0 <= k < |locations[1..]| && locations[1..][k] == r.value
                 && NoneAtWatchSite(locations[1..][..k]);
        assert locations[..k + 1] == [locations[0]] + locations[1..][..k];
        Some(r.value)
      else
        None
  }

  predicate NoneAtWatchSite(locations: seq<Location>)
  {
    forall k :: 0 <= k < |locations| ==> locations[k].site != WatchSite
  }

  /** `get_cksum`: the first space-delimited token of what `cksum` printed.
      The exit status takes no part in the result. */
  function GetCksum(exitCode: int, output: string): (cksum: string)
    ensures IsPrefix(cksum, output)
    ensures ' ' !in cksum
    ensures |cksum| < |output| ==> output[|cksum|] == ' '
  {
    var parts := Split(output, ' ');
    assert parts[0] == output[..IndexOf(output, ' ')];
    parts[0]
  }

  /** `get_metadata`: an extension point that yields no metadata. */
  function GetMetadata(file: string): (md: Option<Body>)
  {
    None
  }

  /** Python truthiness of the metadata: present and not an empty dict. */
  predicate Truthy(md: Option<Body>)
  {
    md.Some? && |md.value| > 0
  }

  const ScanKeys: set<string> := {"size", "checksum", "locationScanned", "scanStatus"}

  /** The `scan_result` dictionary sent with the first patch. */
  function ScanResult(size: nat, cksum: string, now: Timestamp.UtcNow, md: Option<Body>): (r: Body)
    ensures r.Keys == ScanKeys + (if Truthy(md) then {"versionMetadata"} else {})
    ensures r["size"] == JInt(size) && r["checksum"] == JStr(cksum)
    ensures r["scanStatus"] == JStr("OK")
    ensures r["locationScanned"].JStr?
    ensures Timestamp.Parse(r["locationScanned"].s) == Some(now)
  {
    Timestamp.ParseFormat(now);
    var r := map["size" := JInt(size), "checksum" := JStr(cksum),
                 "locationScanned" := JStr(Timestamp.Format(now)), "scanStatus" := JStr("OK")];
    if Truthy(md) then r["versionMetadata" := JObj(md.value)] else r
  }

  /** The body of the second patch. */
  function FileIdPatch(fileId: int): Body
  {
    map["versionMetadata" := JObj(map["fileId" := JInt(fileId)])]
  }

  /** Whether the per-dataset `except DcException` lets the cycle carry on. */
  predicate Survives<T>(answer: Py<T>)
  {
    answer.Returns? || answer.exc == DcException
  }

  /** The body of the per-dataset loop: pick the SLAC location and read its
      `.resource`, which raises AttributeError when there is none. */
  function ProcessDataset(d: Dataset, o: DatasetOracle): DatasetRun
  {
    match ChooseLocation(d.locations)
    case None => DatasetRun([], Aborted(AttributeError))
    case Some(loc) => Measure(d, loc.resource, o)
  }

  /** `os.stat` and `get_cksum` run outside the `try`: whatever they raise
      ends the cycle. */
  function Measure(d: Dataset, file: string, o: DatasetOracle): DatasetRun
  {
    match o.stat
    case Raises(e) => DatasetRun([Stat(file, o.stat)], Aborted(e))
    case Returns(size) =>
      var scan := ScanResult(size, GetCksum(o.cksumExit, o.cksumOut), o.now, GetMetadata(file));
      var wb := WriteBack(d, file, scan, o);
      DatasetRun([Stat(file, o.stat), Cksum(file, o.cksumExit, o.cksumOut)] + wb.calls, wb.fate)
  }

  /** The `try` block: first patch, insertFile, second patch; a DcException
      skips what is left of it, any other exception escapes. The block opens
      with `str(file_path)` for the debug log, and the path, read from the
      catalog's JSON, is a unicode string: a path that is not ASCII raises
      UnicodeEncodeError before the first patch is sent. */
  function WriteBack(d: Dataset, file: string, scan: Body, o: DatasetOracle): DatasetRun
  {
    if !Ascii(file) then DatasetRun([], Aborted(UnicodeEncodeError))
    else
    var first := [Patch(d.path, scan, d.versionId, Some(WatchSite), o.scanPatch)];
    match o.scanPatch
    case Raises(e) => DatasetRun(first, RefusalChecked(e, ScanPatchRefused))
    case Returns(_) =>
      var inserted := first + [InsertFile(file, o.insert)];
      match o.insert
      case Raises(e) => DatasetRun(inserted, RefusalChecked(e, InsertRefused))
      case Returns(fileId) =>
        var all := inserted + [Patch(d.path, FileIdPatch(fileId), d.versionId, None, o.idPatch)];
        match o.idPatch
        case Raises(e) => DatasetRun(all, RefusalChecked(e, IdPatchRefused))
        case Returns(_) => DatasetRun(all, Recorded)
  }

  /** The handler `except DcException: warn(fmt, ...)` with `logArgs`
      arguments for a format with one conversion: any other exception
      escapes, and so does what the log call raises. */
  function Handled(e: Exc, caught: Fate, logArgs: nat): Fate
  {
    if e != DcException then Aborted(e)
    else
      match LogCall(1, logArgs)
      case Raises(x) => Aborted(x)
      case Returns(_) => caught
  }

  /** What `except DcException` makes of an exception raised at some step, as
      written: `warn("... dataset %s", str(file_path), err)` passes two
      arguments to one conversion, so `lsst.log` raises TypeError inside the
      handler and every exception ends the cycle. */
  function Refusal(e: Exc, caught: Fate): (f: Fate)
    ensures f.Aborted?
    ensures f.exc == if e == DcException then TypeError else e
  {
    Handled(e, caught, 2)
  }

  /** The handler with the exception left out of the log call: a DcException
      gives the step's refused fate, any other exception escapes. */
  function RefusalChecked(e: Exc, caught: Fate): (f: Fate)
    ensures e == DcException ==> f == caught
    ensures e != DcException ==> f == Aborted(e)
  {
    Handled(e, caught, 1)
  }

  /** Only DcException is caught: a dataset's handling lets the loop go on
      exactly when it has a SLAC location whose path is ASCII, `os.stat`
      returned, and every write-back step that ran either returned or raised
      DcException. A path that is not ASCII ends the cycle with
      UnicodeEncodeError after `os.stat` and `cksum`, before any patch. A
      refused first patch leaves out insertFile and the second patch. */
  lemma OnlyDcExceptionIsCaught(d: Dataset, o: DatasetOracle)
    ensures var r := ProcessDataset(d, o);
            && (!r.fate.Aborted? <==>
                 && ChooseLocation(d.locations).Some?
                 && o.stat.Returns?
                 && Ascii(ChooseLocation(d.locations).value.resource)
                 && Survives(o.scanPatch)
                 && (o.scanPatch.Returns? ==> Survives(o.insert))
                 && (o.scanPatch.Returns? && o.insert.Returns? ==> Survives(o.idPatch)))
            && (ChooseLocation(d.locations).Some? && o.stat.Returns?
                && !Ascii(ChooseLocation(d.locations).value.resource) ==>
                  && r.fate == Aborted(UnicodeEncodeError)
                  && |r.calls| == 2 && r.calls[0].Stat? && r.calls[1].Cksum?)
            && (r.fate == ScanPatchRefused ==> |r.calls| == 3 && IsScanPatch(r.calls[2]))
            && (r.fate == Recorded ==> |r.calls| == 5 && IsIdPatch(r.calls[4]))
  {
  }

  predicate IsScanPatch(c: Call)
  {
    c.Patch? && c.patchSite == Some(WatchSite)
  }

  predicate IsIdPatch(c: Call)
  {
    c.Patch? && c.patchSite.None?
  }

  predicate IsAcceptedScanPatch(c: Call)
  {
    IsScanPatch(c) && c.answer.Returns?
  }

  /** The first patch carries the scan result of the file just measured:
      the size `os.stat` gave, the checksum token of `cksum`, status OK, and
      no other key than the four of `scan_result`. */
  predicate ScanPatchAt(t: seq<Call>, i: nat)
    requires i < |t|
  {
    && t[i].Patch?
    && i >= 2 && t[i - 2].Stat? && t[i - 2].size.Returns?
    && t[i - 1].Cksum? && t[i - 1].file == t[i - 2].file
    && t[i].body.Keys == ScanKeys
    && t[i].body["size"] == JInt(t[i - 2].size.value)
    && t[i].body["checksum"] == JStr(GetCksum(t[i - 1].exitCode, t[i - 1].output))
    && t[i].body["scanStatus"] == JStr("OK")
  }

  /** insertFile runs only right after an accepted first patch, on the file
      that was measured. */
  predicate InsertAt(t: seq<Call>, i: nat)
    requires i < |t|
  {
    && t[i].InsertFile?
    && i >= 3 && IsAcceptedScanPatch(t[i - 1])
    && t[i - 2].Cksum? && t[i - 3].Stat? && t[i - 3].file == t[i].file
  }

  /** The second patch runs only right after insertFile returned, for the
      same dataset and version as the first, and carries the returned id. */
  predicate IdPatchAt(t: seq<Call>, i: nat)
    requires i < |t|
  {
    && t[i].Patch?
    && i >= 2 && t[i - 1].InsertFile? && t[i - 1].fileId.Returns?
    && t[i].body == FileIdPatch(t[i - 1].fileId.value)
    && IsScanPatch(t[i - 2])
    && t[i - 2].dataset == t[i].dataset && t[i - 2].versionId == t[i].versionId
  }

  /** The ordering promises of the two-phase write-back, over a whole trace. */
  predicate WriteBackOrdered(t: seq<Call>)
  {
    && (forall i :: 0 <= i < |t| && IsScanPatch(t[i]) ==> ScanPatchAt(t, i))
    && (forall i :: 0 <= i < |t| && t[i].InsertFile? ==> InsertAt(t, i))
    && (forall i :: 0 <= i < |t| && IsIdPatch(t[i]) ==> IdPatchAt(t, i))
  }

  /** The calls made for one dataset start with `os.stat` and keep the
      write-back order. */
  lemma DatasetRunOrdered(d: Dataset, o: DatasetOracle)
    ensures WriteBackOrdered(ProcessDataset(d, o).calls)
    ensures ProcessDataset(d, o).calls != [] ==> ProcessDataset(d, o).calls[0].Stat?
  {
    if ChooseLocation(d.locations).Some? && o.stat.Returns? {
      var file := ChooseLocation(d.locations).value.resource;
      var scan := ScanResult(o.stat.value, GetCksum(o.cksumExit, o.cksumOut), o.now, GetMetadata(file));
      MeasuredRunOrdered(d, file, scan, o);
    }
  }

  lemma MeasuredRunOrdered(d: Dataset, file: string, scan: Body, o: DatasetOracle)
    requires o.stat.Returns?
    requires scan.Keys == ScanKeys && scan["size"] == JInt(o.stat.value)
    requires scan["checksum"] == JStr(GetCksum(o.cksumExit, o.cksumOut))
    requires scan["scanStatus"] == JStr("OK")
    ensures WriteBackOrdered([Stat(file, o.stat), Cksum(file, o.cksumExit, o.cksumOut)]
                             + WriteBack(d, file, scan, o).calls)
  {
    var t := [Stat(file, o.stat), Cksum(file, o.cksumExit, o.cksumOut)] + WriteBack(d, file, scan, o).calls;
    if !Ascii(file) {
      return;
    }
    assert t[2] == Patch(d.path, scan, d.versionId, Some(WatchSite), o.scanPatch);
    assert ScanPatchAt(t, 2);
    if |t| >= 4 {
      assert t[3] == InsertFile(file, o.insert);
      assert InsertAt(t, 3);
    }
    if |t| == 5 {
      assert IdPatchAt(t, 4);
    }
  }

  lemma OrderedAppend(a: seq<Call>, b: seq<Call>)
    requires WriteBackOrdered(a) && WriteBackOrdered(b)
    requires b != [] ==> b[0].Stat?
    ensures WriteBackOrdered(a + b)
  {
    var t := a + b;
    forall i | 0 <= i < |t|
      ensures IsScanPatch(t[i]) ==> ScanPatchAt(t, i)
      ensures t[i].InsertFile? ==> InsertAt(t, i)
      ensures IsIdPatch(t[i]) ==> IdPatchAt(t, i)
    {
      if i >= |a| {
        var j := i - |a|;
        assert t[i] == b[j];
        if IsScanPatch(b[j]) {
          assert ScanPatchAt(b, j);
          assert t[i - 1] == b[j - 1] && t[i - 2] == b[j - 2];
        }
        if b[j].InsertFile? {
          assert InsertAt(b, j);
          assert t[i - 1] == b[j - 1] && t[i - 2] == b[j - 2] && t[i - 3] == b[j - 3];
        }
        if IsIdPatch(b[j]) {
          assert IdPatchAt(b, j);
          assert t[i - 1] == b[j - 1] && t[i - 2] == b[j - 2];
        }
      } else {
        assert t[i] == a[i];
        if IsScanPatch(a[i]) {
          assert ScanPatchAt(a, i);
        }
        if a[i].InsertFile? {
          assert InsertAt(a, i);
        }
        if IsIdPatch(a[i]) {
          assert IdPatchAt(a, i);
        }
      }
    }
  }

  datatype PageRun = PageRun(calls: seq<Call>, abort: Option<Exc>)

  /** How each dataset of the page would be handled; `oracle(k)` answers for
      the `k`-th one. The handling of one dataset does not depend on the
      others, so the loop is the walk over these runs that stops at the first
      uncaught exception. */
  function Handle(datasets: seq<Dataset>, oracle: nat -> DatasetOracle): (runs: seq<DatasetRun>)
    ensures |runs| == |datasets|
    ensures forall k :: 0 <= k < |datasets| ==> runs[k] == ProcessDataset(datasets[k], oracle(k))
  {
    seq(|datasets|, k requires 0 <= k < |datasets| => ProcessDataset(datasets[k], oracle(k)))
  }

  /** The per-dataset loop from position `i` on. */
  function LoopFrom(runs: seq<DatasetRun>, i: nat): PageRun
    requires i <= |runs|
    decreases |runs| - i
  {
    if i == |runs| then PageRun([], None)
    else if runs[i].fate.Aborted? then PageRun(runs[i].calls, Some(runs[i].fate.exc))
    else
      var rest := LoopFrom(runs, i + 1);
      PageRun(runs[i].calls + rest.calls, rest.abort)
  }

  /** `Crawler.run`: one search, then the per-dataset loop over the page. */
  function RunCycle(found: Py<seq<Dataset>>, oracle: nat -> DatasetOracle): (r: Cycle)
    ensures |r.trace| >= 1
    ensures r.trace[0] == Search(WatchFolder, SearchVersion, SearchSite, UnscannedQuery,
                                 MaxResults, found)
    ensures found.Raises? ==> |r.trace| == 1
    ensures found.Raises? && found.exc == DcException ==> r.status == Exited(1)
    ensures found.Raises? && found.exc != DcException ==> r.status == Crashed(found.exc)
  {
    var search := Search(WatchFolder, SearchVersion, SearchSite, UnscannedQuery, MaxResults, found);
    match found
    case Raises(e) => Cycle([search], if e == DcException then Exited(1) else Crashed(e))
    case Returns(datasets) =>
      var page := LoopFrom(Handle(datasets, oracle), 0);
      Cycle([search] + page.calls, if page.abort.Some? then Crashed(page.abort.value) else Completed)
  }

  /** The calls of runs `i..j-1` one after the other. */
  function CallsBetween(runs: seq<DatasetRun>, i: nat, j: nat): seq<Call>
    requires i <= j <= |runs|
    decreases j - i
  {
    if i == j then [] else runs[i].calls + CallsBetween(runs, i + 1, j)
  }

  predicate NoAbortBetween(runs: seq<DatasetRun>, i: nat, j: nat)
    requires i <= j <= |runs|
  {
    forall k :: i <= k < j ==> !runs[k].fate.Aborted?
  }

  /** Failures the loop catches stay local: when no run raises anything but
      DcException, every dataset of the page is handled and contributes its
      own calls, in page order. */
  lemma {:induction false} CaughtFailuresStayLocal(runs: seq<DatasetRun>, i: nat)
    requires i <= |runs|
    requires NoAbortBetween(runs, i, |runs|)
    ensures LoopFrom(runs, i) == PageRun(CallsBetween(runs, i, |runs|), None)
    decreases |runs| - i
  {
    if i < |runs| {
      CaughtFailuresStayLocal(runs, i + 1);
    }
  }

  /** An uncaught exception in run `j` ends the loop there: no later run
      makes any call, and the exception is what the loop ends with. */
  lemma {:induction false} AbortEndsLoop(runs: seq<DatasetRun>, i: nat, j: nat)
    requires i <= j < |runs|
    requires NoAbortBetween(runs, i, j)
    requires runs[j].fate.Aborted?
    ensures LoopFrom(runs, i) == PageRun(CallsBetween(runs, i, j + 1), Some(runs[j].fate.exc))
    decreases j - i
  {
    if i < j {
      AbortEndsLoop(runs, i + 1, j);
    } else {
      assert CallsBetween(runs, i + 1, j + 1) == [];
    }
  }

  lemma {:induction false} SomeAbortEndsLoop(runs: seq<DatasetRun>, i: nat, j: nat)
    requires i <= j < |runs| && runs[j].fate.Aborted?
    ensures LoopFrom(runs, i).abort.Some?
    decreases j - i
  {
    if i < j && !runs[i].fate.Aborted? {
      SomeAbortEndsLoop(runs, i + 1, j);
    }
  }

  lemma {:induction false} CallsBetweenSplit(runs: seq<DatasetRun>, i: nat, j: nat)
    requires i <= j < |runs|
    ensures CallsBetween(runs, i, j + 1) == CallsBetween(runs, i, j) + runs[j].calls
    decreases j - i
  {
    if i < j {
      CallsBetweenSplit(runs, i + 1, j);
      assert CallsBetween(runs, i, j + 1) == runs[i].calls + CallsBetween(runs, i + 1, j + 1);
      assert CallsBetween(runs, i, j) == runs[i].calls + CallsBetween(runs, i + 1, j);
    } else {
      assert CallsBetween(runs, i, i + 1) == runs[i].calls + CallsBetween(runs, i + 1, i + 1);
    }
  }

  /** A cycle completes exactly when the search returned and no dataset of
      the page raised anything but DcException; then every dataset of the
      page was handled, in order. */
  lemma CycleCompletes(datasets: seq<Dataset>, oracle: nat -> DatasetOracle)
    ensures var runs := Handle(datasets, oracle);
            && (RunCycle(Returns(datasets), oracle).status == Completed
                <==> NoAbortBetween(runs, 0, |runs|))
            && (NoAbortBetween(runs, 0, |runs|) ==>
                  RunCycle(Returns(datasets), oracle).trace[1..] == CallsBetween(runs, 0, |runs|))
  {
    var runs := Handle(datasets, oracle);
    if NoAbortBetween(runs, 0, |runs|) {
      CaughtFailuresStayLocal(runs, 0);
    } else {
      var j :| 0 <= j < |runs| && runs[j].fate.Aborted?;
      SomeAbortEndsLoop(runs, 0, j);
    }
  }

  /** A dataset with no SLAC location ends the whole cycle: reading
      `.resource` from `None` raises AttributeError, which the DcException
      handler does not catch, so the datasets after it are never looked at. */
  lemma MissingSiteEndsCycle(datasets: seq<Dataset>, oracle: nat -> DatasetOracle, j: nat)
    requires j < |datasets|
    requires ChooseLocation(datasets[j].locations).None?
    requires NoAbortBetween(Handle(datasets, oracle), 0, j)
    ensures RunCycle(Returns(datasets), oracle).status == Crashed(AttributeError)
    ensures RunCycle(Returns(datasets), oracle).trace[1..] == CallsBetween(Handle(datasets, oracle), 0, j)
  {
    var runs := Handle(datasets, oracle);
    assert runs[j] == DatasetRun([], Aborted(AttributeError));
    AbortEndsLoop(runs, 0, j);
    CallsBetweenSplit(runs, 0, j);
  }

  /** A dataset whose SLAC path is not ASCII ends the whole cycle too: the
      path is measured, then `str(file_path)` raises UnicodeEncodeError,
      which the DcException handler does not catch, and no patch is sent. */
  lemma NonAsciiPathEndsCycle(datasets: seq<Dataset>, oracle: nat -> DatasetOracle, j: nat)
    requires j < |datasets|
    requires ChooseLocation(datasets[j].locations).Some?
    requires !Ascii(ChooseLocation(datasets[j].locations).value.resource)
    requires oracle(j).stat.Returns?
    requires NoAbortBetween(Handle(datasets, oracle), 0, j)
    ensures RunCycle(Returns(datasets), oracle).status == Crashed(UnicodeEncodeError)
    ensures var file := ChooseLocation(datasets[j].locations).value.resource;
            RunCycle(Returns(datasets), oracle).trace[1..]
              == CallsBetween(Handle(datasets, oracle), 0, j)
                 + [Stat(file, oracle(j).stat), Cksum(file, oracle(j).cksumExit, oracle(j).cksumOut)]
  {
    var runs := Handle(datasets, oracle);
    var file := ChooseLocation(datasets[j].locations).value.resource;
    assert runs[j] == DatasetRun([Stat(file, oracle(j).stat), Cksum(file, oracle(j).cksumExit, oracle(j).cksumOut)],
                                 Aborted(UnicodeEncodeError));
    AbortEndsLoop(runs, 0, j);
    CallsBetweenSplit(runs, 0, j);
  }

  /** Every page keeps the write-back order of its datasets. */
  lemma {:induction false} LoopOrdered(runs: seq<DatasetRun>, i: nat)
    requires i <= |runs|
    requires forall k :: 0 <= k < |runs| ==> WriteBackOrdered(runs[k].calls)
    requires forall k :: 0 <= k < |runs| ==> runs[k].calls != [] ==> runs[k].calls[0].Stat?
    ensures WriteBackOrdered(LoopFrom(runs, i).calls)
    ensures LoopFrom(runs, i).calls != [] ==> LoopFrom(runs, i).calls[0].Stat?
    decreases |runs| - i
  {
    if i < |runs| && !runs[i].fate.Aborted? {
      LoopOrdered(runs, i + 1);
      OrderedAppend(runs[i].calls, LoopFrom(runs, i + 1).calls);
    }
  }

  function CountInserts(t: seq<Call>): nat
  {
    if |t| == 0 then 0 else CountInserts(t[..|t| - 1]) + (if t[|t| - 1].InsertFile? then 1 else 0)
  }

  function CountAcceptedScanPatches(t: seq<Call>): nat
  {
    if |t| == 0 then 0
    else CountAcceptedScanPatches(t[..|t| - 1]) + (if IsAcceptedScanPatch(t[|t| - 1]) then 1 else 0)
  }

  /** Every insertFile comes right after an accepted first patch. */
  predicate InsertsPreceded(t: seq<Call>)
  {
    forall i :: 0 < i < |t| && t[i].InsertFile? ==> IsAcceptedScanPatch(t[i - 1])
  }

  lemma InsertsPrecededPrefix(t: seq<Call>, k: nat)
    requires k <= |t| && InsertsPreceded(t)
    ensures InsertsPreceded(t[..k])
  {
    var s := t[..k];
    forall i | 0 < i < |s| && s[i].InsertFile?
      ensures IsAcceptedScanPatch(s[i - 1])
    {
      assert s[i] == t[i] && s[i - 1] == t[i - 1];
    }
  }

  /** When every insertFile follows an accepted first patch and the trace
      does not open with insertFile, there are at most as many insertFile
      calls as accepted first patches. */
  lemma {:induction false} PrecededInsertsCounted(t: seq<Call>)
    requires InsertsPreceded(t)
    requires |t| > 0 ==> !t[0].InsertFile?
    ensures CountInserts(t) <= CountAcceptedScanPatches(t)
    decreases |t|
  {
    if |t| > 0 {
      var n := |t|;
      var s := t[..n - 1];
      InsertsPrecededPrefix(t, n - 1);
      if t[n - 1].InsertFile? {
        var u := s[..n - 2];
        assert IsAcceptedScanPatch(s[n - 2]) && !s[n - 2].InsertFile?;
        assert s[..n - 2] == u;
        InsertsPrecededPrefix(s, n - 2);
        if n - 2 > 0 {
          assert u[0] == t[0];
        }
        PrecededInsertsCounted(u);
      } else {
        if n - 1 > 0 {
          assert s[0] == t[0];
        }
        PrecededInsertsCounted(s);
      }
    }
  }

  /** In any trace whose write-back is ordered, and so in every cycle, there
      are at most as many insertFile calls as accepted first patches. */
  lemma InsertsFollowAcceptedPatches(t: seq<Call>)
    requires WriteBackOrdered(t)
    ensures CountInserts(t) <= CountAcceptedScanPatches(t)
  {
    forall i | 0 < i < |t| && t[i].InsertFile?
      ensures IsAcceptedScanPatch(t[i - 1])
    {
      assert InsertAt(t, i);
    }
    PrecededInsertsCounted(t);
  }

  /** Every cycle keeps the write-back order, and so makes at most as many
      insertFile calls as it got accepted first patches. */
  lemma CycleOrdered(found: Py<seq<Dataset>>, oracle: nat -> DatasetOracle)
    ensures WriteBackOrdered(RunCycle(found, oracle).trace)
    ensures CountInserts(RunCycle(found, oracle).trace)
         <= CountAcceptedScanPatches(RunCycle(found, oracle).trace)
  {
    var t := RunCycle(found, oracle).trace;
    if found.Returns? {
      var runs := Handle(found.value, oracle);
      forall k | 0 <= k < |runs|
        ensures WriteBackOrdered(runs[k].calls)
        ensures runs[k].calls != [] ==> runs[k].calls[0].Stat?
      {
        DatasetRunOrdered(found.value[k], oracle(k));
      }
      LoopOrdered(runs, 0);
      OrderedAppend([t[0]], LoopFrom(runs, 0).calls);
    }
    InsertsFollowAcceptedPatches(t);
  }

  /** `_run`: run a cycle, then re-arm after RERUN_SECONDS. A cycle that
      exits or raises never returns to re-arm, so of the cycles of a run
      whose outcomes are `statuses`, how many start. */
  function CyclesStarted(statuses: seq<Status>): (n: nat)
    ensures n <= |statuses|
    ensures forall k :: 0 <= k < n && k + 1 < n ==> statuses[k] == Completed
    ensures n < |statuses| ==> n >= 1 && statuses[n - 1] != Completed
    ensures |statuses| > 0 ==> n >= 1
  {
    if |statuses| == 0 then 0
    else if statuses[0] != Completed then 1
    else 1 + CyclesStarted(statuses[1..])
  }
}

=== FILE: datacat.dfy ===
/** The DataCat utility: dataset names derived from file paths, registering
    and deleting single datasets, the two directory crawls and what they
    count, and the option fold and dispatch of its command line. The datacat
    client, `os.walk`, `os.path.abspath` and `getopt` are abstract inputs. */
module DataCatUtil {
  import opened Py
  import opened MetadataFitsDb

  /** `self._path`: the folder every dataset lives in. */
  const DcPath: string := "/LSST"

  /** `self._slashSub`: what a `/` of a path becomes in a dataset name. */
  const SlashSub: char := '.'

  // ------------------------------------------------------------------
  // Dataset names

  /** `prefix + self._slashSub.join(fullName.split('/'))`. */
  function DatasetName(prefix: string, fullName: string): string
  {
    prefix + Join(Split(fullName, '/'), [SlashSub])
  }

  /** The name is the prefix followed by the path with every `/` turned into
      a `.`, character for character. */
  lemma DatasetNameIsRewrite(prefix: string, fullName: string)
    ensures DatasetName(prefix, fullName) == prefix + ReplaceChar(fullName, '/', '.')
    ensures |DatasetName(prefix, fullName)| == |prefix| + |fullName|
    ensures '/' !in DatasetName(prefix, fullName)[|prefix|..]
  {
    JoinSplitIsReplace(fullName, '/', '.');
    var r := ReplaceChar(fullName, '/', '.');
    assert DatasetName(prefix, fullName)[|prefix|..] == r;
  }

  /** Paths that differ only in `/` against `.` get the same name: "a/b"
      and "a.b" collide, for one. */
  lemma DatasetNameMerges(prefix: string, a: string, b: string)
    requires ReplaceChar(a, '/', '.') == ReplaceChar(b, '/', '.')
    ensures DatasetName(prefix, a) == DatasetName(prefix, b)
  {
    DatasetNameIsRewrite(prefix, a);
    DatasetNameIsRewrite(prefix, b);
  }

  /** `self._path + "/" + name`: the full name `deleteDataset` and the
      crawl-delete loop pass to `delete_dataset`. */
  function FullDatasetName(name: string): (r: string)
    ensures r == DcPath + "/" + name
    ensures IsPrefix("/LSST/", r) && r[|"/LSST/"|..] == name
  {
    DcPath + "/" + name
  }

  // ------------------------------------------------------------------
  // The datacat client

  /** The outcome of the client's calls: `None` when the call returns, or the
      exception it raises. `create(name, resource)` is `create_dataset` of
      the dataset `name` in `/LSST` for the file `resource`, `lookup(path)`
      is `path(path)` with `unpack` of its answer, and `delete(fullName)` is
      `delete_dataset`. */
  datatype Client = Client(
    create: (string, string) -> Option<Exc>,
    lookup: string -> Option<Exc>,
    delete: string -> Option<Exc>)

  /** `except DcException`: a DcException is caught, anything else escapes. */
  function Caught(o: Option<Exc>): bool
  {
    o.None? || o.value == DcException
  }

  /** `registerFile` as written: after `create_dataset` returns, the call
      `info("Registering:", path, fileName, fullName)` gives three arguments
      to a format without conversions, so `lsst.log` raises TypeError, which
      `except DcException` lets escape before the lookup is made. It returns
      only when `create_dataset` raises DcException. */
  function RegisterFile(fileName: string, datasetName: string, cl: Client): (r: Py<()>)
    ensures r.Returns? <==> cl.create(datasetName, fileName) == Some(DcException)
    ensures cl.create(datasetName, fileName).None? ==> r == Raises(TypeError)
    ensures r.Raises? ==> r.exc != DcException
  {
    match cl.create(datasetName, fileName)
    case Some(e) => if e == DcException then Returns(()) else Raises(e)
    case None =>
      match LogCall(0, 3)
      case Raises(e) => Raises(e)
      case Returns(_) =>
        match cl.lookup(FullDatasetName(fileName))
        case Some(e) => if e == DcException then Returns(()) else Raises(e)
        case None => Returns(())
  }

  /** `registerFile` with the log call given one conversion per argument:
      create the dataset, then look up `/LSST/` followed by the file name; a
      DcException of either is logged, any other exception escapes. */
  function RegisterFileChecked(fileName: string, datasetName: string, cl: Client): (r: Py<()>)
    ensures r.Returns? <==> Caught(cl.create(datasetName, fileName))
                            && (cl.create(datasetName, fileName).None?
                                ==> Caught(cl.lookup(FullDatasetName(fileName))))
    ensures r.Raises? ==> r.exc != DcException
  {
    match cl.create(datasetName, fileName)
    case Some(e) => if e == DcException then Returns(()) else Raises(e)
    case None =>
      match LogCall(3, 3)
      case Raises(e) => Raises(e)
      case Returns(_) =>
        match cl.lookup(FullDatasetName(fileName))
        case Some(e) => if e == DcException then Returns(()) else Raises(e)
        case None => Returns(())
  }

  /** `deleteDataset`: a DcException is logged, any other escapes. */
  function DeleteDataset(dsName: string, cl: Client): (r: Py<()>)
    ensures r.Returns? <==> Caught(cl.delete(FullDatasetName(dsName)))
    ensures r.Raises? ==> r.exc != DcException
  {
    match cl.delete(FullDatasetName(dsName))
    case Some(e) => if e == DcException then Returns(()) else Raises(e)
    case None => Returns(())
  }

  // ------------------------------------------------------------------
  // The directory crawls

  /** What `f.read(9)` gives for each file the walk finds. */
  type Heads = string -> FileHead

  /** A file the register crawl counts: `isFits` accepts it and
      `create_dataset` of its dataset name returns. */
  predicate Registered(prefix: string, fullName: string, heads: Heads, cl: Client)
  {
    && IsFits(fullName, heads(fullName)) == Returns(PyTrue)
    && cl.create(DatasetName(prefix, fullName), fullName).None?
  }

  /** One iteration of the register loop: 1 when counted, 0 otherwise, or the
      exception that escapes (from `isFits`, or a datacat error that is not a
      DcException). The dataset is named after the path and the prefix, and
      its resource is the file. */
  function RegisterStep(prefix: string, fullName: string, heads: Heads, cl: Client): Py<nat>
  {
    match IsFits(fullName, heads(fullName))
    case Raises(e) => Raises(e)
    case Returns(b) =>
      if b != PyTrue then Returns(0)
      else
        match cl.create(DatasetName(prefix, fullName), fullName)
        case Some(e) => if e == DcException then Returns(0) else Raises(e)
        case None =>
          match cl.lookup(fullName)
          case Some(e) => if e == DcException then Returns(1) else Raises(e)
          case None => Returns(1)
  }

  /** A step that returns counts exactly the registered file: the count is
      taken before the lookup, so a failing lookup still counts. */
  lemma RegisterStepCounts(prefix: string, fullName: string, heads: Heads, cl: Client)
    ensures var r := RegisterStep(prefix, fullName, heads, cl);
            var created := cl.create(DatasetName(prefix, fullName), fullName);
            && (r.Returns? ==> r.value == if Registered(prefix, fullName, heads, cl) then 1 else 0)
            && (r.Raises? <==> IsFits(fullName, heads(fullName)).Raises?
                               || (IsFits(fullName, heads(fullName)) == Returns(PyTrue)
                                   && (!Caught(created) || (created.None? && !Caught(cl.lookup(fullName))))))
  {
  }

  /** How many of the files satisfy `p`, counted in list order. */
  function CountWhere(files: seq<string>, p: string -> bool): (n: nat)
    ensures n <= |files|
  {
    if |files| == 0 then 0
    else CountWhere(files[..|files| - 1], p) + (if p(files[|files| - 1]) then 1 else 0)
  }

  /** The count is 0 exactly when no file satisfies `p`, and the number of
      files exactly when every file does. */
  lemma {:induction false} CountWhereMeaning(files: seq<string>, p: string -> bool)
    ensures var n := CountWhere(files, p);
            && (n == 0 <==> forall k :: 0 <= k < |files| ==> !p(files[k]))
            && (n == |files| <==> forall k :: 0 <= k < |files| ==> p(files[k]))
    decreases |files|
  {
    if |files| > 0 {
      var init := files[..|files| - 1];
      CountWhereMeaning(init, p);
      assert forall k :: 0 <= k < |init| ==> init[k] == files[k];
    }
  }

  /** How many of the files are registered. */
  function CountRegistered(prefix: string, files: seq<string>, heads: Heads, cl: Client): nat
  {
    CountWhere(files, f => Registered(prefix, f, heads, cl))
  }

  /** The register count is 0 exactly when no file is registered, and the
      number of files exactly when every file is. */
  lemma CountRegisteredMeaning(prefix: string, files: seq<string>, heads: Heads, cl: Client)
    ensures var n := CountRegistered(prefix, files, heads, cl);
            && (n == 0 <==> forall k :: 0 <= k < |files| ==> !Registered(prefix, files[k], heads, cl))
            && (n == |files| <==> forall k :: 0 <= k < |files| ==> Registered(prefix, files[k], heads, cl))
  {
    CountWhereMeaning(files, f => Registered(prefix, f, heads, cl));
  }

  /** `directoryCrawlRegister` over the files `os.walk` yields, in order. It
      returns the number of registered files, or the first exception that
      escapes. */
  method CrawlRegister(prefix: string, files: seq<string>, heads: Heads, cl: Client)
    returns (r: Py<nat>)
    ensures r.Returns? <==> forall k :: 0 <= k < |files| ==> RegisterStep(prefix, files[k], heads, cl).Returns?
    ensures r.Returns? ==> r.value == CountRegistered(prefix, files, heads, cl)
    ensures r.Raises? ==> exists k :: 0 <= k < |files| && RegisterStep(prefix, files[k], heads, cl) == Raises(r.exc)
  {
    var c: nat := 0;
    var i := 0;
    while i < |files|
      invariant 0 <= i <= |files|
      invariant forall k :: 0 <= k < i ==> RegisterStep(prefix, files[k], heads, cl).Returns?
      invariant c == CountRegistered(prefix, files[..i], heads, cl)
    {
      var step := RegisterStep(prefix, files[i], heads, cl);
      RegisterStepCounts(prefix, files[i], heads, cl);
      if step.Raises? {
        return Raises(step.exc);
      }
      assert files[..i + 1][..i] == files[..i];
      c := c + step.value;
      i := i + 1;
    }
    assert files[..i] == files;
    return Returns(c);
  }

  /** A file the delete crawl counts: `isFits` accepts it and
      `delete_dataset` of its dataset returns. */
  predicate Deleted(prefix: string, fullName: string, heads: Heads, cl: Client)
  {
    && IsFits(fullName, heads(fullName)) == Returns(PyTrue)
    && cl.delete(FullDatasetName(DatasetName(prefix, fullName))).None?
  }

  function DeleteStep(prefix: string, fullName: string, heads: Heads, cl: Client): Py<nat>
  {
    match IsFits(fullName, heads(fullName))
    case Raises(e) => Raises(e)
    case Returns(b) =>
      if b != PyTrue then Returns(0)
      else
        match cl.delete(FullDatasetName(DatasetName(prefix, fullName)))
        case Some(e) => if e == DcException then Returns(0) else Raises(e)
        case None => Returns(1)
  }

  lemma DeleteStepCounts(prefix: string, fullName: string, heads: Heads, cl: Client)
    ensures var r := DeleteStep(prefix, fullName, heads, cl);
            && (r.Returns? ==> r.value == if Deleted(prefix, fullName, heads, cl) then 1 else 0)
            && (r.Raises? <==> IsFits(fullName, heads(fullName)).Raises?
                               || (IsFits(fullName, heads(fullName)) == Returns(PyTrue)
                                   && !Caught(cl.delete(FullDatasetName(DatasetName(prefix, fullName))))))
  {
  }

  /** How many of the files had their dataset deleted. */
  function CountDeleted(prefix: string, files: seq<string>, heads: Heads, cl: Client): nat
  {
    CountWhere(files, f => Deleted(prefix, f, heads, cl))
  }

  /** The delete count is 0 exactly when no file's dataset is deleted, and
      the number of files exactly when every file's is. */
  lemma CountDeletedMeaning(prefix: string, files: seq<string>, heads: Heads, cl: Client)
    ensures var n := CountDeleted(prefix, files, heads, cl);
            && (n == 0 <==> forall k :: 0 <= k < |files| ==> !Deleted(prefix, files[k], heads, cl))
            && (n == |files| <==> forall k :: 0 <= k < |files| ==> Deleted(prefix, files[k], heads, cl))
  {
    CountWhereMeaning(files, f => Deleted(prefix, f, heads, cl));
  }

  /** `directoryCrawlDelete`: the number of FITS files whose dataset was
      deleted, or the first exception that escapes. */
  method CrawlDelete(prefix: string, files: seq<string>, heads: Heads, cl: Client)
    returns (r: Py<nat>)
    ensures r.Returns? <==> forall k :: 0 <= k < |files| ==> DeleteStep(prefix, files[k], heads, cl).Returns?
    ensures r.Returns? ==> r.value == CountDeleted(prefix, files, heads, cl)
    ensures r.Raises? ==> exists k :: 0 <= k < |files| && DeleteStep(prefix, files[k], heads, cl) == Raises(r.exc)
  {
    var c: nat := 0;
    var i := 0;
    while i < |files|
      invariant 0 <= i <= |files|
      invariant forall k :: 0 <= k < i ==> DeleteStep(prefix, files[k], heads, cl).Returns?
      invariant c == CountDeleted(prefix, files[..i], heads, cl)
    {
      var step := DeleteStep(prefix, files[i], heads, cl);
      DeleteStepCounts(prefix, files[i], heads, cl);
      if step.Raises? {
        return Raises(step.exc);
      }
      assert files[..i + 1][..i] == files[..i];
      c := c + step.value;
      i := i + 1;
    }
    assert files[..i] == files;
    return Returns(c);
  }

  /** A file `isFits` does not accept is never counted by either crawl. */
  lemma NonFitsNeverCounted(prefix: string, fullName: string, heads: Heads, cl: Client)
    requires IsFits(fullName, heads(fullName)) != Returns(PyTrue)
    ensures !Registered(prefix, fullName, heads, cl) && !Deleted(prefix, fullName, heads, cl)
    ensures RegisterStep(prefix, fullName, heads, cl).Returns? ==> RegisterStep(prefix, fullName, heads, cl).value == 0
    ensures DeleteStep(prefix, fullName, heads, cl).Returns? ==> DeleteStep(prefix, fullName, heads, cl).value == 0
  {
  }

  /** A catalog holding the dataset names of `/LSST`: creating a name that is
      already there, or deleting one that is not, raises DcException. */
  function CatalogClient(names: set<string>): Client
  {
    Client(
      (name: string, resource: string) => if name in names then Some(DcException) else None,
      (path: string) => None,
      (fullName: string) =>
        if IsPrefix(DcPath + "/", fullName) && fullName[|DcPath| + 1..] in names then None
        else Some(DcException))
  }

  /** The delete crawl undoes the register crawl for the same prefix: the
      register step creates the file's dataset in a catalog that lacks it,
      the delete step finds nothing to delete there, and once that dataset is
      in the catalog the delete step deletes it. The dataset both steps name
      is `/LSST/`, the prefix, then the path with every `/` made a `.`. */
  lemma RegisterThenDelete(prefix: string, fullName: string, heads: Heads, names: set<string>)
    requires IsFits(fullName, heads(fullName)) == Returns(PyTrue)
    requires DatasetName(prefix, fullName) !in names
    ensures FullDatasetName(DatasetName(prefix, fullName))
         == "/LSST/" + prefix + ReplaceChar(fullName, '/', '.')
    ensures RegisterStep(prefix, fullName, heads, CatalogClient(names)) == Returns(1)
    ensures DeleteStep(prefix, fullName, heads, CatalogClient(names)) == Returns(0)
    ensures DeleteStep(prefix, fullName, heads, CatalogClient(names + {DatasetName(prefix, fullName)})) == Returns(1)
  {
    var n := DatasetName(prefix, fullName);
    DatasetNameIsRewrite(prefix, fullName);
    assert FullDatasetName(n)[|DcPath| + 1..] == n;
  }

  // ------------------------------------------------------------------
  // main: the option fold and the dispatch

  /** An option as `getopt` returns it for the short option `h` and the long
      options `DEL`, `regf=`, `regd=`, `ds=` and `DEL_dir=`. */
  datatype Opt = Help | Del | Regf(arg: string) | Regd(arg: string) | Ds(arg: string) | DelDir(arg: string)

  /** The value of `aVals["command"]`; `NoCommand` is the initial `""`. */
  datatype Command = NoCommand | RegfCmd | RegdCmd | DelCmd | DelDirCmd

  /** The branch of the option loop's if-chain an option name takes. The
      tests are `opt in ("--regf")` and so on: the parentheses make no tuple,
      so each is a substring test on a string. */
  function Branch(name: string): Command
  {
    if name == "-h" then NoCommand
    else if Contains("--regf", name) then RegfCmd
    else if Contains("--regd", name) then RegdCmd
    else if Contains("--DEL", name) then DelCmd
    else if Contains("--DEL_dir", name) then DelDirCmd
    else NoCommand
  }

  /** For every name `getopt` can return, the substring tests pick the branch
      an equality test would; this is why options are modelled by kind. */
  lemma BranchesAreExact()
    ensures Branch("--regf") == RegfCmd
    ensures Branch("--regd") == RegdCmd
    ensures Branch("--DEL") == DelCmd
    ensures Branch("--DEL_dir") == DelDirCmd
    ensures Branch("--ds") == NoCommand && Branch("-h") == NoCommand
  {
    ContainsSelf("--regf");
    ContainsSelf("--regd");
    ContainsSelf("--DEL");
    ContainsSelf("--DEL_dir");
    ContainsSameLength("--regf", "--regd");
    assert "--regf"[5] != "--regd"[5];
    ContainsChar("--regf", "--DEL", 2);
    ContainsChar("--regd", "--DEL", 2);
    ContainsLonger("--regf", "--DEL_dir");
    ContainsLonger("--regd", "--DEL_dir");
    ContainsLonger("--DEL", "--DEL_dir");
    ContainsChar("--regf", "--ds", 3);
    ContainsChar("--regd", "--ds", 3);
    ContainsChar("--DEL", "--ds", 3);
    ContainsChar("--DEL_dir", "--ds", 3);
  }

  lemma ContainsSelf(s: string)
    ensures Contains(s, s)
  {
    assert IsPrefix(s, s);
  }

  lemma {:induction false} ContainsLonger(hay: string, needle: string)
    requires |needle| > |hay|
    ensures !Contains(hay, needle)
  {
    if |hay| > 0 {
      ContainsLonger(hay[1..], needle);
    }
  }

  lemma ContainsSameLength(hay: string, needle: string)
    requires |needle| == |hay|
    ensures Contains(hay, needle) ==> hay == needle
  {
    if |hay| > 0 {
      ContainsLonger(hay[1..], needle);
    }
  }

  /** A needle holding a character the haystack lacks is not contained. */
  lemma {:induction false} ContainsChar(hay: string, needle: string, i: nat)
    requires i < |needle| && needle[i] !in hay
    ensures !Contains(hay, needle)
  {
    PrefixHoldsChar(hay, needle, i);
    if |hay| > 0 {
      ContainsChar(hay[1..], needle, i);
    }
  }

  lemma PrefixHoldsChar(hay: string, needle: string, i: nat)
    requires i < |needle|
    ensures IsPrefix(needle, hay) ==> needle[i] in hay
  {
    if IsPrefix(needle, hay) {
      assert hay[i] == needle[i];
    }
  }

  /** The `aVals` dictionary. */
  datatype AVals = AVals(fileName: string, dirName: string, datasetName: string, command: Command)

  /** `os.path.abspath`, which the options pass their paths through. */
  type AbsPath = string -> string

  /** One iteration of the option loop, for an option other than `-h`. */
  function Apply(v: AVals, o: Opt, abs: AbsPath): AVals
  {
    match o
    case Help => v
    case Regf(a) => v.(fileName := abs(a), command := RegfCmd)
    case Regd(a) => v.(dirName := abs(a), command := RegdCmd)
    case Del => if v.command == NoCommand then v.(command := DelCmd) else v
    case DelDir(a) => v.(dirName := abs(a), command := if v.command == NoCommand then DelDirCmd else v.command)
    case Ds(a) => v.(datasetName := a)
  }

  /** The loop over the options, from the initial `aVals`. */
  function Fold(opts: seq<Opt>, abs: AbsPath): AVals
  {
    if |opts| == 0 then AVals("", "", "", NoCommand)
    else Apply(Fold(opts[..|opts| - 1], abs), opts[|opts| - 1], abs)
  }

  predicate IsReg(o: Opt)
  {
    o.Regf? || o.Regd?
  }

  predicate IsDel(o: Opt)
  {
    o.Del? || o.DelDir?
  }

  function CommandOf(o: Opt): Command
  {
    match o
    case Regf(_) => RegfCmd
    case Regd(_) => RegdCmd
    case Del => DelCmd
    case DelDir(_) => DelDirCmd
    case _ => NoCommand
  }

  /** The three path and name fields of `aVals`. */
  datatype Field = FileField | DirField | DsField

  function FieldOf(v: AVals, f: Field): string
  {
    match f
    case FileField => v.fileName
    case DirField => v.dirName
    case DsField => v.datasetName
  }

  /** Whether the option stores into the field. */
  predicate Sets(o: Opt, f: Field)
  {
    match f
    case FileField => o.Regf?
    case DirField => o.Regd? || o.DelDir?
    case DsField => o.Ds?
  }

  /** What an option that sets a field stores there: the path made absolute,
      or the `--ds` argument as given. */
  function StoredArg(o: Opt, f: Field, abs: AbsPath): string
    requires Sets(o, f)
  {
    if f == DsField then o.arg else abs(o.arg)
  }

  /** What the last option that sets the field stores, or `""`. */
  function LastArg(opts: seq<Opt>, f: Field, abs: AbsPath): string
  {
    if |opts| == 0 then ""
    else if Sets(opts[|opts| - 1], f) then StoredArg(opts[|opts| - 1], f, abs)
    else LastArg(opts[..|opts| - 1], f, abs)
  }

  lemma ApplyField(v: AVals, o: Opt, f: Field, abs: AbsPath)
    ensures FieldOf(Apply(v, o, abs), f) == if Sets(o, f) then StoredArg(o, f, abs) else FieldOf(v, f)
  {
  }

  /** Each of the three fields holds what the last option setting it stored:
      the last `--regf`; the last `--regd` or `--DEL_dir`; the last `--ds`. */
  lemma {:induction false} FoldField(opts: seq<Opt>, f: Field, abs: AbsPath)
    ensures FieldOf(Fold(opts, abs), f) == LastArg(opts, f, abs)
  {
    if |opts| > 0 {
      FoldField(opts[..|opts| - 1], f, abs);
      ApplyField(Fold(opts[..|opts| - 1], abs), opts[|opts| - 1], f, abs);
    }
  }

  /** With no command option, the command stays unset. */
  lemma {:induction false} NoCommandYet(opts: seq<Opt>, abs: AbsPath)
    requires forall j :: 0 <= j < |opts| ==> !IsReg(opts[j]) && !IsDel(opts[j])
    ensures Fold(opts, abs).command == NoCommand
  {
    if |opts| > 0 {
      NoCommandYet(opts[..|opts| - 1], abs);
    }
  }

  /** Once set, the command changes only with a later `--regf` or `--regd`. */
  lemma {:induction false} CommandPersists(opts: seq<Opt>, j: nat, abs: AbsPath)
    requires j <= |opts|
    requires Fold(opts[..j], abs).command != NoCommand
    requires forall i :: j <= i < |opts| ==> !IsReg(opts[i])
    ensures Fold(opts, abs).command == Fold(opts[..j], abs).command
  {
    if |opts| == j {
      assert opts[..j] == opts;
    } else {
      var init := opts[..|opts| - 1];
      assert init[..j] == opts[..j];
      CommandPersists(init, j, abs);
    }
  }

  /** The last `--regf` or `--regd` decides the command. */
  lemma LastRegWins(opts: seq<Opt>, k: nat, abs: AbsPath)
    requires k < |opts| && IsReg(opts[k])
    requires forall i :: k < i < |opts| ==> !IsReg(opts[i])
    ensures Fold(opts, abs).command == CommandOf(opts[k])
  {
    assert opts[..k + 1][..k] == opts[..k];
    CommandPersists(opts, k + 1, abs);
  }

  /** Without `--regf` and `--regd`, the first `--DEL` or `--DEL_dir` decides
      the command. */
  lemma FirstDelWins(opts: seq<Opt>, k: nat, abs: AbsPath)
    requires k < |opts| && IsDel(opts[k])
    requires forall i :: 0 <= i < |opts| ==> !IsReg(opts[i])
    requires forall i :: 0 <= i < k ==> !IsDel(opts[i])
    ensures Fold(opts, abs).command == CommandOf(opts[k])
  {
    assert opts[..k + 1][..k] == opts[..k];
    NoCommandYet(opts[..k], abs);
    CommandPersists(opts, k + 1, abs);
  }

  /** What `main` ends in. */
  datatype Action =
    | ShowHelp                              // `helpMsg()`
    | DoRegisterFile(fileName: string, datasetName: string)
    | DoCrawlRegister(dirName: string, prefix: string)
    | DoDeleteDataset(dsName: string)
    | DoCrawlDelete(dirName: string, prefix: string)
    | NoAction                              // `--DEL` without a dataset name

  datatype MainEnd = Exit(status: int) | Dispatched(action: Action)

  /** The dispatch on `aVals["command"]`, with its guards. */
  function Dispatch(v: AVals): (a: Action)
    ensures a.DoRegisterFile? <==> v.command == RegfCmd && v.fileName != "" && v.datasetName != ""
    ensures a.DoCrawlRegister? <==> v.command == RegdCmd && v.dirName != ""
    ensures a.DoDeleteDataset? <==> v.command == DelCmd && v.datasetName != ""
    ensures a.DoCrawlDelete? <==> v.command == DelDirCmd && v.dirName != ""
    ensures a == NoAction <==> v.command == DelCmd && v.datasetName == ""
    ensures v.command == NoCommand ==> a == ShowHelp
  {
    match v.command
    case RegfCmd => if v.fileName != "" && v.datasetName != "" then DoRegisterFile(v.fileName, v.datasetName) else ShowHelp
    case RegdCmd => if v.dirName != "" then DoCrawlRegister(v.dirName, v.datasetName) else ShowHelp
    case DelCmd => if v.datasetName != "" then DoDeleteDataset(v.datasetName) else NoAction
    case DelDirCmd => if v.dirName != "" then DoCrawlDelete(v.dirName, v.datasetName) else ShowHelp
    case NoCommand => ShowHelp
  }

  /** `main`: `None` from `getopt` is its GetoptError, which exits with
      status 2; a `-h` anywhere exits with status 0 once the loop reaches it;
      otherwise the folded options are dispatched. */
  function Main(parsed: Option<seq<Opt>>, abs: AbsPath): (r: MainEnd)
    ensures parsed.None? ==> r == Exit(2)
    ensures parsed.Some? && Help in parsed.value ==> r == Exit(0)
    ensures parsed.Some? && Help !in parsed.value ==> r == Dispatched(Dispatch(Fold(parsed.value, abs)))
  {
    match parsed
    case None => Exit(2)
    case Some(opts) => if Help in opts then Exit(0) else Dispatched(Dispatch(Fold(opts, abs)))
  }
}

=== FILE: fits_db.dfy ===
/** The FITS header bookkeeping: the magic-bytes test, the INSERT builder,
    reading every HDU's header into numbered entries, the key/value and
    position rows derived from them, and storing a file with all its rows in
    one transaction. The header reader, the file contents, the SQL connection
    and the Python conversions are abstract inputs. */
module MetadataFitsDb {
  import opened Py
  import opened FitsExt
  import opened FitsSchema

  // ------------------------------------------------------------------
  // Header values and entries

  /** A keyword's data: one value, or a tuple when the keyword repeats. */
  datatype HeaderValue = Scalar(v: Value) | Tuple(items: seq<Value>)

  /** One keyword of an HDU's header, in `getOrderedNames` order. */
  datatype Card = Card(name: string, data: HeaderValue, comment: string)

  /** An entry of `MetadataFits._entries`: the key `(name, hdu)` and the
      value `(data, lineNum, comment)`. The dictionary is kept as a sequence
      of distinct keys in insertion order. */
  datatype Entry = Entry(name: string, hdu: int, data: HeaderValue, lineNum: int, comment: string)

  datatype MetadataFits = MetadataFits(fileName: string, hdus: int, entries: seq<Entry>)

  /** One value as `insertMetadataFits` stores it: tuples are expanded. */
  datatype Emission = Emission(name: string, hdu: int, value: Value, lineNum: int, comment: string)

  /** The number of header lines a keyword's data stands for. */
  function Width(data: HeaderValue): nat
  {
    match data
    case Scalar(_) => 1
    case Tuple(items) => |items|
  }

  function TotalWidth(cards: seq<Card>): nat
  {
    if |cards| == 0 then 0 else Width(cards[0].data) + TotalWidth(cards[1..])
  }

  /** `(name, hdu) in entries`. */
  predicate HasKey(entries: seq<Entry>, name: string, hdu: int)
  {
    |entries| > 0 && ((entries[0].name == name && entries[0].hdu == hdu) || HasKey(entries[1..], name, hdu))
  }

  lemma {:induction false} HasKeySnoc(entries: seq<Entry>, e: Entry, name: string, hdu: int)
    ensures HasKey(entries + [e], name, hdu) <==> HasKey(entries, name, hdu) || (e.name == name && e.hdu == hdu)
    decreases |entries|
  {
    if |entries| == 0 {
      assert entries + [e] == [e];
    } else {
      assert (entries + [e])[1..] == entries[1..] + [e];
      HasKeySnoc(entries[1..], e, name, hdu);
    }
  }

  /** `entries[(name, hdu)][0]`, when the key is present. */
  function Find(entries: seq<Entry>, name: string, hdu: int): (r: Option<HeaderValue>)
    ensures r.Some? <==> HasKey(entries, name, hdu)
  {
    if |entries| == 0 then None
    else if entries[0].name == name && entries[0].hdu == hdu then Some(entries[0].data)
    else Find(entries[1..], name, hdu)
  }

  /** `entries[(e.name, e.hdu)] = ...`: a present key keeps its place and
      takes the new value, a new key goes at the end. */
  function Put(entries: seq<Entry>, e: Entry): (r: seq<Entry>)
    ensures Find(r, e.name, e.hdu) == Some(e.data)
    ensures !HasKey(entries, e.name, e.hdu) ==> r == entries + [e]
  {
    if |entries| == 0 then [e]
    else if entries[0].name == e.name && entries[0].hdu == e.hdu then [e] + entries[1..]
    else
      var r := [entries[0]] + Put(entries[1..], e);
      assert !HasKey(entries, e.name, e.hdu) ==> r == entries + [e] by {
        if !HasKey(entries, e.name, e.hdu) {
          assert entries == [entries[0]] + entries[1..];
        }
      }
      r
  }

  // ------------------------------------------------------------------
  // scanFile and the line numbering

  /** `scanFile`'s loop over one HDU's keywords: each keyword is stored under
      `(name, hdu)` with the current line number, which then moves on by the
      width of its data. */
  function ScanCards(entries: seq<Entry>, cards: seq<Card>, hdu: int, lineNum: int): seq<Entry>
    decreases |cards|
  {
    if |cards| == 0 then entries
    else
      var c := cards[0];
      ScanCards(Put(entries, Entry(c.name, hdu, c.data, lineNum, c.comment)),
                cards[1..], hdu, lineNum + Width(c.data))
  }

  /** The entries of one HDU when no keyword is stored twice. */
  function Numbered(cards: seq<Card>, hdu: int, lineNum: int): (r: seq<Entry>)
    ensures |r| == |cards|
    decreases |cards|
  {
    if |cards| == 0 then []
    else
      var c := cards[0];
      [Entry(c.name, hdu, c.data, lineNum, c.comment)] + Numbered(cards[1..], hdu, lineNum + Width(c.data))
  }

  /** The tuple expansion of `insertMetadataFits`: one value per element,
      with consecutive line numbers from the entry's own. */
  function Expand(e: Entry): (r: seq<Emission>)
    ensures |r| == Width(e.data)
  {
    match e.data
    case Scalar(v) => [Emission(e.name, e.hdu, v, e.lineNum, e.comment)]
    case Tuple(items) =>
      seq(|items|, j requires 0 <= j < |items| => Emission(e.name, e.hdu, items[j], e.lineNum + j, e.comment))
  }

  function Emitted(entries: seq<Entry>): seq<Emission>
  {
    if |entries| == 0 then [] else Expand(entries[0]) + Emitted(entries[1..])
  }

  predicate DistinctNames(cards: seq<Card>)
  {
    forall i, j :: 0 <= i < j < |cards| ==> cards[i].name != cards[j].name
  }

  predicate NoneStored(entries: seq<Entry>, cards: seq<Card>, hdu: int)
  {
    forall k :: 0 <= k < |cards| ==> !HasKey(entries, cards[k].name, hdu)
  }

  /** With distinct names and none of them stored yet, scanning appends one
      entry per keyword and overwrites nothing. */
  lemma {:induction false} ScanAppends(entries: seq<Entry>, cards: seq<Card>, hdu: int, lineNum: int)
    requires DistinctNames(cards) && NoneStored(entries, cards, hdu)
    ensures ScanCards(entries, cards, hdu, lineNum) == entries + Numbered(cards, hdu, lineNum)
    decreases |cards|
  {
    if |cards| > 0 {
      var c := cards[0];
      var e := Entry(c.name, hdu, c.data, lineNum, c.comment);
      StillNoneStored(entries, cards, hdu, lineNum);
      DistinctTail(cards);
      ScanAppends(entries + [e], cards[1..], hdu, lineNum + Width(c.data));
      ScanStep(entries, cards, hdu, lineNum);
    }
  }

  /** One keyword not stored yet: scanning it appends its entry. */
  lemma ScanStep(entries: seq<Entry>, cards: seq<Card>, hdu: int, lineNum: int)
    requires |cards| > 0 && !HasKey(entries, cards[0].name, hdu)
    ensures var e := Entry(cards[0].name, hdu, cards[0].data, lineNum, cards[0].comment);
            var l := lineNum + Width(cards[0].data);
            && ScanCards(entries, cards, hdu, lineNum) == ScanCards(entries + [e], cards[1..], hdu, l)
            && entries + Numbered(cards, hdu, lineNum) == (entries + [e]) + Numbered(cards[1..], hdu, l)
  {
  }

  lemma StillNoneStored(entries: seq<Entry>, cards: seq<Card>, hdu: int, lineNum: int)
    requires |cards| > 0 && DistinctNames(cards) && NoneStored(entries, cards, hdu)
    ensures NoneStored(entries + [Entry(cards[0].name, hdu, cards[0].data, lineNum, cards[0].comment)], cards[1..], hdu)
  {
    var e := Entry(cards[0].name, hdu, cards[0].data, lineNum, cards[0].comment);
    forall k | 0 <= k < |cards[1..]|
      ensures !HasKey(entries + [e], cards[1..][k].name, hdu)
    {
      assert cards[1..][k] == cards[k + 1];
      assert !HasKey(entries, cards[k + 1].name, hdu);
      HasKeySnoc(entries, e, cards[k + 1].name, hdu);
    }
  }

  lemma DistinctTail(cards: seq<Card>)
    requires |cards| > 0 && DistinctNames(cards)
    ensures DistinctNames(cards[1..])
  {
    forall i, j | 0 <= i < j < |cards[1..]|
      ensures cards[1..][i].name != cards[1..][j].name
    {
      assert cards[1..][i] == cards[i + 1] && cards[1..][j] == cards[j + 1];
    }
  }

  lemma {:induction false} EmittedAppend(a: seq<Entry>, b: seq<Entry>)
    ensures Emitted(a + b) == Emitted(a) + Emitted(b)
    decreases |a|
  {
    if |a| == 0 {
      assert a + b == b;
    } else {
      assert (a + b)[0] == a[0];
      assert (a + b)[1..] == a[1..] + b;
      EmittedAppend(a[1..], b);
    }
  }

  /** Expanding a fresh numbering gives consecutive line numbers from the
      first one, as many as the keywords' widths add up to. */
  lemma {:induction false} NumberedLines(cards: seq<Card>, hdu: int, lineNum: int)
    ensures var em := Emitted(Numbered(cards, hdu, lineNum));
            && |em| == TotalWidth(cards)
            && (forall k :: 0 <= k < |em| ==> em[k].lineNum == lineNum + k && em[k].hdu == hdu)
    decreases |cards|
  {
    if |cards| > 0 {
      var c := cards[0];
      var e := Entry(c.name, hdu, c.data, lineNum, c.comment);
      var rest := Numbered(cards[1..], hdu, lineNum + Width(c.data));
      assert Numbered(cards, hdu, lineNum) == [e] + rest;
      assert ([e] + rest)[1..] == rest;
      NumberedLines(cards[1..], hdu, lineNum + Width(c.data));
      var head := Expand(e);
      var em := head + Emitted(rest);
      forall k | 0 <= k < |em|
        ensures em[k].lineNum == lineNum + k && em[k].hdu == hdu
      {
        if k >= |head| {
          assert em[k] == Emitted(rest)[k - |head|];
        } else {
          assert em[k] == head[k];
        }
      }
    }
  }

  /** The numbering promise: for one HDU whose keywords are distinct, the
      values stored after tuple expansion carry the line numbers
      0, 1, ..., n-1, each exactly once, where a tuple of k values counts k. */
  lemma LineNumbersContiguous(cards: seq<Card>, hdu: int)
    requires DistinctNames(cards)
    ensures var em := Emitted(ScanCards([], cards, hdu, 0));
            && |em| == TotalWidth(cards)
            && (forall k :: 0 <= k < |em| ==> em[k].lineNum == k && em[k].hdu == hdu)
  {
    ScanAppends([], cards, hdu, 0);
    assert [] + Numbered(cards, hdu, 0) == Numbered(cards, hdu, 0);
    NumberedLines(cards, hdu, 0);
  }

  // ------------------------------------------------------------------
  // scanFileAllHdus

  /** `afwImage.readMetadata(fileName, hdu)`: the header of an HDU, or `None`
      when the reader raises, which `scanFile` takes for the end of the file. */
  type Reader = nat -> Option<seq<Card>>

  /** The HDU loop from `hdu` on, as a recursive definition. `limit` is an
      HDU the reader cannot read: every file has a last HDU. */
  function ScanHdusFrom(read: Reader, limit: nat, hdu: nat, md: MetadataFits): MetadataFits
    requires 1 <= hdu <= limit && read(limit).None?
    decreases limit - hdu
  {
    match read(hdu)
    case None => md
    case Some(cards) =>
      ScanHdusFrom(read, limit, hdu + 1, md.(hdus := hdu, entries := ScanCards(md.entries, cards, hdu, 0)))
  }

  function ScanAllHdus(fileName: string, read: Reader, limit: nat): MetadataFits
    requires limit >= 1 && read(limit).None?
  {
    ScanHdusFrom(read, limit, 1, MetadataFits(fileName, 1, []))
  }

  /** `scanFileAllHdus`: reads HDU 1, 2, ... until the reader raises. The HDU
      count is the last HDU read, or the initial 1 when none could be read;
      `scanned` says how many were read. */
  method ScanFileAllHdus(fileName: string, read: Reader, ghost limit: nat)
    returns (md: MetadataFits, scanned: nat)
    requires limit >= 1 && read(limit).None?
    ensures md == ScanAllHdus(fileName, read, limit)
    ensures forall h :: 1 <= h <= scanned ==> read(h).Some?
    ensures read(scanned + 1).None?
    ensures md.hdus == if scanned == 0 then 1 else scanned
    ensures md.fileName == fileName
  {
    md := MetadataFits(fileName, 1, []);
    var hdu: nat := 1;
    while true
      invariant 1 <= hdu <= limit
      invariant forall h :: 1 <= h < hdu ==> read(h).Some?
      invariant md.hdus == if hdu == 1 then 1 else hdu - 1
      invariant md.fileName == fileName
      invariant ScanHdusFrom(read, limit, hdu, md) == ScanAllHdus(fileName, read, limit)
      decreases limit - hdu
    {
      match read(hdu)
      case None =>
        break;
      case Some(cards) =>
        md := md.(hdus := hdu, entries := ScanCards(md.entries, cards, hdu, 0));
        hdu := hdu + 1;
    }
    scanned := hdu - 1;
  }

  // ------------------------------------------------------------------
  // isFits

  /** What `isFits` returns: `True`, `False`, or `None` when it runs off its
      end. Only `True` is truthy. */
  datatype PyBool = PyTrue | PyFalse | PyNone

  /** What `f.read(9)` yields on the file opened with `open` and with
      `gzip.open`, or the IOError either raises. */
  datatype FileHead = FileHead(plain: Py<string>, gzipped: Py<string>)

  const FitsMagic: string := "SIMPLE  ="

  /** The file is opened with gzip when its last dot-component is `gz`. */
  function ReadHead(fileName: string, head: FileHead): Py<string>
  {
    var parts := Split(fileName, '.');
    if parts[|parts| - 1] == "gz" then head.gzipped else head.plain
  }

  /** `isFits`: the name test first, then the first nine characters. A read
      error escapes; a FITS-named file with another start gives `None`. */
  function IsFits(fileName: string, head: FileHead): (r: Py<PyBool>)
    ensures r == Returns(PyTrue) <==> IsFitsExt(fileName) && ReadHead(fileName, head) == Returns(FitsMagic)
    ensures !IsFitsExt(fileName) ==> r == Returns(PyFalse)
    ensures r.Raises? <==> IsFitsExt(fileName) && ReadHead(fileName, head).Raises?
  {
    if !IsFitsExt(fileName) then Returns(PyFalse)
    else
      match ReadHead(fileName, head)
      case Raises(e) => Raises(e)
      case Returns(line) => if line == FitsMagic then Returns(PyTrue) else Returns(PyNone)
  }

  // ------------------------------------------------------------------
  // executeInsertList

  datatype Column = Column(col: Col, value: Value)

  /** A parametrised statement: the SQL text and the values bound to its
      `%s` placeholders. */
  datatype Statement = Statement(sql: string, params: seq<Value>)

  function ColumnNames(cols: seq<Column>): (r: seq<string>)
    ensures |r| == |cols|
  {
    seq(|cols|, i requires 0 <= i < |cols| => SqlName(cols[i].col))
  }

  function ColumnValues(cols: seq<Column>): (r: seq<Value>)
    ensures |r| == |cols|
  {
    seq(|cols|, i requires 0 <= i < |cols| => cols[i].value)
  }

  function Placeholders(n: nat): (r: seq<string>)
    ensures |r| == n
  {
    seq(n, _ => "%s")
  }

  /** The statement text, as a join of the column names and of one
      placeholder per column. */
  function InsertSql(table: string, cols: seq<Column>): string
  {
    "INSERT INTO " + table + " (" + Join(ColumnNames(cols), ", ")
      + ") Values (" + Join(Placeholders(|cols|), ", ") + ")"
  }

  lemma JoinSnoc(p: seq<string>, x: string, sep: string)
    requires |p| >= 1
    ensures Join(p + [x], sep) == Join(p, sep) + sep + x
  {
    JoinAppend(p, [x], sep);
  }

  /** `executeInsertList` without the connection: nothing for an empty list,
      otherwise the statement it executes, built column by column. */
  method ExecuteInsertList(table: string, columnValues: seq<Column>) returns (r: Option<Statement>)
    ensures r.None? <==> |columnValues| == 0
    ensures r.Some? ==> r.value == Statement(InsertSql(table, columnValues), ColumnValues(columnValues))
  {
    if |columnValues| < 1 {
      return None;
    }
    var sql1 := "INSERT INTO " + table + " (";
    var colStr := "";
    var valStr := "";
    var values: seq<Value> := [];
    var first := true;
    var i := 0;
    while i < |columnValues|
      invariant 0 <= i <= |columnValues|
      invariant first <==> i == 0
      invariant i > 0 ==> colStr == Join(ColumnNames(columnValues[..i]), ", ")
      invariant i > 0 ==> valStr == Join(Placeholders(i), ", ")
      invariant values == ColumnValues(columnValues[..i])
    {
      var c := columnValues[i];
      assert ColumnNames(columnValues[..i + 1]) == ColumnNames(columnValues[..i]) + [SqlName(c.col)];
      assert ColumnValues(columnValues[..i + 1]) == ColumnValues(columnValues[..i]) + [c.value];
      assert Placeholders(i + 1) == Placeholders(i) + ["%s"];
      values := values + [c.value];
      if first {
        first := false;
        colStr := SqlName(c.col);
        valStr := "%s";
      } else {
        JoinSnoc(ColumnNames(columnValues[..i]), SqlName(c.col), ", ");
        JoinSnoc(Placeholders(i), "%s", ", ");
        colStr := colStr + ", " + SqlName(c.col);
        valStr := valStr + ", %s";
      }
      i := i + 1;
    }
    assert columnValues[..i] == columnValues;
    r := Some(Statement(sql1 + colStr + ") Values (" + valStr + ")", values));
  }

  // ------------------------------------------------------------------
  // Conversions

  /** `float(v)` on a scalar: only a string can fail, with ValueError. */
  function FloatOf(v: Value, p: Parsers): (r: Py<real>)
    ensures r.Raises? ==> v.VStr? && r.exc == ValueError
  {
    match v
    case VStr(s) => (match p.toFloat(s) case Some(x) => Returns(x) case None => Raises(ValueError))
    case VInt(i) => Returns(i as real)
    case VReal(x) => Returns(x)
    case VBool(b) => Returns(if b then 1.0 else 0.0)
  }

  /** `int(v)` on a scalar: only a string can fail, with ValueError. */
  function IntOf(v: Value, p: Parsers): (r: Py<int>)
    ensures r.Raises? ==> v.VStr? && r.exc == ValueError
  {
    match v
    case VStr(s) => (match p.toInt(s) case Some(n) => Returns(n) case None => Raises(ValueError))
    case VInt(i) => Returns(i)
    case VReal(x) => Returns(Trunc(x))
    case VBool(b) => Returns(if b then 1 else 0)
  }

  /** `float(data)` on a keyword's data: a tuple raises TypeError. */
  function FloatOfData(d: HeaderValue, p: Parsers): (r: Py<real>)
    ensures r.Raises? ==> (r.exc == TypeError <==> d.Tuple?)
    ensures r.Raises? ==> r.exc == ValueError || r.exc == TypeError
  {
    match d
    case Scalar(v) => FloatOf(v, p)
    case Tuple(_) => Raises(TypeError)
  }

  // ------------------------------------------------------------------
  // _insertFitsValue

  /** The FitsKeyValues row `_insertFitsValue` inserts: the key, the raw
      value, its line and comment; `intValue` when the value is not a float
      and `int()` accepts it; `doubleValue` when `float()` accepts it. */
  function KeyValueRow(fileId: int, em: Emission, p: Parsers): (row: Row)
    ensures row.Keys >= {FitsFileId, FitsKey, Hdu, StringValue, LineNum, Comment}
    ensures row.Keys <= {FitsFileId, FitsKey, Hdu, StringValue, LineNum, Comment, IntValue, DoubleValue}
    ensures row[FitsFileId] == VInt(fileId) && row[FitsKey] == VStr(em.name) && row[Hdu] == VInt(em.hdu)
    ensures row[StringValue] == em.value && row[LineNum] == VInt(em.lineNum) && row[Comment] == VStr(em.comment)
    ensures IntValue in row <==> !em.value.VReal? && IntOf(em.value, p).Returns?
    ensures IntValue in row ==> row[IntValue] == VInt(IntOf(em.value, p).value)
    ensures DoubleValue in row <==> FloatOf(em.value, p).Returns?
    ensures DoubleValue in row ==> row[DoubleValue] == VReal(FloatOf(em.value, p).value)
  {
    var fixed := map[FitsFileId := VInt(fileId), FitsKey := VStr(em.name), Hdu := VInt(em.hdu),
                     StringValue := em.value, LineNum := VInt(em.lineNum), Comment := VStr(em.comment)];
    var withInt := if !em.value.VReal? && IntOf(em.value, p).Returns?
                   then fixed[IntValue := VInt(IntOf(em.value, p).value)] else fixed;
    if FloatOf(em.value, p).Returns? then withInt[DoubleValue := VReal(FloatOf(em.value, p).value)] else withInt
  }

  /** The FitsKeyValues rows of a file: one per value after tuple expansion,
      in entry order. */
  function KeyValueRows(fileId: int, entries: seq<Entry>, p: Parsers): (rows: seq<Row>)
    ensures |rows| == |Emitted(entries)|
    ensures forall k :: 0 <= k < |rows| ==> rows[k] == KeyValueRow(fileId, Emitted(entries)[k], p)
  {
    var em := Emitted(entries);
    seq(|em|, k requires 0 <= k < |em| => KeyValueRow(fileId, em[k], p))
  }

  // ------------------------------------------------------------------
  // MetadataPosition._insert

  /** `float()` of the keyword's data when it is present and converts. */
  function ParsedFloat(entries: seq<Entry>, key: string, hdu: int, p: Parsers): Option<real>
  {
    match Find(entries, key, hdu)
    case None => None
    case Some(d) => if FloatOfData(d, p).Returns? then Some(FloatOfData(d, p).value) else None
  }

  predicate IsText(d: HeaderValue)
  {
    d.Scalar? && d.v.VStr?
  }

  /** `DATE` is present but is not a string, so `.replace` raises. */
  predicate DateNotText(entries: seq<Entry>, hdu: int)
  {
    Find(entries, "DATE", hdu).Some? && !IsText(Find(entries, "DATE", hdu).value)
  }

  predicate IsTuple(entries: seq<Entry>, key: string, hdu: int)
  {
    Find(entries, key, hdu).Some? && Find(entries, key, hdu).value.Tuple?
  }

  /** The position columns `_insert` may set. */
  function AsValue(x: Option<real>): Option<Value>
  {
    if x.Some? then Some(VReal(x.value)) else None
  }

  /** What each position column ends up holding, column by column: `pdate`
      the DATE text with `T` read as a space when that passes the date check;
      `equinox` EQUINOX when it converts, else EPOC when it converts; `pRa`,
      `pDec`, `rotAng` and `pDate` the converted PRA, PDEC, ROTANG and DATE. */
  function Expected(entries: seq<Entry>, hdu: int, p: Parsers, c: Col): Option<Value>
  {
    match c
    case Pdate =>
      (match Find(entries, "DATE", hdu)
       case Some(Scalar(VStr(s))) =>
         var dt := ReplaceChar(s, 'T', ' ');
         if p.dateOk(dt) then Some(VStr(dt)) else None
       case _ => None)
    case Equinox =>
      if ParsedFloat(entries, "EQUINOX", hdu, p).Some? then AsValue(ParsedFloat(entries, "EQUINOX", hdu, p))
      else AsValue(ParsedFloat(entries, "EPOC", hdu, p))
    case PRa => AsValue(ParsedFloat(entries, "PRA", hdu, p))
    case PDec => AsValue(ParsedFloat(entries, "PDEC", hdu, p))
    case RotAng => AsValue(ParsedFloat(entries, "ROTANG", hdu, p))
    case PDate => AsValue(ParsedFloat(entries, "DATE", hdu, p))
    case _ => None
  }

  /** The `pdate` part: raises when DATE is not a string. */
  function DateColumn(entries: seq<Entry>, hdu: int, p: Parsers): Py<Row>
  {
    match Find(entries, "DATE", hdu)
    case None => Returns(map[])
    case Some(d) =>
      if !IsText(d) then Raises(AttributeError)
      else
        var dt := ReplaceChar(d.v.s, 'T', ' ');
        if p.dateOk(dt) then Returns(map[Pdate := VStr(dt)]) else Returns(map[])
  }

  /** `float(entries[(key, hdu)][0])` under `except ValueError`: `None` for an
      absent key or a value that does not parse; a tuple's TypeError escapes. */
  function TryFloat(entries: seq<Entry>, key: string, hdu: int, p: Parsers): Py<Option<real>>
  {
    match Find(entries, key, hdu)
    case None => Returns(None)
    case Some(d) =>
      match FloatOfData(d, p)
      case Returns(x) => Returns(Some(x))
      case Raises(e) => if e == ValueError then Returns(None) else Raises(e)
  }

  /** The `equinox` part: EQUINOX first, EPOC only when EQUINOX gave nothing. */
  function EquinoxColumn(entries: seq<Entry>, hdu: int, p: Parsers): Py<Row>
  {
    match TryFloat(entries, "EQUINOX", hdu, p)
    case Raises(e) => Raises(e)
    case Returns(Some(x)) => Returns(map[Equinox := VReal(x)])
    case Returns(None) =>
      match TryFloat(entries, "EPOC", hdu, p)
      case Raises(e) => Raises(e)
      case Returns(Some(x)) => Returns(map[Equinox := VReal(x)])
      case Returns(None) => Returns(map[])
  }

  /** One step of the generic loop, under a bare `except`. */
  function FloatColumn(entries: seq<Entry>, hdu: int, p: Parsers, c: Col, key: string): Row
  {
    var x := ParsedFloat(entries, key, hdu, p);
    if x.Some? then map[c := VReal(x.value)] else map[]
  }

  /** The `columns` dictionary `_insert` builds for one HDU, or the exception
      that escapes it: a DATE that is not a string, or a tuple under EQUINOX
      (or under EPOC, when EQUINOX gave nothing). */
  function PositionColumns(entries: seq<Entry>, hdu: int, p: Parsers): (r: Py<Row>)
    ensures DateNotText(entries, hdu) ==> r == Raises(AttributeError)
    ensures r.Raises? ==> r.exc == AttributeError || r.exc == TypeError
    ensures r == Raises(TypeError) ==> IsTuple(entries, "EQUINOX", hdu) || IsTuple(entries, "EPOC", hdu)
    ensures !DateNotText(entries, hdu) && !IsTuple(entries, "EQUINOX", hdu) && !IsTuple(entries, "EPOC", hdu)
            ==> r.Returns?
  {
    match DateColumn(entries, hdu, p)
    case Raises(e) => Raises(e)
    case Returns(date) =>
      match EquinoxColumn(entries, hdu, p)
      case Raises(e) => Raises(e)
      case Returns(eq) =>
        Returns(date + eq + FloatColumn(entries, hdu, p, PRa, "PRA") + FloatColumn(entries, hdu, p, PDec, "PDEC")
                + FloatColumn(entries, hdu, p, RotAng, "ROTANG") + FloatColumn(entries, hdu, p, PDate, "DATE"))
  }

  /** The column-selection rules of `_insert`: when it returns, a column is
      in the dictionary exactly when its rule gives it a value, and holds
      that value. */
  lemma PositionColumnsMeaning(entries: seq<Entry>, hdu: int, p: Parsers, c: Col)
    requires PositionColumns(entries, hdu, p).Returns?
    ensures var cols := PositionColumns(entries, hdu, p).value;
            && (c in cols <==> c in PositionCols && Expected(entries, hdu, p, c).Some?)
            && (c in cols ==> cols[c] == Expected(entries, hdu, p, c).value)
  {
    PositionColumnsUnion(entries, hdu, p);
    DatePart(entries, hdu, p);
    EquinoxPart(entries, hdu, p);
    FloatParts(entries, hdu, p);
    UnionOfParts(DateColumn(entries, hdu, p).value, EquinoxColumn(entries, hdu, p).value,
                 FloatColumn(entries, hdu, p, PRa, "PRA"), FloatColumn(entries, hdu, p, PDec, "PDEC"),
                 FloatColumn(entries, hdu, p, RotAng, "ROTANG"), FloatColumn(entries, hdu, p, PDate, "DATE"),
                 c, Expected(entries, hdu, p, Pdate), Expected(entries, hdu, p, Equinox), Expected(entries, hdu, p, PRa),
                 Expected(entries, hdu, p, PDec), Expected(entries, hdu, p, RotAng), Expected(entries, hdu, p, PDate),
                 Expected(entries, hdu, p, c));
  }

  lemma PositionColumnsUnion(entries: seq<Entry>, hdu: int, p: Parsers)
    requires PositionColumns(entries, hdu, p).Returns?
    ensures DateColumn(entries, hdu, p).Returns? && EquinoxColumn(entries, hdu, p).Returns?
    ensures PositionColumns(entries, hdu, p).value
         == DateColumn(entries, hdu, p).value + EquinoxColumn(entries, hdu, p).value
            + FloatColumn(entries, hdu, p, PRa, "PRA") + FloatColumn(entries, hdu, p, PDec, "PDEC")
            + FloatColumn(entries, hdu, p, RotAng, "ROTANG") + FloatColumn(entries, hdu, p, PDate, "DATE")
  {
  }

  lemma FloatPart(entries: seq<Entry>, hdu: int, p: Parsers, c: Col, key: string)
    ensures var m := FloatColumn(entries, hdu, p, c, key);
            && m.Keys <= {c}
            && (c in m <==> ParsedFloat(entries, key, hdu, p).Some?)
            && (c in m ==> m[c] == VReal(ParsedFloat(entries, key, hdu, p).value))
  {
  }

  lemma DatePart(entries: seq<Entry>, hdu: int, p: Parsers)
    requires DateColumn(entries, hdu, p).Returns?
    ensures Part(DateColumn(entries, hdu, p).value, Pdate, Expected(entries, hdu, p, Pdate))
  {
  }

  lemma EquinoxPart(entries: seq<Entry>, hdu: int, p: Parsers)
    requires EquinoxColumn(entries, hdu, p).Returns?
    ensures Part(EquinoxColumn(entries, hdu, p).value, Equinox, Expected(entries, hdu, p, Equinox))
  {
  }

  lemma FloatParts(entries: seq<Entry>, hdu: int, p: Parsers)
    ensures Part(FloatColumn(entries, hdu, p, PRa, "PRA"), PRa, Expected(entries, hdu, p, PRa))
    ensures Part(FloatColumn(entries, hdu, p, PDec, "PDEC"), PDec, Expected(entries, hdu, p, PDec))
    ensures Part(FloatColumn(entries, hdu, p, RotAng, "ROTANG"), RotAng, Expected(entries, hdu, p, RotAng))
    ensures Part(FloatColumn(entries, hdu, p, PDate, "DATE"), PDate, Expected(entries, hdu, p, PDate))
  {
    FloatPart(entries, hdu, p, PRa, "PRA");
    FloatPart(entries, hdu, p, PDec, "PDEC");
    FloatPart(entries, hdu, p, RotAng, "ROTANG");
    FloatPart(entries, hdu, p, PDate, "DATE");
  }

  /** The end of `_insert`: a row only when some column was set, made of
      fitsFileId, hdu and the columns. */
  function RowOfColumns(fileId: int, hdu: int, cols: Row): (r: Option<Row>)
    ensures r.Some? <==> |cols| > 0
    ensures r.Some? ==> r.value.Keys == cols.Keys + {FitsFileId, Hdu}
    ensures r.Some? ==> r.value[FitsFileId] == VInt(fileId) && r.value[Hdu] == VInt(hdu)
    ensures r.Some? ==> forall c :: c in cols && c !in {FitsFileId, Hdu} ==> r.value[c] == cols[c]
  {
    if |cols| > 0 then Some(cols[FitsFileId := VInt(fileId)][Hdu := VInt(hdu)]) else None
  }

  /** `MetadataPosition._insert` without the connection: the FitsPositions
      row of one HDU, `None` when no position column was set, or the exception
      that escapes. */
  function PositionRow(fileId: int, hdu: int, entries: seq<Entry>, p: Parsers): (r: Py<Option<Row>>)
    ensures r.Raises? ==> r.exc == AttributeError || r.exc == TypeError
    ensures DateNotText(entries, hdu) ==> r == Raises(AttributeError)
    ensures r.Returns? ==> PositionColumns(entries, hdu, p).Returns?
                           && r.value == RowOfColumns(fileId, hdu, PositionColumns(entries, hdu, p).value)
  {
    var cols := PositionColumns(entries, hdu, p);
    if cols.Raises? then Raises(cols.exc) else Returns(RowOfColumns(fileId, hdu, cols.value))
  }

  /** A row is inserted exactly when some position column was set, and it
      holds fitsFileId, hdu and the columns the rules select. */
  lemma PositionRowMeaning(fileId: int, hdu: int, entries: seq<Entry>, p: Parsers)
    requires PositionRow(fileId, hdu, entries, p).Returns?
    ensures var r := PositionRow(fileId, hdu, entries, p).value;
            && (r.Some? <==> exists c :: c in PositionCols && Expected(entries, hdu, p, c).Some?)
            && (r.Some? ==>
                  && r.value[FitsFileId] == VInt(fileId) && r.value[Hdu] == VInt(hdu)
                  && r.value.Keys <= PositionCols + {FitsFileId, Hdu}
                  && (forall c :: c in PositionCols ==> (c in r.value <==> Expected(entries, hdu, p, c).Some?))
                  && (forall c :: c in PositionCols && c in r.value ==> r.value[c] == Expected(entries, hdu, p, c).value))
  {
    var cols := PositionColumns(entries, hdu, p).value;
    forall c
      ensures (c in cols <==> c in PositionCols && Expected(entries, hdu, p, c).Some?)
      ensures (c in cols ==> cols[c] == Expected(entries, hdu, p, c).value)
    {
      PositionColumnsMeaning(entries, hdu, p, c);
    }
    RowMeaning(fileId, hdu, cols, c => Expected(entries, hdu, p, c));
  }

  lemma RowMeaning(fileId: int, hdu: int, cols: Row, want: Col -> Option<Value>)
    requires forall c :: c in cols <==> c in PositionCols && want(c).Some?
    requires forall c :: c in cols ==> cols[c] == want(c).value
    ensures var r := RowOfColumns(fileId, hdu, cols);
            && (r.Some? <==> exists c :: c in PositionCols && want(c).Some?)
            && (r.Some? ==>
                  && r.value.Keys <= PositionCols + {FitsFileId, Hdu}
                  && (forall c :: c in PositionCols ==> (c in r.value <==> want(c).Some?))
                  && (forall c :: c in PositionCols && c in r.value ==> r.value[c] == want(c).value))
  {
    if |cols| > 0 {
      var c :| c in cols;
      assert c in PositionCols && want(c).Some?;
    } else {
      assert cols == map[];
    }
  }

  // ------------------------------------------------------------------
  // insertMetadataFits and the database

  /** A FitsFiles row. */
  datatype FileRow = FileRow(fitsFileId: int, fileName: string, hduCount: int)

  /** The three tables, and the id the next FitsFiles insert is given (the
      `lastrowid` of an AUTO_INCREMENT key). */
  datatype Db = Db(files: seq<FileRow>, keyValues: seq<Row>, positions: seq<Row>, nextId: nat)

  predicate HasFile(files: seq<FileRow>, name: string)
  {
    |files| > 0 && (files[0].fileName == name || HasFile(files[1..], name))
  }

  /** `isFileInDb`: some FitsFiles row has the name. */
  function IsFileInDb(db: Db, fileName: string): (r: bool)
    ensures r <==> exists k :: 0 <= k < |db.files| && db.files[k].fileName == fileName
  {
    HasFileMeaning(db.files, fileName);
    HasFile(db.files, fileName)
  }

  lemma {:induction false} HasFileMeaning(files: seq<FileRow>, name: string)
    ensures HasFile(files, name) <==> exists k :: 0 <= k < |files| && files[k].fileName == name
    decreases |files|
  {
    if |files| > 0 {
      HasFileMeaning(files[1..], name);
      if HasFile(files[1..], name) {
        var k :| 0 <= k < |files[1..]| && files[1..][k].fileName == name;
        assert files[k + 1].fileName == name;
      }
      if exists k :: 0 <= k < |files| && files[k].fileName == name {
        var k :| 0 <= k < |files| && files[k].fileName == name;
        if k > 0 {
          assert files[1..][k - 1].fileName == name;
        }
      }
    }
  }

  lemma {:induction false} HasFileSnoc(files: seq<FileRow>, f: FileRow)
    ensures HasFile(files + [f], f.fileName)
    decreases |files|
  {
    if |files| > 0 {
      assert (files + [f])[1..] == files[1..] + [f];
      HasFileSnoc(files[1..], f);
    }
  }

  /** A statement of the transaction after the FitsFiles insert: an INSERT,
      or the exception `_insert` raises before it reaches its INSERT. */
  datatype Step = KeyValueInsert(row: Row) | PositionInsert(row: Row) | Raise(exc: Exc)

  function KeyValueSteps(rows: seq<Row>): (steps: seq<Step>)
    ensures |steps| == |rows|
  {
    if |rows| == 0 then [] else [KeyValueInsert(rows[0])] + KeyValueSteps(rows[1..])
  }

  /** What `MetadataPosition(fileId, hdu, ...)._insert()` does for each HDU of
      `range(1, hdus + 1)`, in order: `HduOutcomeAt` gives each element. */
  function HduOutcomes(fileId: int, md: MetadataFits, p: Parsers): (outs: seq<Py<Option<Row>>>)
    ensures |outs| == if md.hdus > 0 then md.hdus else 0
  {
    Outcomes(hdu => PositionRow(fileId, hdu, md.entries, p), 1, if md.hdus > 0 then md.hdus else 0)
  }

  /** `insert(hdu)` for the `n` HDUs from `hdu` on. */
  function Outcomes(insert: int -> Py<Option<Row>>, hdu: int, n: nat): (outs: seq<Py<Option<Row>>>)
    ensures |outs| == n
    decreases n
  {
    if n == 0 then [] else [insert(hdu)] + Outcomes(insert, hdu + 1, n - 1)
  }

  lemma {:induction false} OutcomesAt(insert: int -> Py<Option<Row>>, hdu: int, n: nat, k: nat)
    requires k < n
    ensures Outcomes(insert, hdu, n)[k] == insert(hdu + k)
    decreases n
  {
    if k > 0 {
      OutcomesAt(insert, hdu + 1, n - 1, k - 1);
    }
  }

  /** The `k`-th outcome is that of HDU `k + 1`. */
  lemma HduOutcomeAt(fileId: int, md: MetadataFits, p: Parsers, k: nat)
    requires k < |HduOutcomes(fileId, md, p)|
    ensures HduOutcomes(fileId, md, p)[k] == PositionRow(fileId, k + 1, md.entries, p)
  {
    var insert := hdu => PositionRow(fileId, hdu, md.entries, p);
    OutcomesAt(insert, 1, |HduOutcomes(fileId, md, p)|, k);
    assert insert(1 + k) == PositionRow(fileId, k + 1, md.entries, p);
  }

  /** The position loop: an INSERT per HDU that sets a column; the first HDU
      whose `_insert` raises ends the loop. */
  function PositionSteps(outs: seq<Py<Option<Row>>>): seq<Step>
  {
    if |outs| == 0 then []
    else
      match outs[0]
      case Raises(e) => [Raise(e)]
      case Returns(None) => PositionSteps(outs[1..])
      case Returns(Some(row)) => [PositionInsert(row)] + PositionSteps(outs[1..])
  }

  /** Everything the transaction does after inserting the FitsFiles row. */
  function Plan(fileId: int, md: MetadataFits, p: Parsers): seq<Step>
  {
    KeyValueSteps(KeyValueRows(fileId, md.entries, p)) + PositionSteps(HduOutcomes(fileId, md, p))
  }

  /** The rows of the HDUs that set a column: the reference the transaction
      is compared with. */
  function PositionRows(outs: seq<Py<Option<Row>>>): seq<Row>
  {
    if |outs| == 0 then []
    else if outs[0].Returns? && outs[0].value.Some? then [outs[0].value.value] + PositionRows(outs[1..])
    else PositionRows(outs[1..])
  }

  /** No HDU makes `_insert` raise. */
  predicate Clean(outs: seq<Py<Option<Row>>>)
  {
    forall k :: 0 <= k < |outs| ==> outs[k].Returns?
  }

  predicate NoRaise(steps: seq<Step>)
  {
    forall k :: 0 <= k < |steps| ==> !steps[k].Raise?
  }

  function KeyValuesOf(steps: seq<Step>): seq<Row>
  {
    if |steps| == 0 then []
    else (if steps[0].KeyValueInsert? then [steps[0].row] else []) + KeyValuesOf(steps[1..])
  }

  function PositionsOf(steps: seq<Step>): seq<Row>
  {
    if |steps| == 0 then []
    else (if steps[0].PositionInsert? then [steps[0].row] else []) + PositionsOf(steps[1..])
  }

  /** Which statements raise SQLAlchemyError, numbered in the order the
      transaction executes them: 0 is `begin`, 1 the SELECT, 2 the FitsFiles
      INSERT, then one per step, and the commit last. */
  type Faults = nat -> bool

  predicate NoFault(fails: Faults, from: nat, to: nat)
  {
    forall k :: from <= k <= to ==> !fails(k)
  }

  /** How the steps and the commit end. */
  datatype TxnEnd = Commits(keyValues: seq<Row>, positions: seq<Row>) | DbFault | Throws(exc: Exc)

  function AddKeyValue(row: Row, t: TxnEnd): TxnEnd
  {
    if t.Commits? then Commits([row] + t.keyValues, t.positions) else t
  }

  function AddPosition(row: Row, t: TxnEnd): TxnEnd
  {
    if t.Commits? then Commits(t.keyValues, [row] + t.positions) else t
  }

  /** Executes the steps from statement number `at`, then commits. */
  function RunSteps(steps: seq<Step>, fails: Faults, at: nat): TxnEnd
    decreases |steps|
  {
    if |steps| == 0 then (if fails(at) then DbFault else Commits([], []))
    else
      match steps[0]
      case Raise(e) => Throws(e)
      case KeyValueInsert(row) => if fails(at) then DbFault else AddKeyValue(row, RunSteps(steps[1..], fails, at + 1))
      case PositionInsert(row) => if fails(at) then DbFault else AddPosition(row, RunSteps(steps[1..], fails, at + 1))
  }

  /** All or nothing: the transaction commits exactly when no step raises and
      no statement fails, and then it has stored every row of the steps, in
      order; an exception that escapes is the one a step raised. */
  lemma {:induction false} RunStepsOutcome(steps: seq<Step>, fails: Faults, at: nat)
    ensures var t := RunSteps(steps, fails, at);
            && (t.Commits? <==> NoRaise(steps) && NoFault(fails, at, at + |steps|))
            && (t.Commits? ==> t.keyValues == KeyValuesOf(steps) && t.positions == PositionsOf(steps))
            && (t.Throws? ==> Raise(t.exc) in steps)
            && (t.DbFault? ==> !NoFault(fails, at, at + |steps|))
    decreases |steps|
  {
    if |steps| > 0 {
      RunStepsOutcome(steps[1..], fails, at + 1);
      NoRaiseCons(steps);
      NoFaultCons(fails, at, at + |steps|);
      assert steps == [steps[0]] + steps[1..];
    }
  }

  lemma NoRaiseCons(steps: seq<Step>)
    requires |steps| > 0
    ensures NoRaise(steps) <==> !steps[0].Raise? && NoRaise(steps[1..])
  {
    if NoRaise(steps) {
      forall k | 0 <= k < |steps[1..]| ensures !steps[1..][k].Raise? {
        assert steps[1..][k] == steps[k + 1];
      }
    }
    if !steps[0].Raise? && NoRaise(steps[1..]) {
      forall k | 0 <= k < |steps| ensures !steps[k].Raise? {
        if k > 0 {
          assert steps[k] == steps[1..][k - 1];
        }
      }
    }
  }

  lemma NoFaultCons(fails: Faults, from: nat, to: nat)
    requires from < to
    ensures NoFault(fails, from, to) <==> !fails(from) && NoFault(fails, from + 1, to)
  {
  }

  /** A failing first statement rolls back at once. */
  lemma FirstFaultRollsBack(steps: seq<Step>, fails: Faults, at: nat)
    requires |steps| > 0 && !steps[0].Raise? && fails(at)
    ensures RunSteps(steps, fails, at) == DbFault
  {
  }

  lemma {:induction false} KeyValuesOfAppend(a: seq<Step>, b: seq<Step>)
    ensures KeyValuesOf(a + b) == KeyValuesOf(a) + KeyValuesOf(b)
    decreases |a|
  {
    if |a| == 0 {
      assert a + b == b;
    } else {
      var h: seq<Row> := if a[0].KeyValueInsert? then [a[0].row] else [];
      assert (a + b)[0] == a[0];
      assert (a + b)[1..] == a[1..] + b;
      assert KeyValuesOf(a + b) == h + KeyValuesOf(a[1..] + b);
      assert KeyValuesOf(a) == h + KeyValuesOf(a[1..]);
      KeyValuesOfAppend(a[1..], b);
    }
  }

  lemma {:induction false} PositionsOfAppend(a: seq<Step>, b: seq<Step>)
    ensures PositionsOf(a + b) == PositionsOf(a) + PositionsOf(b)
    decreases |a|
  {
    if |a| == 0 {
      assert a + b == b;
    } else {
      var h: seq<Row> := if a[0].PositionInsert? then [a[0].row] else [];
      assert (a + b)[0] == a[0];
      assert (a + b)[1..] == a[1..] + b;
      assert PositionsOf(a + b) == h + PositionsOf(a[1..] + b);
      assert PositionsOf(a) == h + PositionsOf(a[1..]);
      PositionsOfAppend(a[1..], b);
    }
  }

  lemma NoRaiseAppend(a: seq<Step>, b: seq<Step>)
    ensures NoRaise(a + b) <==> NoRaise(a) && NoRaise(b)
  {
    if NoRaise(a) && NoRaise(b) {
      forall k | 0 <= k < |a + b| ensures !(a + b)[k].Raise? {
        if k >= |a| {
          assert (a + b)[k] == b[k - |a|];
        }
      }
    }
    if NoRaise(a + b) {
      forall k | 0 <= k < |a| ensures !a[k].Raise? {
        assert (a + b)[k] == a[k];
      }
      forall k | 0 <= k < |b| ensures !b[k].Raise? {
        assert (a + b)[|a| + k] == b[k];
      }
    }
  }

  lemma {:induction false} KeyValueStepsRows(rows: seq<Row>)
    ensures NoRaise(KeyValueSteps(rows))
    ensures KeyValuesOf(KeyValueSteps(rows)) == rows
    ensures PositionsOf(KeyValueSteps(rows)) == []
    decreases |rows|
  {
    if |rows| > 0 {
      KeyValueStepsRows(rows[1..]);
      KeyValuesOfAppend([KeyValueInsert(rows[0])], KeyValueSteps(rows[1..]));
      PositionsOfAppend([KeyValueInsert(rows[0])], KeyValueSteps(rows[1..]));
      NoRaiseAppend([KeyValueInsert(rows[0])], KeyValueSteps(rows[1..]));
      assert rows == [rows[0]] + rows[1..];
    }
  }

  /** The position loop stores exactly the reference rows when no HDU makes
      `_insert` raise, and otherwise ends in the first HDU's exception. */
  lemma {:induction false} PositionStepsRows(outs: seq<Py<Option<Row>>>)
    ensures var steps := PositionSteps(outs);
            && (NoRaise(steps) <==> Clean(outs))
            && KeyValuesOf(steps) == []
            && (NoRaise(steps) ==> PositionsOf(steps) == PositionRows(outs))
            && (forall e :: Raise(e) in steps ==> exists k :: 0 <= k < |outs| && outs[k] == Raises(e))
  {
    PositionStepsRaise(outs);
    if |outs| > 0 {
      var rest := PositionSteps(outs[1..]);
      PositionStepsRows(outs[1..]);
      CleanCons(outs);
      if outs[0].Raises? {
        assert PositionSteps(outs) == [Raise(outs[0].exc)];
        assert PositionSteps(outs)[0].Raise?;
      } else {
        var head: seq<Step> := if outs[0].value.Some? then [PositionInsert(outs[0].value.value)] else [];
        assert PositionSteps(outs) == head + rest;
        KeyValuesOfAppend(head, rest);
        PositionsOfAppend(head, rest);
        NoRaiseAppend(head, rest);
      }
    }
  }

  lemma CleanCons(outs: seq<Py<Option<Row>>>)
    requires |outs| > 0
    ensures Clean(outs) <==> outs[0].Returns? && Clean(outs[1..])
  {
    if outs[0].Returns? && Clean(outs[1..]) {
      forall k | 0 <= k < |outs| ensures outs[k].Returns? {
        if k > 0 {
          assert outs[k] == outs[1..][k - 1];
        }
      }
    }
    if Clean(outs) {
      forall k | 0 <= k < |outs[1..]| ensures outs[1..][k].Returns? {
        assert outs[1..][k] == outs[k + 1];
      }
    }
  }

  /** A raise among the position steps is the exception of some HDU. */
  lemma {:induction false} PositionStepsRaise(outs: seq<Py<Option<Row>>>)
    ensures forall e :: Raise(e) in PositionSteps(outs) ==> exists k :: 0 <= k < |outs| && outs[k] == Raises(e)
  {
    if |outs| > 0 {
      var rest := PositionSteps(outs[1..]);
      PositionStepsRaise(outs[1..]);
      forall e | Raise(e) in PositionSteps(outs)
        ensures exists k :: 0 <= k < |outs| && outs[k] == Raises(e)
      {
        if outs[0].Raises? {
          assert PositionSteps(outs) == [Raise(outs[0].exc)];
          assert outs[0] == Raises(e);
        } else {
          var head: seq<Step> := if outs[0].value.Some? then [PositionInsert(outs[0].value.value)] else [];
          assert PositionSteps(outs) == head + rest;
          assert Raise(e) in rest;
          var k :| 0 <= k < |outs[1..]| && outs[1..][k] == Raises(e);
          assert outs[k + 1] == Raises(e);
        }
      }
    }
  }

  /** The whole plan: it raises only when some HDU's position data makes
      `_insert` raise, with an AttributeError or a TypeError, and otherwise
      stores the key/value rows of every entry and the position rows of every
      HDU. */
  lemma PlanRows(fileId: int, md: MetadataFits, p: Parsers)
    ensures var plan := Plan(fileId, md, p);
            var outs := HduOutcomes(fileId, md, p);
            && (NoRaise(plan) <==> Clean(outs))
            && (NoRaise(plan) ==> (&& KeyValuesOf(plan) == KeyValueRows(fileId, md.entries, p)
                                   && PositionsOf(plan) == PositionRows(outs)))
            && (forall e :: Raise(e) in plan ==> e == AttributeError || e == TypeError)
  {
    var kvs := KeyValueSteps(KeyValueRows(fileId, md.entries, p));
    var outs := HduOutcomes(fileId, md, p);
    var ps := PositionSteps(outs);
    KeyValueStepsRows(KeyValueRows(fileId, md.entries, p));
    PositionStepsRows(outs);
    KeyValuesOfAppend(kvs, ps);
    PositionsOfAppend(kvs, ps);
    NoRaiseAppend(kvs, ps);
    forall e | Raise(e) in kvs + ps ensures e == AttributeError || e == TypeError {
      assert forall k :: 0 <= k < |kvs| ==> kvs[k] != Raise(e);
      assert Raise(e) in ps;
      var k :| 0 <= k < |outs| && outs[k] == Raises(e);
      HduOutcomeAt(fileId, md, p, k);
    }
  }

  /** How the `with self._conn.begin()` block ends. */
  datatype Txn =
    | BeginFailed                    // `begin` raised SQLAlchemyError
    | NothingInserted                // the SELECT failed, found the file, or the FitsFiles INSERT failed
    | Ran(id: int, end: TxnEnd)      // the FitsFiles INSERT gave `id`; how the rest ended

  function Transaction(db: Db, md: MetadataFits, p: Parsers, fails: Faults): Txn
  {
    if fails(0) then BeginFailed
    else if fails(1) || HasFile(db.files, md.fileName) || fails(2) then NothingInserted
    else Ran(db.nextId, RunSteps(Plan(db.nextId, md, p), fails, 3))
  }

  /** The database after a committed transaction. */
  function Added(db: Db, md: MetadataFits, p: Parsers): Db
  {
    Db(db.files + [FileRow(db.nextId, md.fileName, md.hdus)],
       db.keyValues + KeyValueRows(db.nextId, md.entries, p),
       db.positions + PositionRows(HduOutcomes(db.nextId, md, p)),
       db.nextId + 1)
  }

  /** What the transaction ends in, and what the commit stores. */
  lemma TransactionOutcome(db: Db, md: MetadataFits, p: Parsers, fails: Faults)
    ensures var t := Transaction(db, md, p, fails);
            && (t.Ran? ==> t.id == db.nextId && !HasFile(db.files, md.fileName))
            && (t.Ran? && t.end.Throws? ==> t.end.exc == AttributeError || t.end.exc == TypeError)
            && (t.Ran? && t.end.Commits? ==>
                  && t.end.keyValues == KeyValueRows(db.nextId, md.entries, p)
                  && t.end.positions == PositionRows(HduOutcomes(db.nextId, md, p)))
  {
    RunStepsOutcome(Plan(db.nextId, md, p), fails, 3);
    PlanRows(db.nextId, md, p);
  }

  /** What `insertMetadataFits` returns, with the database it leaves. */
  datatype Stored = Stored(id: int, db: Db)

  /** `insertMetadataFits` as written. A failed `begin` leaves `sql` unbound,
      so the handler's log call raises (modelled as OtherError); a statement
      failing after the FitsFiles INSERT rolls everything back but still
      returns the id that INSERT gave. */
  function InsertMetadataFits(db: Db, md: MetadataFits, p: Parsers, fails: Faults): (r: Py<Stored>)
    ensures HasFile(db.files, md.fileName) && !fails(0) ==> r == Returns(Stored(-1, db))
    ensures r.Raises? ==> r.exc == AttributeError || r.exc == TypeError || (r.exc == OtherError && fails(0))
    ensures r.Returns? ==> r.value.db == db || r.value.db == Added(db, md, p)
    ensures r.Returns? && r.value.id != -1 ==> r.value.id == db.nextId && !HasFile(db.files, md.fileName)
    ensures r.Returns? && r.value.id == -1 ==> r.value.db == db
  {
    TransactionOutcome(db, md, p, fails);
    match Transaction(db, md, p, fails)
    case BeginFailed => Raises(OtherError)
    case NothingInserted => Returns(Stored(-1, db))
    case Ran(id, Throws(e)) => Raises(e)
    case Ran(id, DbFault) => Returns(Stored(id, db))
    case Ran(id, Commits(kv, pos)) =>
      Returns(Stored(id, Db(db.files + [FileRow(id, md.fileName, md.hdus)], db.keyValues + kv, db.positions + pos, id + 1)))
  }

  /** `insertMetadataFits` as its docstring describes it: -1 whenever nothing
      was added. */
  function InsertMetadataFitsChecked(db: Db, md: MetadataFits, p: Parsers, fails: Faults): (r: Py<Stored>)
    ensures HasFile(db.files, md.fileName) ==> r == Returns(Stored(-1, db))
    ensures r.Raises? ==> r.exc == AttributeError || r.exc == TypeError
    ensures r.Returns? && r.value.id == -1 ==> r.value.db == db
    ensures r.Returns? && r.value.id != -1 ==> r.value.id == db.nextId && r.value.db == Added(db, md, p)
  {
    TransactionOutcome(db, md, p, fails);
    match Transaction(db, md, p, fails)
    case BeginFailed => Returns(Stored(-1, db))
    case NothingInserted => Returns(Stored(-1, db))
    case Ran(id, Throws(e)) => Raises(e)
    case Ran(id, DbFault) => Returns(Stored(-1, db))
    case Ran(id, Commits(kv, pos)) =>
      Returns(Stored(id, Db(db.files + [FileRow(id, md.fileName, md.hdus)], db.keyValues + kv, db.positions + pos, id + 1)))
  }

  /** When the file is new and no statement fails, the file is stored with all
      its rows, unless some HDU's position data raises; the exception escapes
      exactly in that case. */
  lemma InsertOutcome(db: Db, md: MetadataFits, p: Parsers, fails: Faults)
    requires !HasFile(db.files, md.fileName)
    requires NoFault(fails, 0, 3 + |Plan(db.nextId, md, p)|)
    ensures var r := InsertMetadataFitsChecked(db, md, p, fails);
            && (r.Raises? <==> !Clean(HduOutcomes(db.nextId, md, p)))
            && (r.Returns? ==> r == Returns(Stored(db.nextId, Added(db, md, p))))
  {
    var plan := Plan(db.nextId, md, p);
    assert !fails(0) && !fails(1) && !fails(2);
    assert NoFault(fails, 3, 3 + |plan|);
    RunStepsOutcome(plan, fails, 3);
    PlanRows(db.nextId, md, p);
    TransactionOutcome(db, md, p, fails);
  }

  /** Once a file is stored, inserting it again adds nothing. */
  lemma InsertIdempotent(db: Db, md: MetadataFits, p: Parsers, f1: Faults, f2: Faults)
    requires InsertMetadataFitsChecked(db, md, p, f1).Returns?
    requires InsertMetadataFitsChecked(db, md, p, f1).value.id != -1
    ensures var db1 := InsertMetadataFitsChecked(db, md, p, f1).value.db;
            InsertMetadataFitsChecked(db1, md, p, f2) == Returns(Stored(-1, db1))
  {
    HasFileSnoc(db.files, FileRow(db.nextId, md.fileName, md.hdus));
  }

  /** The id after a rollback: for a new file with at least one header value,
      a failing first key/value INSERT rolls everything back, and yet
      `insertMetadataFits` returns the id the FitsFiles INSERT gave. */
  lemma RollbackReturnsId(db: Db, md: MetadataFits, p: Parsers)
    requires !HasFile(db.files, md.fileName)
    requires |Emitted(md.entries)| > 0
    ensures InsertMetadataFits(db, md, p, k => k == 3) == Returns(Stored(db.nextId, db))
    ensures !IsFileInDb(db, md.fileName)
    ensures InsertMetadataFitsChecked(db, md, p, k => k == 3) == Returns(Stored(-1, db))
  {
    HasFileMeaning(db.files, md.fileName);
    var plan := Plan(db.nextId, md, p);
    var kvs := KeyValueSteps(KeyValueRows(db.nextId, md.entries, p));
    assert plan[0] == kvs[0];
    FirstFaultRollsBack(plan, k => k == 3, 3);
  }

  /** A database error after `begin` is logged and leaves the database as it
      was: when any later statement fails, the as-written insert returns with
      the database unaltered (and returns at all unless a step raised), and
      the corrected one also answers -1. */
  lemma DbErrorLeavesDbUnaltered(db: Db, md: MetadataFits, p: Parsers, fails: Faults)
    requires !fails(0)
    requires !NoFault(fails, 1, 3 + |Plan(db.nextId, md, p)|)
    ensures var r := InsertMetadataFits(db, md, p, fails);
            r.Returns? ==> r.value.db == db
    ensures var r := InsertMetadataFitsChecked(db, md, p, fails);
            r.Returns? ==> r.value == Stored(-1, db)
    ensures NoRaise(Plan(db.nextId, md, p)) ==> InsertMetadataFits(db, md, p, fails).Returns?
  {
    DbErrorNeverCommits(db, md, p, fails);
  }

  /** With `begin` done and a later statement failing, the transaction never
      commits, and when no step raises it ends in the database error. */
  lemma DbErrorNeverCommits(db: Db, md: MetadataFits, p: Parsers, fails: Faults)
    requires !fails(0)
    requires !NoFault(fails, 1, 3 + |Plan(db.nextId, md, p)|)
    ensures var t := Transaction(db, md, p, fails);
            || t.NothingInserted?
            || (t.Ran? && !t.end.Commits? && (NoRaise(Plan(db.nextId, md, p)) ==> t.end.DbFault?))
  {
    var plan := Plan(db.nextId, md, p);
    if !fails(1) && !HasFile(db.files, md.fileName) && !fails(2) {
      var k :| 1 <= k <= 3 + |plan| && fails(k);
      assert 3 <= k;
      RunStepsOutcome(plan, fails, 3);
    }
  }

  /** A failing `begin`: the handler names the unbound `sql`, and the call
      raises instead of returning -1. */
  lemma BeginFailureRaises(db: Db, md: MetadataFits, p: Parsers)
    ensures InsertMetadataFits(db, md, p, k => k == 0) == Raises(OtherError)
    ensures InsertMetadataFitsChecked(db, md, p, k => k == 0) == Returns(Stored(-1, db))
  {
  }

  // ------------------------------------------------------------------
  // insertFile

  /** `insertFile` as written: a file `isFits` accepts is scanned HDU by HDU
      and handed to `insertMetadataFits` as written, so a failed `begin`
      raises, and an id other than -1 may come back with the database rolled
      back; any other file gives -1, and a read error of `isFits` escapes. */
  method InsertFile(db: Db, fileName: string, head: FileHead, read: Reader, ghost limit: nat,
                    p: Parsers, fails: Faults)
    returns (r: Py<Stored>)
    requires limit >= 1 && read(limit).None?
    ensures !IsFitsExt(fileName) ==> r == Returns(Stored(-1, db))
    ensures IsFits(fileName, head).Raises? ==> r == Raises(IsFits(fileName, head).exc)
    ensures IsFits(fileName, head) == Returns(PyNone) ==> r == Returns(Stored(-1, db))
    ensures r.Raises? && IsFits(fileName, head).Returns? ==>
              r.exc == AttributeError || r.exc == TypeError || (r.exc == OtherError && fails(0))
    ensures r.Returns? && r.value.id == -1 ==> r.value.db == db
    ensures r.Returns? && r.value.id != -1 ==>
              && IsFits(fileName, head) == Returns(PyTrue)
              && r.value.id == db.nextId
              && !IsFileInDb(db, fileName)
              && (r.value.db == db || r.value.db == Added(db, ScanAllHdus(fileName, read, limit), p))
  {
    var fits := IsFits(fileName, head);
    if fits.Raises? {
      return Raises(fits.exc);
    }
    r := Returns(Stored(-1, db));
    if fits.value == PyTrue {
      var md, scanned := ScanFileAllHdus(fileName, read, limit);
      r := InsertMetadataFits(db, md, p, fails);
      HasFileMeaning(db.files, fileName);
    }
  }

  /** `insertFile` over the corrected `insertMetadataFits`: a file `isFits`
      accepts is scanned HDU by HDU and stored; any other file gives -1, and
      a read error of `isFits` escapes. */
  method InsertFileChecked(db: Db, fileName: string, head: FileHead, read: Reader, ghost limit: nat,
                    p: Parsers, fails: Faults)
    returns (r: Py<Stored>)
    requires limit >= 1 && read(limit).None?
    ensures !IsFitsExt(fileName) ==> r == Returns(Stored(-1, db))
    ensures IsFits(fileName, head).Raises? ==> r == Raises(IsFits(fileName, head).exc)
    ensures IsFits(fileName, head) == Returns(PyNone) ==> r == Returns(Stored(-1, db))
    ensures r.Raises? && IsFits(fileName, head).Returns? ==> r.exc == AttributeError || r.exc == TypeError
    ensures r.Returns? && r.value.id == -1 ==> r.value.db == db
    ensures r.Returns? && r.value.id != -1 ==>
              && IsFits(fileName, head) == Returns(PyTrue)
              && r.value.id == db.nextId
              && r.value.db == Added(db, ScanAllHdus(fileName, read, limit), p)
              && IsFileInDb(r.value.db, fileName)
  {
    var fits := IsFits(fileName, head);
    if fits.Raises? {
      return Raises(fits.exc);
    }
    r := Returns(Stored(-1, db));
    if fits.value == PyTrue {
      var md, scanned := ScanFileAllHdus(fileName, read, limit);
      r := InsertMetadataFitsChecked(db, md, p, fails);
      HasFileSnoc(db.files, FileRow(db.nextId, fileName, md.hdus));
      HasFileMeaning(db.files + [FileRow(db.nextId, fileName, md.hdus)], fileName);
    }
  }
}

=== FILE: fits_ext.dfy ===
/** The file-name test of the FITS metadata loader: `isFitsExt` splits the
    name on dots and looks at the last one or two components. */
module FitsExt {
  import opened Py

  /** `isFitsExt`: at least two dot-separated components, and either the last
      is `fits` or the last two are `fits`, `gz`. */
  function IsFitsExt(fileName: string): (r: bool)
    ensures r <==> IsSuffix(".fits", fileName) || IsSuffix(".fits.gz", "." + fileName)
  {
    var parts := Split(fileName, '.');
    var n := |parts|;
    LastPartIsSuffix(fileName, '.', "fits");
    LastTwoPartsAreSuffix(fileName, '.', "fits", "gz");
    assert ['.'] + "fits" == ".fits";
    assert ['.'] + "fits" + ['.'] + "gz" == ".fits.gz";
    if n < 2 then false
    else if parts[n - 1] == "fits" then true
    else if parts[n - 1] == "gz" && parts[n - 2] == "fits" then true
    else false
  }

  /** The cases the source's unit test checks, for any stem `a`: a name
      ending in `.fits` or `.fits.gz` passes, one ending in `.txt` or
      `.tx.gz` does not. */
  lemma FitsNamesPass(a: string)
    ensures IsFitsExt(a + ".fits")
    ensures IsFitsExt(a + ".fits.gz")
  {
    SuffixOfConcat(a, ".fits");
    assert "." + (a + ".fits.gz") == ("." + a) + ".fits.gz";
    SuffixOfConcat("." + a, ".fits.gz");
  }

  lemma OtherNamesFail(a: string)
    ensures !IsFitsExt(a + ".txt")
    ensures !IsFitsExt(a + ".tx.gz")
  {
    var s, t := a + ".txt", a + ".tx.gz";
    assert s[|s| - 1] == 't' && ".fits"[4] == 's' && ".fits.gz"[7] == 'z';
    assert ("." + s)[|s|] == 't';
    assert t[|t| - 1] == 'z' && ("." + t)[|t| - 3] == 'x' && ".fits.gz"[4] == 's';
  }

  /** The last component of `s.split(c)` is `w` (with at least two
      components) exactly when `s` ends with `c` followed by `w`. */
  lemma LastPartIsSuffix(s: string, c: char, w: string)
    requires c !in w
    ensures var p := Split(s, c);
            (|p| >= 2 && p[|p| - 1] == w) <==> IsSuffix([c] + w, s)
  {
    var p := Split(s, c);
    if |p| >= 2 && p[|p| - 1] == w {
      LastPartGivesSuffix(s, c);
    }
    if IsSuffix([c] + w, s) {
      var a := s[..|s| - |w| - 1];
      SuffixSplit(s, [c] + w);
      assert s == a + [c] + w;
      SplitOfLast(a, c, w);
    }
  }

  lemma LastPartGivesSuffix(s: string, c: char)
    requires |Split(s, c)| >= 2
    ensures var p := Split(s, c); IsSuffix([c] + p[|p| - 1], s)
  {
    var p := Split(s, c);
    SplitLast(s, c);
    SuffixOfConcat(Join(p[..|p| - 1], [c]), [c] + p[|p| - 1]);
  }

  lemma SplitLast(s: string, c: char)
    requires |Split(s, c)| >= 2
    ensures var p := Split(s, c);
            s == Join(p[..|p| - 1], [c]) + ([c] + p[|p| - 1])
  {
    SplitProperties(s, c);
    JoinLast(Split(s, c), [c]);
  }

  lemma JoinLast(p: seq<string>, sep: string)
    requires |p| >= 2
    ensures Join(p, sep) == Join(p[..|p| - 1], sep) + (sep + p[|p| - 1])
  {
    assert p[..|p| - 1] + [p[|p| - 1]] == p;
    JoinAppend(p[..|p| - 1], [p[|p| - 1]], sep);
    assert Join([p[|p| - 1]], sep) == p[|p| - 1];
  }

  lemma SplitOfLast(a: string, c: char, w: string)
    requires c !in w
    ensures var p := Split(a + [c] + w, c);
            |p| >= 2 && p[|p| - 1] == w
  {
    SplitAppend(a, c, w);
    IndexOfAbsent(w, c);
    assert Split(w, c) == [w];
  }

  lemma SuffixOfConcat(a: string, b: string)
    ensures IsSuffix(b, a + b)
  {
    assert (a + b)[|a|..] == b;
  }

  lemma SuffixSplit(s: string, b: string)
    requires IsSuffix(b, s)
    ensures s == s[..|s| - |b|] + b
  {
  }

  /** The two-component branch: the last two components are `w1`, `w2`
      exactly when the name, with a separator put in front, ends with
      `c w1 c w2`. */
  lemma LastTwoPartsAreSuffix(s: string, c: char, w1: string, w2: string)
    requires c !in w1 && c !in w2
    ensures var p := Split(s, c);
            (|p| >= 2 && p[|p| - 1] == w2 && p[|p| - 2] == w1)
            <==> IsSuffix([c] + w1 + [c] + w2, [c] + s)
  {
    LastPartIsSuffix(s, c, w2);
    if IsSuffix([c] + w2, s) {
      var a := s[..|s| - |w2| - 1];
      SuffixSplit(s, [c] + w2);
      assert s == a + [c] + w2;
      SecondLastPart(a, c, w1, w2);
    } else {
      LongerSuffix(s, c, [c] + w1, w2);
    }
  }

  lemma SecondLastPart(a: string, c: char, w1: string, w2: string)
    requires c !in w1 && c !in w2
    ensures var p := Split(a + [c] + w2, c);
            |p| >= 2 && (p[|p| - 2] == w1 <==> IsSuffix([c] + w1 + [c] + w2, [c] + (a + [c] + w2)))
  {
    SplitOfLastExact(a, c, w2);
    LastPartDotted(a, c, w1);
    SuffixRegroup(a, c, w1, w2);
  }

  lemma SuffixRegroup(a: string, c: char, w1: string, w2: string)
    ensures IsSuffix([c] + w1 + [c] + w2, [c] + (a + [c] + w2)) <==> IsSuffix([c] + w1, [c] + a)
  {
    assert [c] + (a + [c] + w2) == ([c] + a) + ([c] + w2);
    assert [c] + w1 + [c] + w2 == ([c] + w1) + ([c] + w2);
    SuffixCancel([c] + w1, [c] + a, [c] + w2);
  }

  /** A dotted name ending in `x c w` ends, undotted, in `c w`. */
  lemma LongerSuffix(s: string, c: char, x: string, w: string)
    requires |x| >= 1
    ensures IsSuffix(x + [c] + w, [c] + s) ==> IsSuffix([c] + w, s)
  {
    if IsSuffix(x + [c] + w, [c] + s) {
      var t := [c] + s;
      var u := x + [c] + w;
      var n := |w| + 1;
      forall i | 0 <= i < n
        ensures s[|s| - n + i] == ([c] + w)[i]
      {
        assert s[|s| - n + i] == t[|t| - n + i];
        assert t[|t| - |u| + |x| + i] == u[|x| + i];
        assert u[|x| + i] == ([c] + w)[i];
      }
      assert s[|s| - n..] == [c] + w;
    }
  }

  /** A name ending in `c w` holds the separator. */
  lemma SuffixHoldsSeparator(a: string, c: char, w: string)
    ensures IsSuffix([c] + w, a) ==> c in a
  {
    if IsSuffix([c] + w, a) {
      assert a[|a| - |w| - 1] == c;
    }
  }

  lemma SplitOfLastExact(a: string, c: char, w: string)
    requires c !in w
    ensures Split(a + [c] + w, c) == Split(a, c) + [w]
  {
    SplitAppend(a, c, w);
    IndexOfAbsent(w, c);
  }

  /** The last component of `a` is `w` exactly when `a`, with a separator put
      in front, ends with the separator followed by `w`. */
  lemma LastPartDotted(a: string, c: char, w: string)
    requires c !in w
    ensures var q := Split(a, c);
            q[|q| - 1] == w <==> IsSuffix([c] + w, [c] + a)
  {
    var q := Split(a, c);
    DottedSuffix(a, c, w);
    SplitProperties(a, c);
    if |q| == 1 {
      assert Join(q, [c]) == q[0];
      SuffixHoldsSeparator(a, c, w);
    } else {
      LastPartIsSuffix(a, c, w);
      if a == w {
        IndexOfAbsent(a, c);
      }
    }
  }

  lemma DottedSuffix(a: string, c: char, w: string)
    ensures IsSuffix([c] + w, [c] + a) <==> a == w || IsSuffix([c] + w, a)
  {
    var t := [c] + a;
    if IsSuffix([c] + w, t) {
      if |a| == |w| {
        assert a == t[1..] == ([c] + w)[1..];
      } else {
        assert t[|t| - |w| - 1..] == a[|a| - |w| - 1..];
      }
    }
    if IsSuffix([c] + w, a) {
      assert t[|t| - |w| - 1..] == a[|a| - |w| - 1..];
    }
  }

  lemma SuffixCancel(x: string, z: string, y: string)
    ensures IsSuffix(x + y, z + y) <==> IsSuffix(x, z)
  {
    if IsSuffix(x + y, z + y) {
      assert (z + y)[|z + y| - |x + y|..] == x + y;
      assert z[|z| - |x|..] == (z + y)[|z + y| - |x + y|..][..|x|];
    }
    if IsSuffix(x, z) {
      assert (z + y)[|z + y| - |x + y|..] == z[|z| - |x|..] + y;
    }
  }
}

=== FILE: fits_schema.dfy ===
/** The columns of the three FITS metadata tables and the rows stored in
    them. */
module FitsSchema {
  import opened Py

  /** A scalar header value as `PropertyList.get` returns it. */
  datatype Value = VStr(s: string) | VInt(i: int) | VReal(x: real) | VBool(b: bool)

  /** The columns of the three tables. `Pdate` is the `pdate` key the date
      check sets and `PDate` the `pDate` key of the generic float loop: two
      keys of the Python dictionary. */
  datatype Col =
    | FitsFileId | FitsKey | Hdu | StringValue | LineNum | Comment | IntValue | DoubleValue
    | FileName | HduCount
    | Pdate | Equinox | PRa | PDec | RotAng | PDate

  function SqlName(c: Col): string
  {
    match c
    case FitsFileId => "fitsFileId"
    case FitsKey => "fitsKey"
    case Hdu => "hdu"
    case StringValue => "stringValue"
    case LineNum => "lineNum"
    case Comment => "comment"
    case IntValue => "intValue"
    case DoubleValue => "doubleValue"
    case FileName => "fileName"
    case HduCount => "hduCount"
    case Pdate => "pdate"
    case Equinox => "equinox"
    case PRa => "pRa"
    case PDec => "pDec"
    case RotAng => "rotAng"
    case PDate => "pDate"
  }

  /** A row as stored: the value of each column the INSERT names. */
  type Row = map<Col, Value>

  /** The FitsPositions columns `_insert` may set. */
  const PositionCols: set<Col> := {Pdate, Equinox, PRa, PDec, RotAng, PDate}

  /** `m` sets at most `c`, and sets it exactly to `want`. */
  predicate Part(m: Row, c: Col, want: Option<Value>)
  {
    && m.Keys <= {c}
    && (c in m <==> want.Some?)
    && (c in m ==> m[c] == want.value)
  }

  /** Six one-column parts, merged: column `c` holds what its part wants. */
  lemma UnionOfParts(m1: Row, m2: Row, m3: Row, m4: Row, m5: Row, m6: Row, c: Col,
                     w1: Option<Value>, w2: Option<Value>, w3: Option<Value>,
                     w4: Option<Value>, w5: Option<Value>, w6: Option<Value>, wc: Option<Value>)
    requires Part(m1, Pdate, w1) && Part(m2, Equinox, w2) && Part(m3, PRa, w3)
    requires Part(m4, PDec, w4) && Part(m5, RotAng, w5) && Part(m6, PDate, w6)
    requires c == Pdate ==> wc == w1
    requires c == Equinox ==> wc == w2
    requires c == PRa ==> wc == w3
    requires c == PDec ==> wc == w4
    requires c == RotAng ==> wc == w5
    requires c == PDate ==> wc == w6
    ensures var u := m1 + m2 + m3 + m4 + m5 + m6;
            && (c in u <==> c in PositionCols && wc.Some?)
            && (c in u ==> u[c] == wc.value)
  {
  }
}

=== FILE: imagerest.dfy ===
/** The input checks of the image REST API: `checkRaDec`, `checkRaDecFilter`
    and the validation prefix of the full-image, cutout and sky-map handlers,
    up to the point where an image is fetched. Query arguments are optional
    strings (`request.args.get`), and `float()` is an oracle. */
module ImageRest {
  import opened Py

  /** The filters the full-image and cutout handlers accept. */
  const ValidFilters: string := "irg"

  /** `"{}".format(x)` of an optional argument: a missing one reads `None`. */
  function Show(x: Option<string>): string
  {
    if x.Some? then x.value else "None"
  }

  /** `float(x)` on a query argument: a missing argument raises TypeError,
      which no handler catches; an unparsable one raises ValueError. */
  function FloatArg(x: Option<string>, p: Parsers): (r: Py<real>)
    ensures r.Raises? ==> (r.exc == TypeError <==> x.None?)
    ensures r.Raises? ==> r.exc == TypeError || r.exc == ValueError
    ensures r.Returns? <==> x.Some? && p.toFloat(x.value).Some?
  {
    match x
    case None => Raises(TypeError)
    case Some(s) => if p.toFloat(s).Some? then Returns(p.toFloat(s).value) else Raises(ValueError)
  }

  /** An argument `"{}".format` renders without error: missing, or ASCII. */
  predicate Formattable(x: Option<string>)
  {
    x.None? || Ascii(x.value)
  }

  /** `(valid, ra, dec, msg)` of `checkRaDec`. */
  datatype RaDec = RaDec(valid: bool, ra: real, dec: real, msg: string)

  /** The text of the coordinates' INVALID_INPUT message. */
  function CoordText(ra: string, dec: string): (m: string)
    ensures IsPrefix("NEED_HTTP INVALID_INPUT ra=", m)
  {
    var m := "NEED_HTTP INVALID_INPUT ra=" + ra + " dec=" + dec;
    assert m[..|"NEED_HTTP INVALID_INPUT ra="|] == "NEED_HTTP INVALID_INPUT ra=";
    m
  }

  /** Formatting the coordinates' message: it raises UnicodeEncodeError when
      either argument holds a non-ASCII character. */
  function CoordMessage(raIn: Option<string>, decIn: Option<string>): (r: Py<string>)
    ensures r.Raises? <==> !(Formattable(raIn) && Formattable(decIn))
    ensures r.Raises? ==> r.exc == UnicodeEncodeError
    ensures r.Returns? ==> r.value == CoordText(Show(raIn), Show(decIn))
  {
    match FormatArg(raIn)
    case Raises(e) => Raises(e)
    case Returns(ra) =>
      match FormatArg(decIn)
      case Raises(e) => Raises(e)
      case Returns(dec) => Returns(CoordText(ra, dec))
  }

  /** The `except ValueError` branch of `checkRaDec`: `valid` false, `dec`
      0.0, and the message, whose formatting may itself raise. */
  function CoordRefusal(raIn: Option<string>, decIn: Option<string>, ra: real): Py<RaDec>
  {
    match CoordMessage(raIn, decIn)
    case Raises(e) => Raises(e)
    case Returns(msg) => Returns(RaDec(false, ra, 0.0, msg))
  }

  /** `checkRaDec`: both coordinates parsed, or `valid` false with the
      INVALID_INPUT message and 0.0 for every coordinate not yet parsed. */
  function CheckRaDec(raIn: Option<string>, decIn: Option<string>, p: Parsers): (r: Py<RaDec>)
    ensures r.Raises? ==> r.exc == TypeError || r.exc == UnicodeEncodeError
    ensures r.Returns? && r.value.valid ==> r.value.msg == ""
    ensures r.Returns? && !r.value.valid ==>
              && Formattable(raIn) && Formattable(decIn)
              && CoordMessage(raIn, decIn) == Returns(r.value.msg)
              && IsPrefix("NEED_HTTP INVALID_INPUT", r.value.msg)
  {
    match FloatArg(raIn, p)
    case Raises(e) => if IsValueError(e) then CoordRefusal(raIn, decIn, 0.0) else Raises(e)
    case Returns(ra) =>
      match FloatArg(decIn, p)
      case Raises(e) => if IsValueError(e) then CoordRefusal(raIn, decIn, ra) else Raises(e)
      case Returns(dec) => Returns(RaDec(true, ra, dec, ""))
  }

  /** What `checkRaDec` yields, argument by argument: valid with the parsed
      values when both parse; otherwise invalid, keeping `ra` when only `dec`
      fails. It raises TypeError for a missing argument it reaches, and
      UnicodeEncodeError when a coordinate fails to parse and the message
      cannot be formatted because an argument is not ASCII. */
  lemma CheckRaDecMeaning(raIn: Option<string>, decIn: Option<string>, p: Parsers)
    ensures var r := CheckRaDec(raIn, decIn, p);
            var ra, dec := FloatArg(raIn, p), FloatArg(decIn, p);
            var failed := ra == Raises(ValueError) || (ra.Returns? && dec == Raises(ValueError));
            && (r.Raises? <==> raIn.None? || (ra.Returns? && decIn.None?)
                               || (failed && !(Formattable(raIn) && Formattable(decIn))))
            && (r.Raises? ==> (r.exc == UnicodeEncodeError <==> failed))
            && (r.Returns? && r.value.valid <==> ra.Returns? && dec.Returns?)
            && (r.Returns? && r.value.valid ==> r.value.ra == ra.value && r.value.dec == dec.value)
            && (r.Returns? && !r.value.valid ==>
                  && r.value.dec == 0.0
                  && r.value.ra == (if ra.Returns? then ra.value else 0.0)
                  && r.value.msg == CoordText(Show(raIn), Show(decIn)))
  {
  }

  /** `(valid, ra, dec, filt, msg)` of `checkRaDecFilter`. */
  datatype RaDecFilter = RaDecFilter(valid: bool, ra: real, dec: real, filt: string, msg: string)

  /** The text of the filter message. */
  function FilterText(filt: string, validFilters: string): string
  {
    "Invalid filter " + filt + ". valid filters are " + validFilters + "."
  }

  /** Formatting the filter message: the filter is a unicode query argument,
      the list of filters a byte string, so only a non-ASCII filter raises. */
  function FilterMessage(filt: string, validFilters: string): (r: Py<string>)
    ensures r.Raises? <==> !Ascii(filt)
    ensures r.Raises? ==> r.exc == UnicodeEncodeError
    ensures r.Returns? ==> r.value == FilterText(filt, validFilters)
  {
    match FormatArg(Some(filt))
    case Raises(e) => Raises(e)
    case Returns(f) => Returns(FilterText(f, validFilters))
  }

  /** The filter branch shared by both versions of the check: a rejected
      filter replaces the coordinates' verdict and message. */
  function FilterVerdict(c: RaDec, f: string, accepted: bool, validFilters: string): Py<RaDecFilter>
  {
    if accepted then Returns(RaDecFilter(c.valid, c.ra, c.dec, f, c.msg))
    else
      match FilterMessage(f, validFilters)
      case Raises(e) => Raises(e)
      case Returns(msg) => Returns(RaDecFilter(false, c.ra, c.dec, f, msg))
  }

  /** `checkRaDecFilter` as written: `filt not in validFilters` is a substring
      test on a string; a missing filter makes it raise TypeError. A filter
      failure replaces the coordinates' message. */
  function CheckRaDecFilter(raIn: Option<string>, decIn: Option<string>, filt: Option<string>,
                            validFilters: string, p: Parsers): (r: Py<RaDecFilter>)
    ensures r.Raises? <==> CheckRaDec(raIn, decIn, p).Raises? || filt.None?
                           || (!Contains(validFilters, filt.value) && !Ascii(filt.value))
    ensures r.Raises? ==> r.exc == TypeError || r.exc == UnicodeEncodeError
    ensures r.Returns? ==> filt.Some? && r.value.filt == filt.value
    ensures r.Returns? ==> (r.value.valid <==> (CheckRaDec(raIn, decIn, p).value.valid
                                                && Contains(validFilters, filt.value)))
    ensures r.Returns? ==> r.value.msg == if Contains(validFilters, filt.value)
                                         then CheckRaDec(raIn, decIn, p).value.msg
                                         else FilterText(filt.value, validFilters)
    ensures r.Returns? ==> r.value.ra == CheckRaDec(raIn, decIn, p).value.ra
                           && r.value.dec == CheckRaDec(raIn, decIn, p).value.dec
  {
    match CheckRaDec(raIn, decIn, p)
    case Raises(e) => Raises(e)
    case Returns(c) =>
      match filt
      case None => Raises(TypeError)
      case Some(f) => FilterVerdict(c, f, Contains(validFilters, f), validFilters)
  }

  /** The filters the substring test on `irg` lets through: the empty string
      and the two-letter runs along with the three single letters. */
  lemma FilterSubstrings(f: string)
    ensures Contains(ValidFilters, f) <==> f in {"", "i", "r", "g", "ir", "rg", "irg"}
  {
    var s := ValidFilters;
    assert s[1..] == "rg" && "rg"[1..] == "g" && "g"[1..] == "";
    assert Contains(s, f) == (IsPrefix(f, s) || Contains("rg", f));
    assert Contains("rg", f) == (IsPrefix(f, "rg") || Contains("g", f));
    assert Contains("g", f) == (IsPrefix(f, "g") || Contains("", f));
    assert s[..0] == "" && s[..1] == "i" && s[..2] == "ir" && s[..3] == "irg";
    assert "rg"[..0] == "" && "rg"[..1] == "r" && "rg"[..2] == "rg";
    assert "g"[..0] == "" && "g"[..1] == "g";
    PrefixesOf(s, f);
    PrefixesOf("rg", f);
    PrefixesOf("g", f);
    PrefixesOf("", f);
  }

  lemma PrefixesOf(s: string, f: string)
    ensures IsPrefix(f, s) <==> |f| <= |s| && f == s[..|f|]
  {
  }

  /** The corrected filter test: one of the single-letter filter names. */
  predicate FilterNamed(f: string, validFilters: string)
  {
    |f| == 1 && f[0] in validFilters
  }

  /** `checkRaDecFilter` with the evident intent: the filter must be one of
      the single-letter filter names. */
  function CheckRaDecFilterChecked(raIn: Option<string>, decIn: Option<string>, filt: Option<string>,
                                   validFilters: string, p: Parsers): (r: Py<RaDecFilter>)
    ensures r.Raises? <==> CheckRaDec(raIn, decIn, p).Raises? || filt.None?
                           || (!FilterNamed(filt.value, validFilters) && !Ascii(filt.value))
    ensures r.Raises? ==> r.exc == TypeError || r.exc == UnicodeEncodeError
    ensures r.Returns? ==> filt.Some? && r.value.filt == filt.value
    ensures r.Returns? ==> (r.value.valid <==> (CheckRaDec(raIn, decIn, p).value.valid
                                                && FilterNamed(filt.value, validFilters)))
    ensures r.Returns? ==> r.value.msg == if FilterNamed(filt.value, validFilters)
                                         then CheckRaDec(raIn, decIn, p).value.msg
                                         else FilterText(filt.value, validFilters)
    ensures r.Returns? ==> r.value.ra == CheckRaDec(raIn, decIn, p).value.ra
                           && r.value.dec == CheckRaDec(raIn, decIn, p).value.dec
  {
    match CheckRaDec(raIn, decIn, p)
    case Raises(e) => Raises(e)
    case Returns(c) =>
      match filt
      case None => Raises(TypeError)
      case Some(f) => FilterVerdict(c, f, FilterNamed(f, validFilters), validFilters)
  }

  /** An empty filter passes the check as written and fails the corrected one. */
  lemma EmptyFilterAccepted(raIn: string, decIn: string, p: Parsers)
    requires p.toFloat(raIn).Some? && p.toFloat(decIn).Some?
    ensures CheckRaDecFilter(Some(raIn), Some(decIn), Some(""), ValidFilters, p).value.valid
    ensures !CheckRaDecFilterChecked(Some(raIn), Some(decIn), Some(""), ValidFilters, p).value.valid
  {
    assert IsPrefix("", ValidFilters);
  }

  /** The corrected check accepts exactly the three filter names; any other
      filter is refused with the filter message, or raises when that message
      cannot be formatted. */
  lemma CheckedFilters(raIn: string, decIn: string, f: string, p: Parsers)
    requires p.toFloat(raIn).Some? && p.toFloat(decIn).Some?
    ensures var r := CheckRaDecFilterChecked(Some(raIn), Some(decIn), Some(f), ValidFilters, p);
            && (r.Returns? && r.value.valid <==> f in {"i", "r", "g"})
            && (r.Raises? <==> f !in {"i", "r", "g"} && !Ascii(f))
  {
    if |f| == 1 {
      assert f == [f[0]];
    }
  }

  // ------------------------------------------------------------------
  // The handlers' validation prefix

  /** Where a handler's checks lead: the INVALID_INPUT text `_getIFull`
      returns as its body, a BAD_REQUEST error, or the image request it goes
      on to make. */
  datatype Reply =
    | InvalidText(text: string)
    | BadRequest(msg: string)
    | FetchFull(ra: real, dec: real)
    | FetchCutout(ra: real, dec: real, width: real, height: real)
    | FetchSkyMap(ra: real, dec: real, filt: string, pixelsWide: int, pixelsHigh: int, source: string)

  /** The query arguments the handlers read. */
  datatype Query = Query(
    ra: Option<string>, dec: Option<string>, filt: Option<string>,
    width: Option<string>, height: Option<string>, source: Option<string>)

  /** `_getIFull` up to the fetch, with the check as written: it fetches
      exactly when both coordinates parse and the filter is a substring of
      `irg`, and otherwise answers with the check's message behind
      INVALID_INPUT. */
  function GetIFull(q: Query, p: Parsers): (r: Py<Reply>)
    ensures r.Raises? <==> CheckRaDecFilter(q.ra, q.dec, q.filt, ValidFilters, p).Raises?
    ensures r.Returns? ==> r.value.InvalidText? || r.value.FetchFull?
    ensures r.Returns? ==> (r.value.FetchFull? <==>
              FloatArg(q.ra, p).Returns? && FloatArg(q.dec, p).Returns? && Contains(ValidFilters, q.filt.value))
    ensures r.Returns? && r.value.FetchFull? ==>
              r.value.ra == FloatArg(q.ra, p).value && r.value.dec == FloatArg(q.dec, p).value
    ensures r.Returns? && r.value.InvalidText? ==>
              r.value.text == "INVALID_INPUT " + if Contains(ValidFilters, q.filt.value)
                                                then CoordText(Show(q.ra), Show(q.dec))
                                                else FilterText(q.filt.value, ValidFilters)
  {
    CheckRaDecMeaning(q.ra, q.dec, p);
    match CheckRaDecFilter(q.ra, q.dec, q.filt, ValidFilters, p)
    case Raises(e) => Raises(e)
    case Returns(c) => if !c.valid then Returns(InvalidText("INVALID_INPUT " + c.msg)) else Returns(FetchFull(c.ra, c.dec))
  }

  /** Through the full-image handler, the substring test lets the empty
      filter and the two- and three-letter runs of `irg` reach the fetch. */
  lemma FullImageAcceptsFilterRuns(raIn: string, decIn: string, f: string, q: Query, p: Parsers)
    requires p.toFloat(raIn).Some? && p.toFloat(decIn).Some?
    requires f in {"", "ir", "rg", "irg"}
    ensures GetIFull(q.(ra := Some(raIn), dec := Some(decIn), filt := Some(f)), p)
            == Returns(FetchFull(p.toFloat(raIn).value, p.toFloat(decIn).value))
  {
    FilterSubstrings(f);
  }

  /** The text of the size message. */
  function SizeText(width: string, height: string): string
  {
    "INVALID_INPUT width=" + width + " height=" + height
  }

  /** Formatting the size message: a non-ASCII width or height raises
      UnicodeEncodeError. */
  function SizeMessage(widthIn: Option<string>, heightIn: Option<string>): (r: Py<string>)
    ensures r.Raises? <==> !(Formattable(widthIn) && Formattable(heightIn))
    ensures r.Raises? ==> r.exc == UnicodeEncodeError
    ensures r.Returns? ==> r.value == SizeText(Show(widthIn), Show(heightIn))
  {
    match FormatArg(widthIn)
    case Raises(e) => Raises(e)
    case Returns(w) =>
      match FormatArg(heightIn)
      case Raises(e) => Raises(e)
      case Returns(h) => Returns(SizeText(w, h))
  }

  /** The `except ValueError` branch around the size: BAD_REQUEST with the
      size message, whose formatting may itself raise. */
  function SizeRefusal(q: Query): Py<Reply>
  {
    match SizeMessage(q.width, q.height)
    case Raises(e) => Raises(e)
    case Returns(msg) => Returns(BadRequest(msg))
  }

  /** `_getICutout` up to the fetch, with the check as written: the
      coordinates and filter first, then the width and height. */
  function GetICutout(q: Query, p: Parsers): (r: Py<Reply>)
    ensures r.Returns? ==> r.value.BadRequest? || r.value.FetchCutout?
    ensures r.Raises? ==> r.exc == TypeError || r.exc == UnicodeEncodeError
  {
    match CheckRaDecFilter(q.ra, q.dec, q.filt, ValidFilters, p)
    case Raises(e) => Raises(e)
    case Returns(c) =>
      if !c.valid then Returns(BadRequest(c.msg))
      else
        match FloatArg(q.width, p)
        case Raises(e) => if IsValueError(e) then SizeRefusal(q) else Raises(e)
        case Returns(w) =>
          match FloatArg(q.height, p)
          case Raises(e) => if IsValueError(e) then SizeRefusal(q) else Raises(e)
          case Returns(h) => Returns(FetchCutout(c.ra, c.dec, w, h))
  }

  /** The order of validation in the cutout handlers: a failed coordinate or
      filter check answers BAD_REQUEST with its message whatever the width
      and height are; the size is read only after it passes, and a failure
      to parse it answers BAD_REQUEST, or raises UnicodeEncodeError when the
      size arguments cannot be formatted; the fetch gets the parsed values. */
  lemma CutoutValidationOrder(q: Query, p: Parsers)
    ensures var c := CheckRaDecFilter(q.ra, q.dec, q.filt, ValidFilters, p);
            var r := GetICutout(q, p);
            var sizeFails := FloatArg(q.width, p) == Raises(ValueError)
                             || (FloatArg(q.width, p).Returns? && FloatArg(q.height, p) == Raises(ValueError));
            && (c.Raises? ==> r == Raises(c.exc))
            && (c.Returns? && !c.value.valid ==> r == Returns(BadRequest(c.value.msg)))
            && (c.Returns? && c.value.valid && sizeFails ==>
                  r == if Formattable(q.width) && Formattable(q.height)
                       then Returns(BadRequest(SizeText(Show(q.width), Show(q.height))))
                       else Raises(UnicodeEncodeError))
            && (r.Returns? && r.value.FetchCutout? <==>
                  c.Returns? && c.value.valid && FloatArg(q.width, p).Returns? && FloatArg(q.height, p).Returns?)
            && (r.Returns? && r.value.FetchCutout? ==>
                  && r.value.ra == FloatArg(q.ra, p).value && r.value.dec == FloatArg(q.dec, p).value
                  && r.value.width == FloatArg(q.width, p).value && r.value.height == FloatArg(q.height, p).value)
  {
    CheckRaDecMeaning(q.ra, q.dec, p);
  }

  /** `filt.encode('ascii')`: a non-ASCII filter raises UnicodeEncodeError,
      a kind of ValueError; a missing filter has no `encode`. */
  function EncodeAscii(filt: Option<string>): (r: Py<string>)
    ensures r.Returns? <==> filt.Some? && Ascii(filt.value)
    ensures r.Returns? ==> r.value == filt.value
    ensures r.Raises? ==> (r.exc == AttributeError <==> filt.None?)
    ensures r.Raises? ==> (r.exc == UnicodeEncodeError <==> filt.Some?)
  {
    match filt
    case None => Raises(AttributeError)
    case Some(f) => if Ascii(f) then Returns(f) else Raises(UnicodeEncodeError)
  }

  /** `_getISkyMapDeepCoaddCutout` up to the fetch. The coordinates are
      checked but the filter is not looked up in any list; a missing or empty
      `source` is replaced by the configured default; the sizes are passed on
      truncated by `int()`. */
  function GetISkyMapCutout(q: Query, defaultSource: string, p: Parsers): (r: Py<Reply>)
    ensures r.Returns? ==> r.value.BadRequest? || r.value.FetchSkyMap?
    ensures r.Raises? ==> r.exc == TypeError || r.exc == UnicodeEncodeError || r.exc == AttributeError
    ensures r.Raises? && r.exc == AttributeError ==> q.filt.None?
  {
    var source := if q.source.None? || q.source.value == "" then defaultSource else q.source.value;
    match CheckRaDec(q.ra, q.dec, p)
    case Raises(e) => Raises(e)
    case Returns(c) =>
      if !c.valid then Returns(BadRequest("INVALID_INPUT " + c.msg))
      else
        match FloatArg(q.width, p)
        case Raises(e) => if IsValueError(e) then SizeRefusal(q) else Raises(e)
        case Returns(w) =>
          match FloatArg(q.height, p)
          case Raises(e) => if IsValueError(e) then SizeRefusal(q) else Raises(e)
          case Returns(h) =>
            match EncodeAscii(q.filt)
            case Raises(e) => if IsValueError(e) then SizeRefusal(q) else Raises(e)
            case Returns(f) => Returns(FetchSkyMap(c.ra, c.dec, f, Trunc(w), Trunc(h), source))
  }

  /** The sky-map handler takes any ASCII filter: two filters lead to the same
      answer up to the filter passed on. It uses the configured source
      exactly when none, or an empty one, is given. */
  lemma SkyMapFilterUnchecked(q: Query, f1: string, f2: string, defaultSource: string, p: Parsers)
    requires Ascii(f1) && Ascii(f2)
    ensures var r1 := GetISkyMapCutout(q.(filt := Some(f1)), defaultSource, p);
            var r2 := GetISkyMapCutout(q.(filt := Some(f2)), defaultSource, p);
            && (r1.Returns? <==> r2.Returns?)
            && (r1.Returns? ==> (r1.value.FetchSkyMap? <==> r2.value.FetchSkyMap?))
            && (r1.Returns? && r1.value.FetchSkyMap? ==>
                  && r1.value.filt == f1 && r2.value.filt == f2
                  && r1.value.(filt := f2) == r2.value
                  && (r1.value.source == defaultSource <==> q.source.None? || q.source.value == "" || q.source.value == defaultSource))
  {
  }

  /** The order of validation in the sky-map handler: the coordinates first,
      answered with BAD_REQUEST and the coordinate message behind
      INVALID_INPUT; then the width and height; then the filter's ASCII
      encoding, whose failure is answered with the size message like an
      unparsable size. A missing argument raises: TypeError for a size,
      AttributeError for the filter. The fetch gets the parsed coordinates,
      the filter, the sizes truncated by `int()`, and the given source unless
      it is missing or empty. */
  lemma SkyMapValidationOrder(q: Query, defaultSource: string, p: Parsers)
    ensures var c := CheckRaDec(q.ra, q.dec, p);
            var r := GetISkyMapCutout(q, defaultSource, p);
            var w, h := FloatArg(q.width, p), FloatArg(q.height, p);
            var passed := c.Returns? && c.value.valid;
            var sizeRefusal := if Formattable(q.width) && Formattable(q.height)
                               then Returns(BadRequest(SizeText(Show(q.width), Show(q.height))))
                               else Raises(UnicodeEncodeError);
            && (c.Raises? ==> r == Raises(c.exc))
            && (c.Returns? && !c.value.valid ==>
                  r == Returns(BadRequest("INVALID_INPUT " + CoordText(Show(q.ra), Show(q.dec)))))
            && (passed && (w == Raises(ValueError) || (w.Returns? && h == Raises(ValueError))) ==> r == sizeRefusal)
            && (passed && (q.width.None? || (w.Returns? && q.height.None?)) ==> r == Raises(TypeError))
            && (passed && w.Returns? && h.Returns? && q.filt.None? ==> r == Raises(AttributeError))
            && (passed && w.Returns? && h.Returns? && q.filt.Some? && !Ascii(q.filt.value) ==> r == sizeRefusal)
            && (r.Returns? && r.value.FetchSkyMap? <==>
                  passed && w.Returns? && h.Returns? && q.filt.Some? && Ascii(q.filt.value))
            && (r.Returns? && r.value.FetchSkyMap? ==>
                  && r.value.ra == FloatArg(q.ra, p).value && r.value.dec == FloatArg(q.dec, p).value
                  && r.value.filt == q.filt.value
                  && r.value.pixelsWide == Trunc(w.value) && r.value.pixelsHigh == Trunc(h.value)
                  && r.value.source == if q.source.None? || q.source.value == "" then defaultSource
                                       else q.source.value)
  {
    CheckRaDecMeaning(q.ra, q.dec, p);
  }
}

=== FILE: locate.dfy ===
/** The geometry of image location and cutouts: bringing an RA within 180
    degrees of another, the search box and column list of the nearest-image
    query, picking the butler keys from its first row, and the pixel box of
    a cutout. Reals idealise Python floats: there is no rounding, NaN or
    infinity, and `int()` is truncation toward zero. */
module LocateImage {
  import opened Py

  // ------------------------------------------------------------------
  // _keepWithin180

  predicate Within180(target: real, r: real)
  {
    target - 180.0 <= r <= target + 180.0
  }

  /** `_keepWithin180`: steps `val` by whole turns of 360 degrees until it
      lies within 180 degrees of `target`. A value already there is kept. */
  method KeepWithin180(target: real, val: real) returns (r: real)
    ensures Within180(target, r)
    ensures exists k: int :: r == Turned(val, k)
    ensures Within180(target, val) ==> r == val
  {
    r := val;
    ghost var k: int := 0;
    while r > target + 180.0
      invariant r == val + 360.0 * k as real
      invariant Within180(target, val) ==> k == 0
      decreases (r - target - 180.0).Floor
    {
      r := r - 360.0;
      k := k - 1;
    }
    while r < target - 180.0
      invariant r == val + 360.0 * k as real
      invariant r <= target + 180.0
      invariant Within180(target, val) ==> k == 0
      decreases (target - 180.0 - r).Floor
    {
      r := r + 360.0;
      k := k + 1;
    }
    assert r == Turned(val, k);
  }

  /** `val` moved by `k` whole turns. */
  function Turned(val: real, k: int): real
  {
    val + 360.0 * k as real
  }

  // ------------------------------------------------------------------
  // _arcsecToDeg and the search box

  function ArcsecToDeg(arcsecs: real): (deg: real)
    ensures deg * 3600.0 == arcsecs
  {
    arcsecs / 3600.0
  }

  /** The `scisql_s2PtInBox` arguments. */
  datatype Box = Box(minRa: real, minDec: real, maxRa: real, maxDec: real)

  /** The box `_findNearestImageContaining` searches: `width` by `height`
      arcseconds, centred on `(ra, dec)`. */
  function SearchBox(ra: real, dec: real, width: real, height: real): (b: Box)
    ensures (b.minRa + b.maxRa) / 2.0 == ra && (b.minDec + b.maxDec) / 2.0 == dec
    ensures b.maxRa - b.minRa == ArcsecToDeg(width)
    ensures b.maxDec - b.minDec == ArcsecToDeg(height)
    ensures ra - b.minRa == width / 7200.0 && dec - b.minDec == height / 7200.0
  {
    var arcW := ArcsecToDeg(width) / 2.0;
    var arcH := ArcsecToDeg(height) / 2.0;
    Box(ra - arcW, dec - arcH, ra + arcW, dec + arcH)
  }

  /** An item of the SELECT list: a named column, or the squared distance
      to `(ra, dec)` the rows are ordered by. */
  datatype SelectItem = Column(name: string) | Distance(ra: real, dec: real)

  /** `cols`: `ra`, `decl`, the configured columns in order, the distance. */
  function SelectList(columns: seq<string>, ra: real, dec: real): (cols: seq<SelectItem>)
    ensures |cols| == |columns| + 3
    ensures cols[0] == Column("ra") && cols[1] == Column("decl")
    ensures forall i :: 0 <= i < |columns| ==> cols[i + 2] == Column(columns[i])
    ensures cols[|cols| - 1] == Distance(ra, dec)
  {
    [Column("ra"), Column("decl")] + seq(|columns|, i requires 0 <= i < |columns| => Column(columns[i]))
      + [Distance(ra, dec)]
  }

  /** The query `_findNearestImageContaining` sends: the select list, the
      table, the box, ordered by distance with `LIMIT 1`. */
  datatype NearestQuery = NearestQuery(select: seq<SelectItem>, table: string, box: Box)

  function FindNearestQuery(kind: ImageKind, ra: real, dec: real, width: real, height: real): NearestQuery
  {
    NearestQuery(SelectList(Columns(kind), ra, dec), Table(kind), SearchBox(ra, dec, width, height))
  }

  // ------------------------------------------------------------------
  // The two image databases and _getImageButler

  datatype ImageKind = Raw | DeepCoadd

  /** The configured columns of `W13RawDb` and `W13DeepCoaddDb`. */
  function Columns(kind: ImageKind): seq<string>
  {
    match kind
    case Raw => ["run", "camcol", "field", "filterName"]
    case DeepCoadd => ["tract", "patch", "filterName"]
  }

  function Table(kind: ImageKind): string
  {
    match kind
    case Raw => "Science_Ccd_Exposure"
    case DeepCoadd => "DeepCoadd"
  }

  function DataRoot(kind: ImageKind): string
  {
    match kind
    case Raw => "/lsst7/stripe82/dr7/runs"
    case DeepCoadd => "/lsst7/releaseW13EP"
  }

  /** The dataset type `_getImageButler` asks the butler for. */
  function ButlerType(kind: ImageKind): string
  {
    match kind
    case Raw => "fpC"
    case DeepCoadd => "deepCoadd"
  }

  /** `butler.get(type, ...)` on a butler over `dataRoot`, with the key
      values in the order of the configured columns. */
  datatype ButlerGet<V> = ButlerGet(dataRoot: string, datasetType: string, keys: seq<V>)

  /** `_getImageButler`: only the first row is used. Its items 2.. are the
      configured columns (`ln[2:6]` for raw images, `ln[2]`, `ln[3]`,
      `ln[4]` for coadds); no row gives `(None, None)`. The rows are those
      of the nearest-image query, so each has the select list's length. */
  function GetImageButler<V>(kind: ImageKind, rows: seq<seq<V>>): (r: Option<ButlerGet<V>>)
    requires forall i :: 0 <= i < |rows| ==> |rows[i]| == |Columns(kind)| + 3
    ensures r.None? <==> |rows| == 0
    ensures r.Some? ==> r.value.dataRoot == DataRoot(kind) && r.value.datasetType == ButlerType(kind)
    ensures r.Some? ==> |r.value.keys| == |Columns(kind)|
    ensures r.Some? ==> forall i :: 0 <= i < |Columns(kind)| ==> r.value.keys[i] == rows[0][i + 2]
  {
    if |rows| == 0 then None
    else
      assert |rows[0]| == |Columns(kind)| + 3;
      match kind
      case Raw => Some(ButlerGet(DataRoot(kind), ButlerType(kind), rows[0][2..6]))
      case DeepCoadd => Some(ButlerGet(DataRoot(kind), ButlerType(kind), [rows[0][2], rows[0][3], rows[0][4]]))
  }

  /** The keys the butler gets line up with the query: key `i` is the value
      of the select list's column `i + 2`, the `i`-th configured column. */
  lemma ButlerKeysMatchColumns<V>(kind: ImageKind, rows: seq<seq<V>>, ra: real, dec: real, i: nat)
    requires forall j :: 0 <= j < |rows| ==> |rows[j]| == |Columns(kind)| + 3
    requires |rows| > 0 && i < |Columns(kind)|
    ensures var sel := SelectList(Columns(kind), ra, dec);
            && sel[i + 2] == Column(Columns(kind)[i])
            && GetImageButler(kind, rows).value.keys[i] == rows[0][i + 2]
  {
  }

  // ------------------------------------------------------------------
  // _cutoutBoxPixels

  /** The pixel box of a cutout: the upper-left corner, the size, and the
      end corner the image is sliced to. */
  datatype PixelBox = PixelBox(ulX: int, ulY: int, w: int, h: int, endX: int, endY: int)

  /** One axis of `_cutoutBoxPixels` before truncation: the corner is
      clamped at 0 and the size shrinks by what the box overshot the low
      edge; then the size is capped at the image's. The corner is the box's
      low edge when that lies in the image, and the far edge is the box's own
      unless the cap cuts it short. */
  function LowTrimmed(center: real, size: real, imgSize: int): (r: (real, real))
    ensures r.0 >= 0.0
    ensures center - size / 2.0 >= 0.0 ==> r.0 == center - size / 2.0
    ensures center - size / 2.0 < 0.0 ==> r.0 == 0.0
    ensures r.1 <= imgSize as real && r.1 <= size
    ensures r.0 + r.1 <= center + size / 2.0
    ensures r.1 < imgSize as real ==> r.0 + r.1 == center + size / 2.0
  {
    var ul := center - size / 2.0;
    var offset := if ul < 0.0 then ul else 0.0;
    (if ul < 0.0 then 0.0 else ul, Min(imgSize as real, size + offset))
  }

  function Min(a: real, b: real): real
  {
    if a <= b then a else b
  }

  /** `_cutoutBoxPixels` as written: the box is trimmed at the left and top
      edges only. */
  function CutoutBoxPixels(cx: real, cy: real, width: real, height: real, imgW: nat, imgH: nat): (b: PixelBox)
    ensures b.ulX >= 0 && b.ulY >= 0
    ensures b.w <= imgW && b.h <= imgH
    ensures b.endX == b.ulX + b.w && b.endY == b.ulY + b.h
    ensures b.ulX == Trunc(LowTrimmed(cx, width, imgW).0) && b.w == Trunc(LowTrimmed(cx, width, imgW).1)
    ensures b.ulY == Trunc(LowTrimmed(cy, height, imgH).0) && b.h == Trunc(LowTrimmed(cy, height, imgH).1)
  {
    var (x, w) := LowTrimmed(cx, width, imgW);
    var (y, h) := LowTrimmed(cy, height, imgH);
    var ulX, ulY, pw, ph := Trunc(x), Trunc(y), Trunc(w), Trunc(h);
    PixelBox(ulX, ulY, pw, ph, ulX + pw, ulY + ph)
  }

  /** The box a cutout near the right edge gets: a 40-pixel box centred at
      x = 90 of a 100-pixel image ends at 110, past the edge the
      documentation says it is trimmed to. */
  lemma RightEdgeOvershoot()
    ensures CutoutBoxPixels(90.0, 50.0, 40.0, 10.0, 100, 100).endX == 110
  {
  }

  /** One axis trimmed at both edges: after the low edge, the size is capped
      at what is left of the image to the right of the corner. */
  function BothTrimmed(center: real, size: real, imgSize: int): (r: (real, real))
  {
    var (ul, s) := LowTrimmed(center, size, imgSize);
    (ul, Min(imgSize as real - ul, s))
  }

  /** `_cutoutBoxPixels` trimmed at all four edges, as documented. */
  function CutoutBoxPixelsChecked(cx: real, cy: real, width: real, height: real, imgW: nat, imgH: nat): (b: PixelBox)
    ensures b.ulX >= 0 && b.ulY >= 0
    ensures b.w <= imgW && b.h <= imgH
    ensures b.endX == b.ulX + b.w && b.endY == b.ulY + b.h
    ensures b.endX <= imgW && b.endY <= imgH
  {
    var (x, w) := BothTrimmed(cx, width, imgW);
    var (y, h) := BothTrimmed(cy, height, imgH);
    TruncSum(x, w, imgW);
    TruncSum(y, h, imgH);
    var ulX, ulY, pw, ph := Trunc(x), Trunc(y), Trunc(w), Trunc(h);
    PixelBox(ulX, ulY, pw, ph, ulX + pw, ulY + ph)
  }

  /** Truncating a non-negative corner and a size that together stay within
      an integer bound stays within the bound. */
  lemma TruncSum(x: real, w: real, bound: int)
    requires x >= 0.0 && x + w <= bound as real && w <= bound as real
    ensures Trunc(x) + Trunc(w) <= bound
    ensures Trunc(w) <= bound
  {
  }

  /** Inside the image the two versions agree: when the box does not reach
      past the right and bottom edges, trimming there changes nothing. */
  lemma CheckedAgreesInside(cx: real, cy: real, width: real, height: real, imgW: nat, imgH: nat)
    requires LowTrimmed(cx, width, imgW).0 + LowTrimmed(cx, width, imgW).1 <= imgW as real
    requires LowTrimmed(cy, height, imgH).0 + LowTrimmed(cy, height, imgH).1 <= imgH as real
    ensures CutoutBoxPixelsChecked(cx, cy, width, height, imgW, imgH) == CutoutBoxPixels(cx, cy, width, height, imgW, imgH)
  {
  }
}

=== FILE: py.dfy ===
/** Python runtime notions the model shares: exceptions, the outcome of a call
    that may raise, the `str` operations the source relies on (`split`,
    `join`, `replace`, `in`), and the conversions `float()`, `int()` and
    `time.strptime`, which stay uninterpreted and are passed in as oracles. */
module Py {

  /** The exception classes the source raises or catches. */
  datatype Exc =
    | DcException       // every error of the datacat client
    | ValueError
    | UnicodeEncodeError  // a subclass of ValueError
    | TypeError
    | IOError
    | OSError
    | AttributeError
    | SQLAlchemyError
    | OtherError        // any exception the source never names

  /** The outcome of a Python call: a returned value or a raised exception. */
  datatype Py<+T> = Returns(value: T) | Raises(exc: Exc)

  datatype Option<+T> = None | Some(value: T)

  /** What `except ValueError` catches: ValueError and its subclass
      UnicodeEncodeError. */
  predicate IsValueError(e: Exc)
  {
    e == ValueError || e == UnicodeEncodeError
  }

  /** Every character of `s` is below 128. */
  predicate Ascii(s: string)
  {
    forall k :: 0 <= k < |s| ==> s[k] < 128 as char
  }

  /** Python 2's `"...{}...".format(x)` on a byte-string template: the result
      is a byte string, so a unicode argument holding a character of 128 or
      more raises UnicodeEncodeError; `None` formats as "None". */
  function FormatArg(x: Option<string>): (r: Py<string>)
    ensures r.Raises? <==> x.Some? && !Ascii(x.value)
    ensures r.Raises? ==> r.exc == UnicodeEncodeError
    ensures x.None? ==> r == Returns("None")
    ensures x.Some? && Ascii(x.value) ==> r == Returns(x.value)
  {
    match x
    case None => Returns("None")
    case Some(s) => if Ascii(s) then Returns(s) else Raises(UnicodeEncodeError)
  }

  /** A call to `lsst.log` with `conversions` `%`-conversions in its format and
      `args` further arguments. With no arguments the format is logged as it
      is; otherwise it is rendered as `fmt % args`, which raises TypeError
      unless there is one argument per conversion. */
  function LogCall(conversions: nat, args: nat): (r: Py<()>)
    ensures r.Returns? <==> args == 0 || args == conversions
    ensures r.Raises? ==> r.exc == TypeError
  {
    if args == 0 || args == conversions then Returns(()) else Raises(TypeError)
  }

  /** The conversions of the Python runtime the source calls, as uninterpreted
      partial parsers. `toFloat(s) == None` means `float(s)` raises ValueError;
      `dateOk(s)` says whether `time.strptime(s, "%Y-%m-%d %H:%M:%S")` succeeds.
      Reals idealise Python floats: NaN and the infinities are not represented. */
  datatype Parsers = Parsers(
    toFloat: string -> Option<real>,
    toInt: string -> Option<int>,
    dateOk: string -> bool)

  /** `int(x)` on a float: truncation toward zero. Reals idealise floats. */
  function Trunc(x: real): (n: int)
    ensures x >= 0.0 ==> n as real <= x < n as real + 1.0
    ensures x < 0.0 ==> n as real - 1.0 < x <= n as real
  {
    if x >= 0.0 then x.Floor else -((-x).Floor)
  }

  /** `needle in hay` for two strings: `needle` starts at some position of `hay`. */
  predicate Contains(hay: string, needle: string)
  {
    IsPrefix(needle, hay) || (|hay| > 0 && Contains(hay[1..], needle))
  }

  predicate IsPrefix(p: string, s: string)
  {
    |p| <= |s| && s[..|p|] == p
  }

  predicate IsSuffix(p: string, s: string)
  {
    |p| <= |s| && s[|s| - |p|..] == p
  }

  /** Position of the first `c` in `s`, or `|s|` when there is none. */
  function IndexOf(s: string, c: char): (r: nat)
    ensures r <= |s|
    ensures c !in s[..r]
    ensures r < |s| ==> s[r] == c
  {
    if |s| == 0 then 0
    else if s[0] == c then 0
    else 1 + IndexOf(s[1..], c)
  }

  /** `sep.join(parts)`. */
  function Join(parts: seq<string>, sep: string): string
  {
    if |parts| == 0 then ""
    else if |parts| == 1 then parts[0]
    else parts[0] + sep + Join(parts[1..], sep)
  }

  /** `s.split(c)` for a one-character separator: always at least one part;
      `SplitProperties` says what the parts are. */
  function Split(s: string, c: char): (parts: seq<string>)
    ensures |parts| >= 1
    decreases |s|
  {
    var i := IndexOf(s, c);
    if i == |s| then [s]
    else [s[..i]] + Split(s[i + 1..], c)
  }

  /** No part holds the separator, and joining the parts back gives `s`. */
  lemma SplitProperties(s: string, c: char)
    ensures var parts := Split(s, c);
            && (forall k :: 0 <= k < |parts| ==> c !in parts[k])
            && Join(parts, [c]) == s
  {
    SplitPartsClean(s, c);
    SplitJoinsBack(s, c);
  }

  lemma {:induction false} SplitPartsClean(s: string, c: char)
    ensures forall k :: 0 <= k < |Split(s, c)| ==> c !in Split(s, c)[k]
    decreases |s|
  {
    var i := IndexOf(s, c);
    if i < |s| {
      var rest := Split(s[i + 1..], c);
      SplitPartsClean(s[i + 1..], c);
      var parts := Split(s, c);
      assert parts == [s[..i]] + rest;
      forall k | 0 <= k < |parts| ensures c !in parts[k] {
        if k == 0 {
          assert parts[0] == s[..i];
          assert c !in s[..i];
        } else {
          assert parts[k] == rest[k - 1];
          assert c !in rest[k - 1];
        }
      }
    }
  }

  lemma {:induction false} SplitJoinsBack(s: string, c: char)
    ensures Join(Split(s, c), [c]) == s
    decreases |s|
  {
    var i := IndexOf(s, c);
    if i < |s| {
      var rest := Split(s[i + 1..], c);
      SplitJoinsBack(s[i + 1..], c);
      var parts := Split(s, c);
      assert parts == [s[..i]] + rest;
      assert parts[0] == s[..i] && parts[1..] == rest && |parts| >= 2;
      assert Join(parts, [c]) == s[..i] + [c] + Join(rest, [c]);
      assert s == s[..i] + [c] + s[i + 1..];
    }
  }

  /** `s.replace(a, b)` for one-character `a` and `b`. */
  function ReplaceChar(s: string, a: char, b: char): (r: string)
    ensures |r| == |s|
    ensures forall k :: 0 <= k < |s| ==> r[k] == (if s[k] == a then b else s[k])
  {
    if |s| == 0 then ""
    else [if s[0] == a then b else s[0]] + ReplaceChar(s[1..], a, b)
  }

  lemma {:induction false} JoinAppend(p: seq<string>, q: seq<string>, sep: string)
    requires |p| >= 1 && |q| >= 1
    ensures Join(p + q, sep) == Join(p, sep) + sep + Join(q, sep)
    decreases |p|
  {
    if |p| == 1 {
      assert p + q == [p[0]] + q;
    } else {
      assert (p + q)[1..] == p[1..] + q;
      JoinAppend(p[1..], q, sep);
    }
  }

  /** Splitting is the inverse of joining: a non-empty list of parts free of
      the separator comes back unchanged from `split` after `join`. */
  lemma {:induction false} SplitJoin(parts: seq<string>, c: char)
    requires |parts| >= 1
    requires forall k :: 0 <= k < |parts| ==> c !in parts[k]
    ensures Split(Join(parts, [c]), c) == parts
    decreases |parts|
  {
    var s := Join(parts, [c]);
    if |parts| == 1 {
      IndexOfAbsent(parts[0], c);
    } else {
      var rest := Join(parts[1..], [c]);
      assert s == parts[0] + [c] + rest;
      IndexOfAfter(parts[0], c, rest);
      assert s[..|parts[0]|] == parts[0];
      assert s[|parts[0]| + 1..] == rest;
      SplitJoin(parts[1..], c);
      assert parts == [parts[0]] + parts[1..];
    }
  }

  lemma IndexOfAbsent(s: string, c: char)
    requires c !in s
    ensures IndexOf(s, c) == |s|
  {
  }

  lemma {:induction false} IndexOfAfter(a: string, c: char, b: string)
    requires c !in a
    ensures IndexOf(a + [c] + b, c) == |a|
    decreases |a|
  {
    if |a| > 0 {
      assert (a + [c] + b)[1..] == a[1..] + [c] + b;
      IndexOfAfter(a[1..], c, b);
    }
  }

  /** Splitting around one separator splits each side independently. */
  lemma SplitAppend(a: string, c: char, b: string)
    ensures Split(a + [c] + b, c) == Split(a, c) + Split(b, c)
  {
    var p, q := Split(a, c), Split(b, c);
    SplitProperties(a, c);
    SplitProperties(b, c);
    JoinAppend(p, q, [c]);
    NoSeparatorInConcat(p, q, c);
    SplitJoin(p + q, c);
  }

  lemma NoSeparatorInConcat(p: seq<string>, q: seq<string>, c: char)
    requires forall k :: 0 <= k < |p| ==> c !in p[k]
    requires forall k :: 0 <= k < |q| ==> c !in q[k]
    ensures forall k :: 0 <= k < |p + q| ==> c !in (p + q)[k]
  {
    forall k | 0 <= k < |p + q|
      ensures c !in (p + q)[k]
    {
      if k >= |p| {
        assert (p + q)[k] == q[k - |p|];
      } else {
        assert (p + q)[k] == p[k];
      }
    }
  }

  /** Splitting on `c` and joining with `d` replaces every `c` by `d`: this is
      how the source rewrites a path into a dataset name. */
  lemma {:induction false} JoinSplitIsReplace(s: string, c: char, d: char)
    ensures Join(Split(s, c), [d]) == ReplaceChar(s, c, d)
    decreases |s|
  {
    var i := IndexOf(s, c);
    if i == |s| {
      NoReplacement(s, c, d);
    } else {
      var rest := Split(s[i + 1..], c);
      assert Split(s, c) == [s[..i]] + rest;
      JoinSplitIsReplace(s[i + 1..], c, d);
      NoReplacement(s[..i], c, d);
      ReplaceSplitsAt(s, i, c, d);
    }
  }

  lemma NoReplacement(s: string, c: char, d: char)
    requires c !in s
    ensures ReplaceChar(s, c, d) == s
  {
    var r := ReplaceChar(s, c, d);
    assert forall k :: 0 <= k < |s| ==> r[k] == s[k];
  }

  lemma ReplaceSplitsAt(s: string, i: nat, c: char, d: char)
    requires i < |s| && s[i] == c
    ensures ReplaceChar(s, c, d)
         == ReplaceChar(s[..i], c, d) + [d] + ReplaceChar(s[i + 1..], c, d)
  {
    var r := ReplaceChar(s, c, d);
    var t := ReplaceChar(s[..i], c, d) + [d] + ReplaceChar(s[i + 1..], c, d);
    assert |r| == |t|;
    forall k | 0 <= k < |r|
      ensures r[k] == t[k]
    {
      if k < i {
        assert t[k] == ReplaceChar(s[..i], c, d)[k];
      } else if k > i {
        assert t[k] == ReplaceChar(s[i + 1..], c, d)[k - i - 1];
      }
    }
  }
}

=== FILE: timestamp.dfy ===
/** The scan timestamp of the crawler: `datetime.utcnow()` rendered with
    `strftime('%Y-%m-%dT%H:%M:%SZ')`, together with the reading-back of such a
    string, so that the rendering can be shown to lose nothing. */
module Timestamp {
  import opened Py

  /** A broken-down UTC time. */
  datatype DateTime = DateTime(year: int, month: int, day: int,
                               hour: int, minute: int, second: int)
  {
    /** The ranges `datetime` keeps its fields in. The year starts at 1900
        because Python 2's `strftime` refuses earlier years; the clock never
        yields one. */
    predicate Valid()
    {
      && 1900 <= year <= 9999
      && 1 <= month <= 12
      && 1 <= day <= 31
      && 0 <= hour <= 23
      && 0 <= minute <= 59
      && 0 <= second <= 59
    }
  }

  /** What `datetime.utcnow()` can return. */
  type UtcNow = t: DateTime | t.Valid() witness DateTime(1970, 1, 1, 0, 0, 0)

  predicate IsDigit(c: char)
  {
    '0' <= c <= '9'
  }

  function Digit(n: nat): (c: char)
    requires n < 10
    ensures IsDigit(c)
  {
    ('0' as int + n) as char
  }

  function DigitValue(c: char): int
  {
    c as int - '0' as int
  }

  /** `%02d`-style zero padding to a fixed width. */
  function Pad(n: nat, width: nat): (s: string)
    ensures |s| == width
    ensures forall k :: 0 <= k < width ==> IsDigit(s[k])
  {
    if width == 0 then "" else Pad(n / 10, width - 1) + [Digit(n % 10)]
  }

  /** The decimal value of a string of digits. */
  function Value(s: string): int
  {
    if |s| == 0 then 0 else 10 * Value(s[..|s| - 1]) + DigitValue(s[|s| - 1])
  }

  function Power10(k: nat): (p: nat)
    ensures p >= 1
  {
    if k == 0 then 1 else 10 * Power10(k - 1)
  }

  /** Padding keeps every value below `10^width`. */
  lemma {:induction false} PadValue(n: nat, width: nat)
    requires n < Power10(width)
    ensures Value(Pad(n, width)) == n
    decreases width
  {
    if width > 0 {
      var s := Pad(n, width);
      assert s[..|s| - 1] == Pad(n / 10, width - 1);
      PadValue(n / 10, width - 1);
    }
  }

  /** The source's format string `'%Y-%m-%dT%H:%M:%SZ'`. */
  function Format(t: UtcNow): (s: string)
    ensures |s| == 20
    ensures s[4] == '-' && s[7] == '-' && s[10] == 'T'
    ensures s[13] == ':' && s[16] == ':' && s[19] == 'Z'
    ensures forall k :: 0 <= k < 20 && k !in {4, 7, 10, 13, 16, 19} ==> IsDigit(s[k])
  {
    var y, mo, d, h, mi, se := Pad(t.year, 4), Pad(t.month, 2), Pad(t.day, 2),
                               Pad(t.hour, 2), Pad(t.minute, 2), Pad(t.second, 2);
    LayoutFields(y, mo, d, h, mi, se);
    Layout(y, mo, d, h, mi, se)
  }

  /** The fields laid out with the format's separators. */
  function Layout(y: string, mo: string, d: string, h: string, mi: string, se: string): string
  {
    y + "-" + mo + "-" + d + "T" + h + ":" + mi + ":" + se + "Z"
  }

  /** Where each field of the layout sits. */
  lemma LayoutFields(y: string, mo: string, d: string, h: string, mi: string, se: string)
    requires |y| == 4 && |mo| == 2 && |d| == 2 && |h| == 2 && |mi| == 2 && |se| == 2
    ensures var s := Layout(y, mo, d, h, mi, se);
            && |s| == 20
            && s[4] == '-' && s[7] == '-' && s[10] == 'T'
            && s[13] == ':' && s[16] == ':' && s[19] == 'Z'
            && s[..4] == y && s[5..7] == mo && s[8..10] == d
            && s[11..13] == h && s[14..16] == mi && s[17..19] == se
  {
    var s := Layout(y, mo, d, h, mi, se);
    assert s[..4] == y;
    assert s[5..7] == mo;
    assert s[8..10] == d;
    assert s[11..13] == h;
    assert s[14..16] == mi;
    assert s[17..19] == se;
  }

  /** Reads a `YYYY-MM-DDTHH:MM:SSZ` string back into its fields; `None` for
      any string of another shape. */
  function Parse(s: string): (r: Option<DateTime>)
    ensures r.Some? ==> |s| == 20 && s[10] == 'T' && s[19] == 'Z'
  {
    if |s| == 20 && s[4] == '-' && s[7] == '-' && s[10] == 'T'
       && s[13] == ':' && s[16] == ':' && s[19] == 'Z'
    then Some(DateTime(Value(s[..4]), Value(s[5..7]), Value(s[8..10]),
                       Value(s[11..13]), Value(s[14..16]), Value(s[17..19])))
    else None
  }

  /** Formatting loses nothing: the fields read back from the scan timestamp
      are the time it was made from. Hence two different times never share a
      timestamp. */
  lemma ParseFormat(t: UtcNow)
    ensures Parse(Format(t)) == Some(t)
  {
    LayoutFields(Pad(t.year, 4), Pad(t.month, 2), Pad(t.day, 2), Pad(t.hour, 2), Pad(t.minute, 2), Pad(t.second, 2));
    assert Power10(2) == 100 && Power10(4) == 10000;
    PadValue(t.year, 4);
    PadValue(t.month, 2);
    PadValue(t.day, 2);
    PadValue(t.hour, 2);
    PadValue(t.minute, 2);
    PadValue(t.second, 2);
  }

  lemma FormatInjective(t: UtcNow, u: UtcNow)
    requires Format(t) == Format(u)
    ensures t == u
  {
    ParseFormat(t);
    ParseFormat(u);
  }
}
